=== FILE: README.md ===
# xarray-treeview core, modelled in Dafny

This project models the data layer of xarray-treeview. That layer is a tree of
named nodes, each holding an optional xarray `Dataset`, plus the Qt item and
model classes that turn the tree into rows and rename things through it. The
Qt widgets and the numerics are not modelled.

- **Tree** (`XarrayTreeNode`): an immutable `Node(name, data, children)`. A node
  is addressed by its child-index path from the root. The `children` dict is the
  ordered child sequence keyed by the children's names. `ValidTree` states the
  sibling-name rule the setters enforce.
- **Datasets**: insertion-ordered `sizes`, `data_vars` and `coords`.
  - A variable is a map from index tuples to values.
  - A coordinate is one-dimensional: a dimension and its labels.
  - A labelled array (`LArray`) maps label tuples to values. This is what
    `sel` and `.loc` assignment act on.
- **Errors**: Python exceptions become `Result.Err`.
  - `MissingDataset`: attribute access on a `None` dataset.
  - `MissingDim`: a `KeyError` on a missing key in `sizes`, and the error `sel`
    raises for a dimension the selected array lacks (`Datasets.Select`).
  - `NameConflict`: the explicit `raise` of the setters and of `rename_vars`'s
    first walk, and the `ValueError` xarray's `Dataset.rename_vars` raises in
    the second walk when two entries would end up under one name
    (`VarRenames.RenameRaises`).
  - `UnboundLocal`: the plain package's `flags` reading `flags` unassigned for
    a column other than 0 and 1 (`Models.PlainFlags`).
  - `ShapeMismatch`: the `ValueError` of `leaf_data`'s `.loc` assignment when a
    deeper holder's values do not have the shape of the selection they are
    assigned into (`Inheritance.LayerAt`).
- **Item trees**: the plain package (`xarray_treeview`) and the PyQt package
  (`pyqt_xarray_treeview`) are modelled together. They differ only in:
  - the options they read;
  - the separator in an item's `path`;
  - their `flags`;
  - the namespace their cascading rename checks.
  The plain package's items read the dataset as `node.data`, where the PyQt
  package reads `node.dataset`. Both are `Node.data` here.
- **Unmodelled calls**: the Qt prompt answer and whether the view supports drops
  are boolean inputs. `combine_first` is a partial function parameter. The
  reduction and fit results are dataset parameters.

Modules follow the source:

| module | file |
|---|---|
| `Wrappers`, `Seqs` | `Option`/`Result`/`Error`, and generic sequence lemmas |
| `Datasets`, `Decimal` | datasets and `rename_vars` on one dataset; `str`/`int` of sizes |
| `Tree`, `TreeEdit` | positions, subtree replacement, adding and popping children |
| `NodeOps` | the `name` and `parent` setters, `path` |
| `Traversal` | navigation, preorder, `depth`, `subtree_max_depth` |
| `VarRenames` | `XarrayTreeNode.rename_vars` |
| `Inheritance` | `inherited_coord(s)`, `inherited_data`, `leaf_data` |
| `Append` | the result name, the append policy of `reduce`/`curve_fit`, and parameter hints |
| `Permutations` | `permutations` |
| `UniqueNames` | `unique_name` |
| `Items` | both `XarrayTreeItem` classes |
| `Models` | both `XarrayTreeModel` classes |

The model follows the code as written, also where it does not do what its own
comments say:

- In the PyQt model's `flags`, a row whose kind is not an allowed selection is
  returned as enabled and editable before the column is looked at. Such a row is
  therefore editable in column 1 too. `Models.PyQtFlags` states this.
- Both renames check before they change anything ("check that all name changes
  are valid before proceeding", xarray_tree.py:79; "check that all name changes
  in tree are valid", PyQtXarrayTreeModel.py:102). Neither check covers every
  way the change can fail. `rename_vars` can raise part-way through its second
  walk, and the PyQt cascade can apply partially. See Findings.

The plain package's items import `XarrayTreeNode` from a module `xarray_tree`
that is not part of this model. They read a node's dataset as `node.data`
(XarrayTreeItem.py:29) and as `node.ds` (XarrayTreeModel.py:112). The model
assumes that this node is the PyQt package's `XarrayTreeNode`, with `data` and
`ds` standing for its `dataset`. That includes its slash-terminated `path`,
which is where the empty segment of `Items.PlainItemPathSegments` comes from.

## Model

Paths are relative to the repository root.

| member | source | states |
|---|---|---|
| Datasets.Lookup | src/pyqt_xarray_treeview/xarray_tree.py:122-123 | a dict lookup finds a value exactly when the key is present, and the value found is paired with the key in the dict |
| Datasets.LookupAt | src/pyqt_xarray_treeview/xarray_tree.py:122-123 | with distinct keys, looking up the key at position i gives the value at position i |
| Datasets.RenameKeys | src/pyqt_xarray_treeview/xarray_tree.py:99 | `Dataset.rename_vars` keeps every entry's position and value, and renames exactly the keys the dict names |
| Datasets.Applicable | src/pyqt_xarray_treeview/xarray_tree.py:94-97 | the per-node rename dict holds exactly the pairs of the requested dict whose old name the dataset holds as a variable or coordinate |
| Datasets.RenameHas | src/pyqt_xarray_treeview/xarray_tree.py:99 | after a rename, a name is a variable (coordinate) exactly when it is the new name of a former variable (coordinate) |
| Datasets.RenamePreservesWellFormed | src/pyqt_xarray_treeview/xarray_tree.py:84-87 | a rename that passed the overlap check, and sends no two held names to one name, leaves every name unique across variables and coordinates |
| Datasets.IndexIn | src/pyqt_xarray_treeview/xarray_tree.py:133 | the label index is found exactly when the label occurs, and it is its first occurrence |
| Datasets.IndexOf | src/pyqt_xarray_treeview/xarray_tree.py:133 | the position label-based selection picks is inside the shape and carries the requested labels |
| Datasets.IndexOfLabel | src/pyqt_xarray_treeview/xarray_tree.py:133 | with labels that never repeat, looking up the labels of a position gives that position back |
| Datasets.Labelled | src/pyqt_xarray_treeview/xarray_tree.py:124-129 | attaching coordinates gives every cell the value stored at the position its labels address |
| Datasets.LabelledLossless | src/pyqt_xarray_treeview/xarray_tree.py:124-129 | with unique labels, attaching coordinates keeps every stored value, under its labels |
| Datasets.Select | src/pyqt_xarray_treeview/xarray_tree.py:133 | `sel` raises exactly when the footprint names a dimension the array does not have; otherwise it keeps exactly the cells inside the footprint, with their values, and keeps the dimensions |
| Datasets.RenameConflictsIff | src/pyqt_xarray_treeview/xarray_tree.py:84-99 | for a well-formed dataset that passed the overlap check, `Dataset.rename_vars` raises exactly when two held names are sent to one new name |
| Datasets.NoConflictWellFormed | src/pyqt_xarray_treeview/xarray_tree.py:99 | a `Dataset.rename_vars` that does not raise leaves every name unique across variables and coordinates |
| Decimal.Format | src/xarray_treeview/XarrayTreeItem.py:118 | `str(n)` is a non-empty digit string without a leading zero |
| Decimal.ParseFormat | src/xarray_treeview/XarrayTreeItem.py:118 | reading a formatted size back gives the size |
| Decimal.FormatInjective | src/xarray_treeview/XarrayTreeItem.py:118 | different sizes are shown as different text |
| Tree.PutAt | src/pyqt_xarray_treeview/xarray_tree.py:42 | after replacing the subtree at p, the node at p is the replacement |
| Tree.PutElsewhere | src/pyqt_xarray_treeview/xarray_tree.py:42 | replacing a subtree changes no node that is neither above nor below it |
| Tree.PutAbove | src/pyqt_xarray_treeview/xarray_tree.py:42 | every ancestor of the replaced subtree is the old ancestor with the change made inside it |
| Tree.PutValid | src/pyqt_xarray_treeview/xarray_tree.py:36-39 | putting in a valid subtree whose name is free among its siblings keeps sibling names unique everywhere |
| Tree.ValidPosConcat | src/pyqt_xarray_treeview/xarray_tree.py:65-72 | walking a path in two parts reaches the same node as walking it in one go |
| TreeEdit.OwnNameFree | src/pyqt_xarray_treeview/xarray_tree.py:36-39 | in a valid tree, a node's own name clashes with none of its siblings |
| TreeEdit.ValidAt | src/pyqt_xarray_treeview/xarray_tree.py:36-39 | every subtree of a valid tree is valid |
| TreeEdit.AppendKeeps | src/pyqt_xarray_treeview/xarray_tree.py:62 | adding a child changes no node other than the new child's ancestors |
| TreeEdit.AppendAbove | src/pyqt_xarray_treeview/xarray_tree.py:62 | the new parent's children are the old ones followed by the new child, and the ancestors above it keep their children's names |
| TreeEdit.RemoveKeeps | src/pyqt_xarray_treeview/xarray_tree.py:59 | popping a child keeps every node outside the popped subtree, with later siblings' indices shifted down by one |
| TreeEdit.RemoveAbove | src/pyqt_xarray_treeview/xarray_tree.py:59 | popping a child removes exactly that entry from the old parent's children, and the ancestors above keep their children's names |
| NodeOps.SetName | src/pyqt_xarray_treeview/xarray_tree.py:29-42 | renaming to the current name changes nothing, and a root just takes the name; otherwise a name held by a sibling raises and anything else renames the node alone, keeping the tree valid |
| NodeOps.SetNameRekeysParent | src/pyqt_xarray_treeview/xarray_tree.py:41-42 | after a rename, the parent's keys are its old keys with the renamed child's key replaced in place, in the same order |
| NodeOps.SetNameKeepsOthers | src/pyqt_xarray_treeview/xarray_tree.py:29-42 | a rename changes no node outside the renamed node's line |
| NodeOps.Detach | src/pyqt_xarray_treeview/xarray_tree.py:57-63 | `node.parent = None` pops exactly that child from the old parent and returns the node as the root of its own valid tree |
| NodeOps.Attach | src/pyqt_xarray_treeview/xarray_tree.py:48-63 | a root joining a tree raises exactly when the new parent has a child of that name; otherwise it becomes the parent's last child and the tree stays valid |
| NodeOps.Move | src/pyqt_xarray_treeview/xarray_tree.py:48-63 | re-setting the same parent is a no-op; a name clash raises before anything is detached; otherwise the node is the new parent's last child, the old parent's children lose exactly the node, and the tree stays valid |
| NodeOps.MoveKeepsOthers | src/pyqt_xarray_treeview/xarray_tree.py:57-62 | a move changes no node off the lines of the old and the new parent; the moved node's later siblings, with what lies below them, only move one index down |
| NodeOps.MoveTarget | src/pyqt_xarray_treeview/xarray_tree.py:57-62 | once the node is popped, the new parent is still found, shifted, with its name and children unchanged |
| NodeOps.TrimStart | src/pyqt_xarray_treeview/xarray_tree.py:70 | the left strip removes exactly the leading slashes |
| NodeOps.TrimEnd | src/pyqt_xarray_treeview/xarray_tree.py:70 | the right strip removes exactly the trailing slashes |
| NodeOps.PathSegments | src/pyqt_xarray_treeview/xarray_tree.py:65-72 | when no stripped name holds a slash, splitting `path` at its slashes gives the stripped names from the root to the node |
| NodeOps.NodePathLast | src/pyqt_xarray_treeview/xarray_tree.py:65-72 | a node's path always ends in a slash |
| Traversal.FirstChild | src/pyqt_xarray_treeview/xarray_tree.py:444-446 | the first child exists exactly when the node has children, and it is child 0 |
| Traversal.LastChild | src/pyqt_xarray_treeview/xarray_tree.py:448-450 | the last child exists exactly when the node has children, and it is the final one |
| Traversal.Siblings | src/pyqt_xarray_treeview/xarray_tree.py:462-465 | the sibling list holds the node at its sibling index; a root is its own only sibling |
| Traversal.NextSibling | src/pyqt_xarray_treeview/xarray_tree.py:467-472 | a next sibling exists exactly when the node is a child and not its parent's last; it is the next child of the same parent |
| Traversal.PrevSibling | src/pyqt_xarray_treeview/xarray_tree.py:474-479 | a previous sibling exists exactly when the node is a child and not the first; it is the previous child of the same parent |
| Traversal.FirstSibling | src/pyqt_xarray_treeview/xarray_tree.py:452-455 | the first sibling is the first entry of the sibling list |
| Traversal.LastSibling | src/pyqt_xarray_treeview/xarray_tree.py:457-460 | the last sibling is the last entry of the sibling list |
| Traversal.LastNode | src/pyqt_xarray_treeview/xarray_tree.py:481-485 | `last_node_depth_first` lies below the node, takes the last child at every step, and ends at a leaf |
| Traversal.NextIsNextIn | src/pyqt_xarray_treeview/xarray_tree.py:487-498 | `next_node_depth_first` (first child, else the next sibling of the nearest ancestor-or-self that has one) equals the successor defined on the structure of the tree |
| Traversal.PreorderStep | src/pyqt_xarray_treeview/xarray_tree.py:487-498 | `next_node_depth_first` takes each node to the one after it in preorder, and the last one to `None` |
| Traversal.PreorderChain | src/pyqt_xarray_treeview/xarray_tree.py:487-498 | the preorder sequence is one unbroken chain of successors that ends in `None` |
| Traversal.PreorderHasAll | src/pyqt_xarray_treeview/xarray_tree.py:487-498 | every node appears in preorder |
| Traversal.PreorderDistinct | src/pyqt_xarray_treeview/xarray_tree.py:487-498 | no node appears twice in preorder |
| Traversal.Enumerate | src/pyqt_xarray_treeview/xarray_tree.py:487-498 | following `next_node_depth_first` until `None` visits each node once; from the root it visits every node |
| Traversal.PrevUndoesNext | src/pyqt_xarray_treeview/xarray_tree.py:487-505 | `prev_node_depth_first` of a node's successor is the node |
| Traversal.NextUndoesPrev | src/pyqt_xarray_treeview/xarray_tree.py:487-505 | only the root has no predecessor, and `next_node_depth_first` of a node's predecessor is the node |
| Traversal.Depth | src/pyqt_xarray_treeview/xarray_tree.py:512-518 | `depth` counts the parent hops to the root, so the root has depth 0 |
| Traversal.MaxRelIsMax | src/pyqt_xarray_treeview/xarray_tree.py:520-529 | the running maximum bounds every relative depth and is one of them, unless it is 0 |
| Traversal.SubtreeMaxDepth | src/pyqt_xarray_treeview/xarray_tree.py:520-529 | as written: the largest relative depth over every node visited after the start, including nodes outside its subtree |
| Traversal.SubtreeDepth | src/pyqt_xarray_treeview/xarray_tree.py:520-529 | the subtree height: it bounds the relative depth of every node below, and some node below reaches it |
| Traversal.SiblingLater | src/pyqt_xarray_treeview/xarray_tree.py:487-498 | in depth-first order a node comes before its next sibling |
| Traversal.NextSiblingAfter | src/pyqt_xarray_treeview/xarray_tree.py:487-498 | following `next_node_depth_first` from any node with a next sibling reaches that sibling, which lies outside the node's subtree, and then the sibling's first child |
| Traversal.SubtreeMaxDepthOvercounts | src/pyqt_xarray_treeview/xarray_tree.py:520-529 | for any node whose next sibling has a child, the as-written walk gives at least 1; for a leaf, whose subtree height is 0, it gives more than the height |
| Traversal.SubtreeMaxDepthExample | src/pyqt_xarray_treeview/xarray_tree.py:520-529 | in the tree root{a, b{c}}, the as-written walk from `a` gives 1 while `a`'s height is 0 |
| VarRenames.RenameData | src/pyqt_xarray_treeview/xarray_tree.py:92-99 | one node's rename keeps sizes, order and values and renames exactly the held names the dict mentions |
| VarRenames.RenameRaisesIff | src/pyqt_xarray_treeview/xarray_tree.py:84-99 | at a well-formed node that passed the check, the second walk's rename raises exactly when the dict sends two held names to one name |
| VarRenames.RenameDataWellFormed | src/pyqt_xarray_treeview/xarray_tree.py:92-99 | a node whose rename does not raise keeps its names unique |
| VarRenames.RenameAlong | src/pyqt_xarray_treeview/xarray_tree.py:79-100 | both walks over a node sequence, as written: the call raises exactly when some visited dataset fails the overlap check or some visited rename raises; a failed check changes nothing; a raise in the second walk leaves exactly the nodes before the first raising node renamed; otherwise exactly the visited nodes are renamed |
| VarRenames.RenameChecked | src/pyqt_xarray_treeview/xarray_tree.py:79-100 | corrected walks: the call raises exactly when some visited node fails the overlap check or would raise on its rename, and then nothing changes; otherwise exactly the visited nodes are renamed |
| VarRenames.RenameVars | src/pyqt_xarray_treeview/xarray_tree.py:76-102 | as written over the node and every node after it in preorder: a failed check changes nothing; a raising rename leaves the earlier nodes renamed; a success renames them all, keeping names, positions and well-formed datasets; the tree stays valid in every case |
| VarRenames.SubtreePositions | src/pyqt_xarray_treeview/xarray_tree.py:77 | the list holds exactly the nodes of the subtree |
| VarRenames.RenameVarsInSubtree | src/pyqt_xarray_treeview/xarray_tree.py:76-102 | as documented and as the check intends: all-or-nothing over exactly the subtree of the node, keeping datasets well formed |
| VarRenames.RenameVarsLeavesSubtree | src/pyqt_xarray_treeview/xarray_tree.py:76-100 | from any node with a next sibling, the as-written walk visits that sibling, which the subtree does not hold, and a successful call renames the sibling's dataset as it renames the visited nodes |
| VarRenames.RenameVarsLeavesExample | src/pyqt_xarray_treeview/xarray_tree.py:88-100 | in the tree root{a, b}, both leaves holding variable `x`, the walk from `a` visits `b` and renaming `x` to `y` changes `b`'s dataset |
| VarRenames.RenameVarsPartial | src/pyqt_xarray_treeview/xarray_tree.py:80-100 | a tree where both nodes pass the check, the root's rename succeeds, and the child's rename then raises |
| Inheritance.Nearest | src/pyqt_xarray_treeview/xarray_tree.py:119-134 | the upward search returns the deepest ancestor-or-self holding the variable or coordinate, or nothing when none holds it |
| Inheritance.Shallowest | src/pyqt_xarray_treeview/xarray_tree.py:153-158 | the downward search returns the shallowest node on the path that holds the variable, or nothing |
| Inheritance.IndexCoord | src/pyqt_xarray_treeview/xarray_tree.py:192-195 | the fallback coordinate is 0..n-1 along the dimension, and raises when the node lacks that dimension |
| Inheritance.InheritedCoord | src/pyqt_xarray_treeview/xarray_tree.py:180-195 | `inherited_coord` raises on a node with no dataset; it takes the nearest holder's coordinate when its length matches the node's size, the index labels when the length differs or no ancestor-or-self holds one, and raises when the node lacks the coordinate's dimension |
| Inheritance.InheritedCoordNearest | src/pyqt_xarray_treeview/xarray_tree.py:186-195 | a holder with no holder between it and the node decides: its coordinate when the length agrees, the node's index labels when it differs, a `KeyError` when the node lacks the dimension |
| Inheritance.InheritedCoordLocal | src/pyqt_xarray_treeview/xarray_tree.py:186-193 | a node's own coordinate of matching length is the one returned |
| Inheritance.InheritedCoordFromParent | src/pyqt_xarray_treeview/xarray_tree.py:186-194 | a node lacking the coordinate gets its parent's found coordinate when the length matches |
| Inheritance.CoordsFor | src/pyqt_xarray_treeview/xarray_tree.py:202-206 | one coordinate per dimension, in order, failing exactly when some dimension's lookup fails |
| Inheritance.InheritedCoords | src/pyqt_xarray_treeview/xarray_tree.py:197-207 | one entry per dimension of the node; the local coordinate wins, else the inherited one |
| Inheritance.NearestIs | src/pyqt_xarray_treeview/xarray_tree.py:119-134 | a holder with no holder between it and the node is the one the upward search finds |
| Inheritance.InheritedData | src/pyqt_xarray_treeview/xarray_tree.py:114-134 | `inherited_data` is nothing exactly when no ancestor-or-self holds the variable; otherwise it has the nearest holder's dimensions and every value it shows is a value of the nearest holder's variable |
| Inheritance.InheritedDataAtOwner | src/pyqt_xarray_treeview/xarray_tree.py:130-131 | at the node that holds the variable, every stored value is returned unchanged, under its labels |
| Inheritance.InheritedDataBelow | src/pyqt_xarray_treeview/xarray_tree.py:132-133 | below the holder, the result is the holder's array cut to the node's own coordinate footprint |
| Inheritance.Overlay | src/pyqt_xarray_treeview/xarray_tree.py:177 | `.loc` assignment overwrites exactly the cells the deeper array has and keeps every other cell |
| Inheritance.OverlayAllDeepestWins | src/pyqt_xarray_treeview/xarray_tree.py:167-177 | after all overlays, each cell holds the value of the deepest layer that has it, else its original value |
| Inheritance.OverlayTopWins | src/pyqt_xarray_treeview/xarray_tree.py:167-177 | a cell the last layer has takes the last layer's value |
| Inheritance.Holders | src/pyqt_xarray_treeview/xarray_tree.py:168-170 | the depths whose node holds the variable, each once and in increasing order |
| Inheritance.LayerAt | src/pyqt_xarray_treeview/xarray_tree.py:169-177 | a deeper holder's layer takes, for each dimension of the working array, the holder's own coordinate or else its inherited one, and the lookup's error if that raises; the assignment raises `ShapeMismatch` exactly when the holder's sizes, in order, differ from the lengths of those coordinates; otherwise each cell carries the holder's value at the position of its labels |
| Inheritance.LayerAtLossless | src/pyqt_xarray_treeview/xarray_tree.py:177 | with labels that never repeat, every value stored inside the holder's shape reaches the layer at its labels |
| Inheritance.LeafDataShapeMismatchExample | src/pyqt_xarray_treeview/xarray_tree.py:169-177 | root holding `v` over `x` of size 1, child holding `v` over `x` and `y`: the child's layer and its `leaf_data('v')` raise `ShapeMismatch` |
| Inheritance.LayersAt | src/pyqt_xarray_treeview/xarray_tree.py:168-177 | one layer per holder, in order, or an error one of the layers raised |
| Inheritance.OwnLayerLast | src/pyqt_xarray_treeview/xarray_tree.py:167-177 | when the node holds the variable, its own layer is the last one overlaid |
| Inheritance.Overlaid | src/pyqt_xarray_treeview/xarray_tree.py:161-178 | the overlay raises exactly when the holder's own array or one deeper holder's layer raises (`OverlayBuilds`), with that error; otherwise the array exists, with the holder's dimensions and cells |
| Inheritance.PathData | src/pyqt_xarray_treeview/xarray_tree.py:153-178 | nothing exactly when no node on the path holds the variable; it raises exactly when the overlay from the shallowest holder does; otherwise the array has the dimensions and cells of the shallowest holder's array |
| Inheritance.LeafData | src/pyqt_xarray_treeview/xarray_tree.py:136-178 | `leaf_data` at its own root is `inherited_data`; otherwise it is nothing exactly when no node from the root down holds the variable, raises exactly when the overlay from the shallowest holder does, and otherwise has the dimensions and cells of the shallowest holder's array |
| Inheritance.LeafDataCells | src/pyqt_xarray_treeview/xarray_tree.py:137-177 | below its own root, when `leaf_data` returns an array (so every deeper holder's values had the selection's shape), each cell carries the value of the deepest holder on the path whose layer has that cell, and otherwise the shallowest holder's value |
| Inheritance.OverlaidLayers | src/pyqt_xarray_treeview/xarray_tree.py:160-177 | the array built from a holder is its own array overlaid, in depth order, by exactly the layers of the deeper holders on the path |
| Inheritance.LeafDataOwnFootprint | src/pyqt_xarray_treeview/xarray_tree.py:167-177 | inside a node's own footprint, its own values win over every ancestor's |
| Inheritance.OverlaidOwnFootprint | src/pyqt_xarray_treeview/xarray_tree.py:167-177 | the same for an overlay started at any holder above the node |
| Append.ParseMode | src/pyqt_xarray_treeview/xarray_tree.py:253-271 | only the four documented strings select a branch |
| Append.ReduceName | src/pyqt_xarray_treeview/xarray_tree.py:233-236 | a given name is kept; else the operation's name, prefixed by the dimension and a space when one is given |
| Append.Place | src/pyqt_xarray_treeview/xarray_tree.py:249-271 | a new name appends a child; 'do not merge or replace', an unknown mode and a failed 'merge' leave the parent unchanged; a returned child carries the name |
| Append.PlaceSpec | src/pyqt_xarray_treeview/xarray_tree.py:249-271 | afterwards exactly one child carries the name; create and replace give it the fresh result; merge keeps its children and combines its data; other children are kept |
| Append.AppendResult | src/pyqt_xarray_treeview/xarray_tree.py:222-271 | a node with no dataset returns nothing; the returned child is a new child of the node with the result name; nodes off the node's line are unchanged; the tree stays valid |
| Append.PlaceValid | src/pyqt_xarray_treeview/xarray_tree.py:249-271 | the append policy keeps sibling names unique |
| Append.Reduce | src/pyqt_xarray_treeview/xarray_tree.py:211-271 | `reduce` stores its result in a child named by `ReduceName`, or returns nothing with no dataset |
| Append.CurveFit | src/pyqt_xarray_treeview/xarray_tree.py:273-434 | `curve_fit` stores its fit in a child named by the given name or the fit expression |
| Append.MakeHint | src/pyqt_xarray_treeview/xarray_tree.py:376-393 | the hint keeps whether a value was given and takes both bounds; a value below the lower bound becomes the lower bound, else one above the upper bound becomes the upper bound (so the lower bound wins when the bounds are crossed), and a value within them is kept |
| Append.MakeHintIdempotent | src/pyqt_xarray_treeview/xarray_tree.py:386-390 | clamping an already-clamped value changes nothing |
| Permutations.Listify | src/pyqt_xarray_treeview/xarray_tree.py:553-558 | a scalar entry becomes a one-element list; a list is kept |
| Permutations.RankBelowTotal | src/pyqt_xarray_treeview/xarray_tree.py:561-579 | every odometer reading is below the number of readings |
| Permutations.StepRank | src/pyqt_xarray_treeview/xarray_tree.py:571-579 | one turn adds one to the reading, and ends the loop exactly at the last reading |
| Permutations.StepStallsOnEmpty | src/pyqt_xarray_treeview/xarray_tree.py:561-579 | with no dimensions, every turn leaves the index where it was, so the loop never ends |
| Permutations.ProductMembers | src/pyqt_xarray_treeview/xarray_tree.py:538-552 | a combination is produced exactly when it takes one label from each dimension |
| Permutations.ProductSize | src/pyqt_xarray_treeview/xarray_tree.py:538-552 | with every list non-empty there is one combination per reading, the product of the lengths |
| Permutations.ProductAt | src/pyqt_xarray_treeview/xarray_tree.py:542-551 | the combination at rank r is the one the r-th reading points at: odometer order, last dimension fastest |
| Permutations.Odometer | src/pyqt_xarray_treeview/xarray_tree.py:559-580 | the loop collects, in order, the combination of every reading that points inside every list |
| Permutations.ExpectedAll | src/pyqt_xarray_treeview/xarray_tree.py:559-580 | what the loop collects is the whole product in odometer order, or nothing when some list is empty |
| Permutations.Permute | src/pyqt_xarray_treeview/xarray_tree.py:538-580 | one dict per combination, keyed by the dimensions in order; none when a list is empty |
| UniqueNames.CandidateInjective | src/pyqt_xarray_treeview/xarray_tree.py:587-590 | different suffix numbers give different candidate names |
| UniqueNames.UniqueName | src/pyqt_xarray_treeview/xarray_tree.py:582-591 | the result is free; it is the name itself when that is free, else the first free `name_k` |
| Items.BuildRows | src/xarray_treeview/XarrayTreeItem.py:28-40 | a node's item has a row for exactly the nodes below it and their shown variables and coordinates |
| Items.RowsMembers | src/pyqt_xarray_treeview/PyQtXarrayTreeItem.py:20-33 | the view has one row per node and one per variable or coordinate its options show (PyQt: not hidden and shown) |
| Items.IsVar | src/xarray_treeview/XarrayTreeItem.py:51-52 | a row is a variable row exactly when it has a key that is a variable of its dataset, and raises on a keyed row without a dataset |
| Items.IsCoord | src/pyqt_xarray_treeview/PyQtXarrayTreeItem.py:56-57 | a row is a coordinate row exactly when it has a key that is a coordinate of its dataset, and raises on a keyed row without a dataset |
| Items.ItemData | src/xarray_treeview/XarrayTreeItem.py:109-134 | column 0 shows the node name or the key; column 1 shows a node row's sizes and a keyed row's summary; a stale key, in either column, or another column shows nothing; a missing dataset raises where it is read |
| Items.ParseJoin | src/xarray_treeview/XarrayTreeItem.py:118 | the joined `dim: size` listing reads back as the sizes, in order |
| Items.DetailsRoundTrip | src/pyqt_xarray_treeview/PyQtXarrayTreeItem.py:65-68 | the details text of a node reads back as its sizes, in order |
| Items.ItemPathSegments | src/pyqt_xarray_treeview/PyQtXarrayTreeItem.py:41-48 | a PyQt keyed row's path splits into the node names and then the key |
| Items.PlainItemPathSegments | src/xarray_treeview/XarrayTreeItem.py:98-105 | a plain keyed row's path splits into the node names, an empty segment, then the key |
| Items.SetDatasetKeeps | src/xarray_treeview/XarrayTreeItem.py:148 | replacing one node's dataset changes no position, name or other dataset |
| Items.SetItemData | src/xarray_treeview/XarrayTreeItem.py:136-151 | another column changes nothing; a node row goes to the name setter; a keyed row is renamed exactly when its key is held and the new name is not, and then takes the new key |
| Items.SetItemDataRenames | src/pyqt_xarray_treeview/PyQtXarrayTreeItem.py:91-100 | after a successful entry rename the dataset holds the new name and not the old, and no other node's dataset changes |
| Items.SetItemDataValid | src/pyqt_xarray_treeview/PyQtXarrayTreeItem.py:86-101 | an edit keeps sibling names unique |
| Models.SetShowDetails | src/xarray_treeview/XarrayTreeModel.py:42-53 | the setting takes the new value; the same value announces nothing; a change inserts or removes exactly one column |
| Models.SetShowDetailsSettles | src/pyqt_xarray_treeview/PyQtXarrayTreeModel.py:37-60 | the column count is 2 with details and 1 without, and setting the same value again changes nothing |
| Models.PlainFlags | src/xarray_treeview/XarrayTreeModel.py:66-83 | rows are enabled and selectable; only column 0 is editable; with drops every row drags and only node rows accept drops; an invalid index accepts drops only |
| Models.PyQtFlags | src/pyqt_xarray_treeview/PyQtXarrayTreeModel.py:62-77 | an invalid or missing item has no flags; a row is selectable exactly when its kind is allowed; column 1 of an allowed row is not editable |
| Models.Collect | src/xarray_treeview/XarrayTreeModel.py:109-116 | the first walk passes exactly when no row fails the check, and then collects exactly the matching rows |
| Models.ApplyAll | src/xarray_treeview/XarrayTreeModel.py:117-121 | the second walk renames exactly the collected rows' nodes that do not already hold the new name |
| Models.Cascade | src/xarray_treeview/XarrayTreeModel.py:104-122 | both walks: a failed check leaves the tree unchanged, and a passed check renames exactly the collected nodes that can take the name |
| Models.PlainWalk | src/xarray_treeview/XarrayTreeModel.py:109-116 | the plain check fails exactly when some node showing the key already holds the new name |
| Models.PlainRenames | src/xarray_treeview/XarrayTreeModel.py:117-121 | after a passed check the plain cascade renames exactly the nodes showing the key |
| Models.PlainCascade | src/xarray_treeview/XarrayTreeModel.py:104-122 | the plain cascade renames the key at every node showing it, or nowhere |
| Models.RowsLive | src/xarray_treeview/XarrayTreeItem.py:51-55 | every keyed row of the view built from the current tree passes `is_var() or is_coord()` |
| Models.PlainSetData | src/xarray_treeview/XarrayTreeModel.py:98-125 | a non-edit role and the row's own key return False; a confirmed cascade from a live row is all-or-nothing; a stale row raises in `is_var` when its node has no dataset and otherwise returns False; anything else is the row's own `set_data` |
| Models.KindWalk | src/pyqt_xarray_treeview/PyQtXarrayTreeModel.py:101-121 | the PyQt check over one kind passes exactly when no dataset holds the new name as that kind |
| Models.KindRenames | src/pyqt_xarray_treeview/PyQtXarrayTreeModel.py:113-126 | the PyQt cascade renames exactly the holders of the key as that kind that do not hold the new name as either kind |
| Models.PyQtWalk | src/pyqt_xarray_treeview/PyQtXarrayTreeModel.py:101-127 | both PyQt walks: a failed check leaves the tree unchanged; a passed one renames the collected rows' nodes that can take the name |
| Models.PyQtSetData | src/pyqt_xarray_treeview/PyQtXarrayTreeModel.py:94-130 | as written: a live keyed row cascades, accepted exactly when no dataset holds the new name as the same kind, and then only holders free of it in both kinds are renamed; a stale row raises when its node has no dataset and otherwise returns False |
| Models.PyQtSetDataStrict | src/pyqt_xarray_treeview/PyQtXarrayTreeModel.py:94-130 | corrected: the check refuses a name held as either kind, so an accepted cascade renames every holder of the key; stale rows as in `PyQtSetData` |
| Models.StrictRenamesAll | src/pyqt_xarray_treeview/PyQtXarrayTreeModel.py:113-126 | once the strict check passes, every holder of the key can take the new name |
| Models.PartialRename | src/pyqt_xarray_treeview/PyQtXarrayTreeModel.py:105-121 | a tree where the as-written check passes but the strict one fails |
| Models.PartialRenameKeepsChild | src/pyqt_xarray_treeview/PyQtXarrayTreeModel.py:117-127 | in that tree the accepted cascade leaves the child's variable unrenamed |

## Left out

- The Qt views, the viewer and the UI: context menus, dialogs, icons, signals,
  and the saving and restoring of expand and selection state. The prompt answer
  is the `answer` input of `Models.PlainSetData`.
- The numerics of `reduce` and `curve_fit`: the reduction, polynomial, spline
  and lmfit fits, and NaN filling. Their results are dataset parameters. Only
  the result name, the append policy and the parameter-hint clamping are modelled.
- `curve_fit` with `coords=None` raises at `coords.copy()`. That crash is not
  modelled.
- `combine_first` is a partial function parameter.
- Datasets.Select: `sel` along a dimension the array lacks raises, but `sel` and
  `.loc` with labels outside a coordinate are not modelled as raising. The
  selection just keeps the cells inside the footprint, because the labelled
  array does not keep its coordinates' labels.
- Datasets are simplified:
  - Coordinates are one-dimensional.
  - Every variable spans all of its dataset's dimensions, in order.
  - Attributes and dtypes are dropped.
  - The column-1 text of variable and coordinate rows scrapes xarray's `repr`,
    so it is an uninterpreted `Summary(node, key)`.
- The dangling `_parent` left when replace mode pops a child. Parents are
  implicit in positions here, so the popped node simply leaves the tree.
- `to_datatree`, `dump`, `root` and `__repr__`, and the `test`/`test_live`
  drivers.
- `permutations` wraps scalars in its argument dict in place. Here the wrapping
  is a pure function of the entry.
- `get_item` / `itemFromIndex` returning `None` is an `Option` row. The model
  index is the row itself.
- NodeOps.Move: requires the new parent to lie outside the moved subtree. The
  setter at xarray_tree.py:48-63 has no such check. Moving a node under its own
  descendant pops it from its old parent and hangs it below itself, which cuts
  the subtree off the tree into a cycle. Trees here are finite values and cannot
  hold a cycle.
- Permutations.Odometer: requires at least one dimension. With none the source
  loop never ends (`StepStallsOnEmpty`), and `Permute` handles that case
  separately.
- Models.PlainSetData / Models.PyQtSetData: the items the cascade walks are
  taken to be the rows of the view built from the current tree and options.
  The edited row itself may be stale (its key gone or its node without a
  dataset), but a PyQt row whose key is still held must be one of those rows:
  the view shows no row of a kind its options hide.
- Models.PyQtSetData: the statement of which nodes are renamed holds only when
  every dataset is well formed (no name twice, no variable also a coordinate),
  as xarray guarantees.
- Inheritance.LayerAt / Inheritance.LeafData (and Inheritance.Overlaid,
  Inheritance.PathData, Inheritance.LeafDataCells through it): the assignment
  raises unless the shapes are equal; numpy's broadcasting of size-1 or missing
  leading dimensions is not modelled. Every dimension of the working array must
  be one of the holder's (else the coordinate lookup raises `MissingDim`), and
  xarray keeps each coordinate as long as its dimension, so a broadcastable
  shape is then an equal one. The model does not tie a dataset's own
  coordinates to its sizes, so for such an inconsistent dataset it may raise
  where numpy would broadcast.
- Items.Build / Items.RowsMembers / Items.BuildRows: each PyQt item is taken to
  be attached to its parent exactly once. The item constructor passes
  `parent=self` and also appends the child; `AbstractTreeItem` from `pyqt_ext`
  is not part of this model, so whether that registers a child twice is not
  known here.
- Inheritance.LayersAt: on failure it states only that some holder's layer
  raised that error, not that it was the first one.
- Inheritance.InheritedData: its contract says the result has the nearest
  holder's dimensions and only that holder's values. That these are exactly the
  holder's values cut to the node's footprint is stated separately, under unique
  labels (`InheritedDataAtOwner`, `InheritedDataBelow`).

## Findings

| source | as written | input that shows it | evidently intended | confidence | as-written member | corrected member |
|---|---|---|---|---|---|---|
| src/pyqt_xarray_treeview/xarray_tree.py:76-102 | `rename_vars` walks with `next_node_depth_first`, which continues past the node's subtree into later siblings and their subtrees | root with leaves `a` and `b`, both holding variable `x`; `a.rename_vars({'x': 'y'})` also renames `x` in `b` | rename only within this node's subtree, as the docstring says | high (not executed) | VarRenames.RenameVars, VarRenames.RenameVarsLeavesSubtree, VarRenames.RenameVarsLeavesExample | VarRenames.RenameVarsInSubtree |
| src/pyqt_xarray_treeview/xarray_tree.py:80-100 | the first walk checks only that no held old name meets a held new name; a dict sending two held names to one passes, and `Dataset.rename_vars` then raises `ValueError` in the second walk after the earlier nodes are renamed | root holding `a`, child holding `a` and `b`; `root.rename_vars({'a': 'c', 'b': 'c'})` renames the root, then raises at the child | check every node's rename, collisions included, before renaming any | high (not executed) | VarRenames.RenameVars, VarRenames.RenameVarsPartial | VarRenames.RenameVarsInSubtree |
| src/pyqt_xarray_treeview/xarray_tree.py:520-529 | `subtree_max_depth` takes the maximum over every node after the start in preorder | root with leaf `a` and node `b` with child `c`; `a.subtree_max_depth()` is 1 | the height of the node's own subtree (0 for a leaf) | high (not executed) | Traversal.SubtreeMaxDepth, Traversal.SubtreeMaxDepthOvercounts, Traversal.SubtreeMaxDepthExample | Traversal.SubtreeDepth |
| src/pyqt_xarray_treeview/PyQtXarrayTreeModel.py:105-127 | the cascade checks the new name only among entries of the edited kind, but each row's `set_data` refuses a name held as either kind, and the call still returns True | root holding variable `x`, child holding variable `x` and coordinate `y`; rename `x` to `y` from the root's row: the root is renamed, the child is not | refuse the whole rename when any holder already has the new name as either kind | high (not executed) | Models.PyQtSetData, Models.PartialRename, Models.PartialRenameKeepsChild | Models.PyQtSetDataStrict, Models.StrictRenamesAll |
| src/pyqt_xarray_treeview/xarray_tree.py:559-579 | with an empty dict, `index` is `{}`, the reversed loop over no dimensions never sets it to `None`, and the `while` never ends | `permutations({})` | return the single empty combination `[{}]` | high (not executed) | Permutations.StepStallsOnEmpty | Permutations.Permute |

=== FILE: append.dfy ===
/** The result naming and append policy shared by `reduce` and `curve_fit`,
    and the bound clamping of `curve_fit`'s parameter hints. The reduction
    and the fit themselves are numerics and enter as the computed dataset. */
module Append {
  import opened Wrappers
  import opened Datasets
  import opened Tree
  import opened TreeEdit

  /** The `append_mode` argument; any other string matches no branch. */
  datatype AppendMode = DoNotMergeOrReplace | Replace | Merge | MergeOrReplace | Unrecognised

  function ParseMode(s: string): (m: AppendMode)
    ensures m == Unrecognised <==>
              s != "do not merge or replace" && s != "replace" && s != "merge" && s != "merge or replace"
  {
    if s == "do not merge or replace" then DoNotMergeOrReplace
    else if s == "replace" then Replace
    else if s == "merge" then Merge
    else if s == "merge or replace" then MergeOrReplace
    else Unrecognised
  }

  /** `result.combine_first(child.dataset)`: `None` when it raises. */
  type Combine = (Dataset, Option<Dataset>) -> Option<Dataset>

  /** The default result name of `reduce`: the operation's name, after the
      reduced dimension and a space when there is one. */
  function ReduceName(given: Option<string>, opName: string, dim: Option<string>): (r: string)
    ensures given.Some? ==> r == given.value
    ensures given.None? ==> |r| >= |opName| && r[|r| - |opName|..] == opName
    ensures given.None? && dim.None? ==> |r| == |opName|
    ensures given.None? && dim.Some? ==>
              |r| == |dim.value| + 1 + |opName| && r[..|dim.value|] == dim.value && r[|dim.value|] == ' '
  {
    match given
    case Some(n) => n
    case None =>
      match dim
      case None => opName
      case Some(d) => d + " " + opName
  }

  /** The index of the child called `name`: `self.children[name]`. */
  function ChildIndex(cs: seq<Node>, name: string): (i: nat)
    requires name in Names(cs)
    ensures i < |cs| && cs[i].name == name
    ensures forall j :: 0 <= j < i ==> cs[j].name != name
  {
    if cs[0].name == name then 0
    else
      assert Names(cs[1..]) == Names(cs)[1..];
      1 + ChildIndex(cs[1..], name)
  }

  /** The append policy on the parent node: its new state and the index of the
      child returned, if any. */
  function Place(parent: Node, name: string, result: Dataset, mode: AppendMode, combine: Combine): (r: (Node, Option<nat>))
    ensures r.0.name == parent.name && r.0.data == parent.data
    ensures r.1.Some? ==> r.1.value < |r.0.children| && r.0.children[r.1.value].name == name
    ensures r.1.None? ==> r.0 == parent
    ensures name !in Names(parent.children) ==>
              r.1 == Some(|parent.children|) && r.0.children[..|parent.children|] == parent.children
    ensures name in Names(parent.children) && (mode == DoNotMergeOrReplace || mode == Unrecognised) ==> r.1.None?
    ensures (name in Names(parent.children) && mode == Merge &&
             combine(result, parent.children[ChildIndex(parent.children, name)].data).None?) ==> r.1.None?
  {
    var cs := parent.children;
    var made := Node(name, Some(result), []);
    if name !in Names(cs) then
      assert (cs + [made])[..|cs|] == cs;
      (parent.(children := cs + [made]), Some(|cs|))
    else
      var i := ChildIndex(cs, name);
      var replaced := parent.(children := RemoveIndex(cs, i) + [made]);
      match mode
      case DoNotMergeOrReplace => (parent, None)
      case Unrecognised => (parent, None)
      case Replace => (replaced, Some(|cs| - 1))
      case Merge =>
        (match combine(result, cs[i].data)
         case Some(m) => (parent.(children := cs[i := cs[i].(data := Some(m))]), Some(i))
         case None => (parent, None))
      case MergeOrReplace =>
        (match combine(result, cs[i].data)
         case Some(m) => (parent.(children := cs[i := cs[i].(data := Some(m))]), Some(i))
         case None => (replaced, Some(|cs| - 1)))
  }

  /** Which branch of the policy applies. */
  predicate Replaces(parent: Node, name: string, result: Dataset, mode: AppendMode, combine: Combine)
  {
    name in Names(parent.children) &&
    (mode == Replace || (mode == MergeOrReplace && combine(result, parent.children[ChildIndex(parent.children, name)].data).None?))
  }

  predicate Merges(parent: Node, name: string, result: Dataset, mode: AppendMode, combine: Combine)
  {
    name in Names(parent.children) && (mode == Merge || mode == MergeOrReplace) &&
    combine(result, parent.children[ChildIndex(parent.children, name)].data).Some?
  }

  /** Under sibling-name uniqueness, the returned child is the only one of that
      name, it holds the result when it was created or replaced, and every
      other child is kept. */
  lemma PlaceSpec(parent: Node, name: string, result: Dataset, mode: AppendMode, combine: Combine, r: (Node, Option<nat>))
    requires Distinct(Names(parent.children))
    requires r == Place(parent, name, result, mode, combine)
    ensures Distinct(Names(r.0.children))
    ensures r.1.Some? ==> forall j :: 0 <= j < |r.0.children| ==> (r.0.children[j].name == name <==> j == r.1.value)
    ensures name !in Names(parent.children) || Replaces(parent, name, result, mode, combine) ==>
              r.1.Some? && r.0.children[r.1.value] == Node(name, Some(result), [])
    ensures Merges(parent, name, result, mode, combine) ==>
              var i := ChildIndex(parent.children, name);
              && r.1 == Some(i)
              && r.0.children[i].children == parent.children[i].children
              && r.0.children[i].data == combine(result, parent.children[i].data)
    ensures forall c :: c in parent.children && c.name != name ==> c in r.0.children
    ensures forall c :: c in r.0.children && c.name != name ==> c in parent.children
  {
    var cs := parent.children;
    var made := Node(name, Some(result), []);
    if name !in Names(cs) {
      AddSpec(cs, made);
    } else {
      var i := ChildIndex(cs, name);
      OnlyOneNamed(cs, name);
      if Replaces(parent, name, result, mode, combine) {
        assert r.0.children == RemoveIndex(cs, i) + [made];
        ReplaceSpec(cs, name, made);
      } else if Merges(parent, name, result, mode, combine) {
        MergeSpec(cs, i, r.0.children[i].data);
        assert r.0.children == cs[i := cs[i].(data := r.0.children[i].data)];
      }
    }
  }

  /** Appending a child of a new name. */
  lemma AddSpec(cs: seq<Node>, made: Node)
    requires Distinct(Names(cs)) && made.name !in Names(cs)
    ensures var r := cs + [made];
            && Distinct(Names(r))
            && (forall j :: 0 <= j < |r| ==> (r[j].name == made.name <==> j == |cs|))
            && (forall c :: c in cs ==> c in r)
            && (forall c :: c in r && c.name != made.name ==> c in cs)
  {
    assert Names(cs + [made]) == Names(cs) + [made.name];
    assert forall j :: 0 <= j < |cs| ==> Names(cs)[j] == cs[j].name;
  }

  /** Merging into child `i` keeps every child's name and every other child. */
  lemma MergeSpec(cs: seq<Node>, i: nat, d: Option<Dataset>)
    requires Distinct(Names(cs)) && i < |cs|
    requires forall j :: 0 <= j < |cs| ==> (cs[j].name == cs[i].name <==> j == i)
    ensures var r := cs[i := cs[i].(data := d)];
            && Distinct(Names(r))
            && (forall j :: 0 <= j < |r| ==> (r[j].name == cs[i].name <==> j == i))
            && (forall c :: c in cs && c.name != cs[i].name ==> c in r)
            && (forall c :: c in r && c.name != cs[i].name ==> c in cs)
  {
    var r := cs[i := cs[i].(data := d)];
    assert Names(r) == Names(cs);
    forall c | c in cs && c.name != cs[i].name
      ensures c in r
    {
      var j :| 0 <= j < |cs| && cs[j] == c;
      assert r[j] == c;
    }
  }

  /** With unique names, the found child is the only one of its name. */
  lemma OnlyOneNamed(cs: seq<Node>, name: string)
    requires Distinct(Names(cs)) && name in Names(cs)
    ensures forall j :: 0 <= j < |cs| ==> (cs[j].name == name <==> j == ChildIndex(cs, name))
  {
    var i := ChildIndex(cs, name);
    forall j | 0 <= j < |cs| && j != i
      ensures cs[j].name != name
    {
      if j < i {
        assert Names(cs)[j] != Names(cs)[i];
      } else {
        assert Names(cs)[i] != Names(cs)[j];
      }
    }
  }

  /** Popping the child called `name` and appending `made` in its place at the
      end. */
  lemma ReplaceSpec(cs: seq<Node>, name: string, made: Node)
    requires Distinct(Names(cs)) && name in Names(cs) && made.name == name
    requires forall j :: 0 <= j < |cs| ==> (cs[j].name == name <==> j == ChildIndex(cs, name))
    ensures var r := RemoveIndex(cs, ChildIndex(cs, name)) + [made];
            && Distinct(Names(r))
            && (forall j :: 0 <= j < |r| ==> (r[j].name == name <==> j == |r| - 1))
            && (forall c :: c in cs && c.name != name ==> c in r)
            && (forall c :: c in r && c.name != name ==> c in cs)
  {
    var i := ChildIndex(cs, name);
    var rest := RemoveIndex(cs, i);
    var r := rest + [made];
    NamesRemove(cs, i);
    DistinctRemove(Names(cs), i);
    assert Names(r) == Names(rest) + [name];
    forall c | c in cs && c.name != name
      ensures c in r
    {
      RemoveIndexKeeps(cs, i, c);
    }
    forall c | c in rest
      ensures c in cs
    {
      RemoveIndexKeeps(cs, i, c);
    }
  }

  /** `reduce`/`curve_fit`'s append step at the node `p`: the new tree and the
      position of the child returned, if any. A node without a dataset returns
      nothing and changes nothing. */
  function AppendResult(t: Node, p: Path, name: string, result: Dataset, mode: AppendMode, combine: Combine): (r: (Node, Option<Path>))
    requires ValidPos(t, p)
    ensures At(t, p).data.None? ==> r == (t, None)
    ensures r.1.None? ==> r.0 == t
    ensures r.1.Some? ==> |r.1.value| == |p| + 1 && r.1.value[..|p|] == p
    ensures r.1.Some? ==> ValidPos(r.0, r.1.value) && At(r.0, r.1.value).name == name
    ensures At(t, p).data.Some? ==> ValidPos(r.0, p) && At(r.0, p) == Place(At(t, p), name, result, mode, combine).0
    ensures forall q :: ValidPos(t, q) && !IsPrefix(p, q) && !IsPrefix(q, p) ==> ValidPos(r.0, q) && At(r.0, q) == At(t, q)
    ensures ValidTree(t) ==> ValidTree(r.0)
  {
    var parent := At(t, p);
    if parent.data.None? then (t, None)
    else
      var (np, i) := Place(parent, name, result, mode, combine);
      if i.None? then (t, None)
      else
        var r := Put(t, p, np);
        PutAt(t, p, np);
        PutKeepsOthers(t, p, np);
        if ValidTree(t) then
          PlaceValid(t, p, name, result, mode, combine);
          ValidPosChild(r, p, i.value);
          assert (p + [i.value])[..|p|] == p;
          (r, Some(p + [i.value]))
        else
          ValidPosChild(r, p, i.value);
          assert (p + [i.value])[..|p|] == p;
          (r, Some(p + [i.value]))
  }

  lemma PutKeepsOthers(t: Node, p: Path, n: Node)
    requires ValidPos(t, p)
    ensures forall q :: ValidPos(t, q) && !IsPrefix(p, q) && !IsPrefix(q, p) ==> ValidPos(Put(t, p, n), q) && At(Put(t, p, n), q) == At(t, q)
  {
    forall q | ValidPos(t, q) && !IsPrefix(p, q) && !IsPrefix(q, p)
      ensures ValidPos(Put(t, p, n), q) && At(Put(t, p, n), q) == At(t, q)
    {
      PutElsewhere(t, p, n, q);
    }
  }

  /** Appending at a node of a valid tree keeps it valid. */
  lemma PlaceValid(t: Node, p: Path, name: string, result: Dataset, mode: AppendMode, combine: Combine)
    requires ValidTree(t) && ValidPos(t, p)
    ensures ValidTree(Put(t, p, Place(At(t, p), name, result, mode, combine).0))
  {
    var parent := At(t, p);
    var (np, i) := Place(parent, name, result, mode, combine);
    ValidAt(t, p);
    PlaceSpec(parent, name, result, mode, combine, (np, i));
    assert ValidTree(np) by {
      forall j | 0 <= j < |np.children|
        ensures ValidTree(np.children[j])
      {
        var c := np.children[j];
        if c.name != name || i.None? {
          assert c in parent.children;
        } else if Merges(parent, name, result, mode, combine) {
          var k := ChildIndex(parent.children, name);
          assert j == k;
          assert ValidTree(parent.children[k]);
        }
      }
    }
    OwnNameFree(t, p);
    PutValid(t, p, np);
  }

  /** `reduce`'s storing step: the result goes to the child named by the
      given name or the default one. */
  function Reduce(t: Node, p: Path, result: Dataset, opName: string, dim: Option<string>,
                  given: Option<string>, mode: AppendMode, combine: Combine): (r: (Node, Option<Path>))
    requires ValidPos(t, p)
    ensures At(t, p).data.None? ==> r == (t, None)
    ensures r.1.Some? ==> ValidPos(r.0, r.1.value) && At(r.0, r.1.value).name == ReduceName(given, opName, dim)
    ensures ValidTree(t) ==> ValidTree(r.0)
  {
    AppendResult(t, p, ReduceName(given, opName, dim), result, mode, combine)
  }

  /** `curve_fit`'s storing step: the fit goes to the child named by the given
      name, or by the fit expression. */
  function CurveFit(t: Node, p: Path, fit: Dataset, expr: string,
                    given: Option<string>, mode: AppendMode, combine: Combine): (r: (Node, Option<Path>))
    requires ValidPos(t, p)
    ensures At(t, p).data.None? ==> r == (t, None)
    ensures r.1.Some? ==> ValidPos(r.0, r.1.value) && At(r.0, r.1.value).name == given.GetOr(expr)
    ensures ValidTree(t) ==> ValidTree(r.0)
  {
    AppendResult(t, p, given.GetOr(expr), fit, mode, combine)
  }

  // ---------------------------------------------------------------------------
  // Parameter hints of `curve_fit`

  /** `set_param_hint` arguments for one parameter. */
  datatype Hint = Hint(value: Option<real>, min: Option<real>, max: Option<real>)

  /** The hint built from an optional initial value and optional bounds: the
      bounds are copied, and a value outside them is moved to the nearer one. */
  function MakeHint(value: Option<real>, bounds: Option<(real, real)>): (h: Hint)
    ensures h.value.Some? <==> value.Some?
    ensures bounds.None? ==> h == Hint(value, None, None)
    ensures bounds.Some? ==> h.min == Some(bounds.value.0) && h.max == Some(bounds.value.1)
    ensures bounds.Some? && value.Some? && bounds.value.0 <= bounds.value.1 ==>
              bounds.value.0 <= h.value.value <= bounds.value.1
    ensures bounds.Some? && value.Some? && bounds.value.0 <= value.value <= bounds.value.1 ==>
              h.value == value
    ensures bounds.Some? && value.Some? && value.value < bounds.value.0 ==> h.value == Some(bounds.value.0)
    ensures bounds.Some? && value.Some? && bounds.value.0 <= value.value && value.value > bounds.value.1 ==>
              h.value == Some(bounds.value.1)
  {
    match bounds
    case None => Hint(value, None, None)
    case Some((lo, hi)) =>
      var v := match value
               case None => None
               case Some(x) => Some(if x < lo then lo else if x > hi then hi else x);
      Hint(v, Some(lo), Some(hi))
  }

  /** With consistent bounds, a hint's value is already clamped. */
  lemma MakeHintIdempotent(value: Option<real>, bounds: Option<(real, real)>)
    requires bounds.Some? ==> bounds.value.0 <= bounds.value.1
    ensures MakeHint(MakeHint(value, bounds).value, bounds) == MakeHint(value, bounds)
  {
  }
}

=== FILE: datasets.dfy ===
/** The part of an xarray `Dataset` the tree relies on: ordered dimension sizes,
    ordered data variables and ordered coordinates, one shared name space for
    variables and coordinates, label-based selection and renaming. */
module Datasets {
  import opened Wrappers

  /** A one-dimensional coordinate: the dimension it runs along and its labels. */
  datatype Coord = Coord(dim: string, labels: seq<int>)

  /** A data variable's values, addressed by position: one index per dimension of
      its dataset, in the dataset's dimension order. */
  type Var = map<seq<nat>, int>

  /** `sizes`, `data_vars` and `coords`, each an insertion-ordered dict. */
  datatype Dataset = Dataset(
    sizes: seq<(string, nat)>,
    vars: seq<(string, Var)>,
    coords: seq<(string, Coord)>)

  /** A labelled array (an xarray `DataArray` with its coordinates attached):
      values addressed by one coordinate label per dimension. */
  datatype LArray = LArray(dims: seq<string>, cells: map<seq<int>, int>)

  // ---------------------------------------------------------------------------
  // Ordered dicts

  function Keys<V>(s: seq<(string, V)>): (ks: seq<string>)
    ensures |ks| == |s|
    ensures forall i :: 0 <= i < |s| ==> ks[i] == s[i].0
  {
    seq(|s|, i requires 0 <= i < |s| => s[i].0)
  }

  predicate Distinct<T(==)>(s: seq<T>) {
    forall i, j :: 0 <= i < j < |s| ==> s[i] != s[j]
  }

  /** `d[k]` on an ordered dict, or `None` when `k` is not a key. */
  function Lookup<V>(s: seq<(string, V)>, k: string): (r: Option<V>)
    ensures r.Some? <==> k in Keys(s)
    ensures r.Some? ==> exists i :: 0 <= i < |s| && s[i] == (k, r.value)
  {
    if |s| == 0 then None
    else if s[0].0 == k then Some(s[0].1)
    else
      var r := Lookup(s[1..], k);
      assert Keys(s) == [s[0].0] + Keys(s[1..]);
      if r.Some? then
        ghost var i :| 0 <= i < |s[1..]| && s[1..][i] == (k, r.value);
        assert s[i + 1] == (k, r.value);
        r
      else r
  }

  /** With distinct keys, the entry found is the one at the key's position. */
  lemma LookupAt<V>(s: seq<(string, V)>, i: nat)
    requires i < |s| && Distinct(Keys(s))
    ensures Lookup(s, s[i].0) == Some(s[i].1)
  {
    var r := Lookup(s, s[i].0);
    var j :| 0 <= j < |s| && s[j] == (s[i].0, r.value);
    assert Keys(s)[i] == Keys(s)[j];
  }

  // ---------------------------------------------------------------------------
  // Names

  function Dims(ds: Dataset): seq<string> {
    Keys(ds.sizes)
  }

  function SizeOf(ds: Dataset, dim: string): Option<nat> {
    Lookup(ds.sizes, dim)
  }

  /** `name in ds.data_vars` */
  predicate HasVar(ds: Dataset, name: string) {
    name in Keys(ds.vars)
  }

  /** `name in ds.coords` */
  predicate HasCoord(ds: Dataset, name: string) {
    name in Keys(ds.coords)
  }

  /** `name in ds`: variables and coordinates share one name space. */
  predicate Has(ds: Dataset, name: string) {
    HasVar(ds, name) || HasCoord(ds, name)
  }

  /** What xarray maintains for every dataset: no name twice in a dict, and no
      name both a variable and a coordinate. */
  predicate WellFormed(ds: Dataset) {
    && Distinct(Keys(ds.sizes))
    && Distinct(Keys(ds.vars))
    && Distinct(Keys(ds.coords))
    && forall i, j :: 0 <= i < |ds.vars| && 0 <= j < |ds.coords| ==> ds.vars[i].0 != ds.coords[j].0
  }

  // ---------------------------------------------------------------------------
  // Renaming (`Dataset.rename_vars`)

  function NewName(m: map<string, string>, name: string): string {
    if name in m then m[name] else name
  }

  function RenameKeys<V>(s: seq<(string, V)>, m: map<string, string>): (r: seq<(string, V)>)
    ensures |r| == |s|
    ensures forall i :: 0 <= i < |s| ==> r[i] == (NewName(m, s[i].0), s[i].1)
  {
    seq(|s|, i requires 0 <= i < |s| => (NewName(m, s[i].0), s[i].1))
  }

  /** `ds.rename_vars(m)`: every variable or coordinate named by a key of `m`
      takes the mapped name and keeps its position and contents; the
      dimensions are not renamed. */
  function RenameEntries(ds: Dataset, m: map<string, string>): Dataset {
    Dataset(ds.sizes, RenameKeys(ds.vars, m), RenameKeys(ds.coords, m))
  }

  /** The renames of `m` that apply to `ds`. */
  function Applicable(ds: Dataset, m: map<string, string>): (a: map<string, string>)
    ensures a.Keys <= m.Keys
    ensures forall o :: o in a <==> o in m && Has(ds, o)
    ensures forall o :: o in a ==> a[o] == m[o]
  {
    map o | o in m && Has(ds, o) :: m[o]
  }

  /** No applicable rename lands on a name the dataset already holds. */
  predicate NoOverlap(ds: Dataset, m: map<string, string>) {
    forall o :: o in m && Has(ds, o) ==> !Has(ds, m[o])
  }

  /** No two names of the dataset are renamed to the same new name. */
  predicate InjectiveOn(ds: Dataset, m: map<string, string>) {
    forall a, b :: a in m && b in m && Has(ds, a) && Has(ds, b) && a != b ==> m[a] != m[b]
  }

  /** After a rename, a name is held exactly when it is the new name of a held one. */
  lemma RenameHas(ds: Dataset, m: map<string, string>, n: string)
    ensures HasVar(RenameEntries(ds, m), n) <==> exists i :: 0 <= i < |ds.vars| && NewName(m, ds.vars[i].0) == n
    ensures HasCoord(RenameEntries(ds, m), n) <==> exists i :: 0 <= i < |ds.coords| && NewName(m, ds.coords[i].0) == n
  {
    var r := RenameEntries(ds, m);
    if HasVar(r, n) {
      var i :| 0 <= i < |Keys(r.vars)| && Keys(r.vars)[i] == n;
      assert NewName(m, ds.vars[i].0) == n;
    }
    if exists i :: 0 <= i < |ds.vars| && NewName(m, ds.vars[i].0) == n {
      var i :| 0 <= i < |ds.vars| && NewName(m, ds.vars[i].0) == n;
      assert Keys(r.vars)[i] == n;
    }
    if HasCoord(r, n) {
      var i :| 0 <= i < |Keys(r.coords)| && Keys(r.coords)[i] == n;
      assert NewName(m, ds.coords[i].0) == n;
    }
    if exists i :: 0 <= i < |ds.coords| && NewName(m, ds.coords[i].0) == n {
      var i :| 0 <= i < |ds.coords| && NewName(m, ds.coords[i].0) == n;
      assert Keys(r.coords)[i] == n;
    }
  }

  /** A rename that passed the overlap check and sends different names to
      different names keeps the dataset well formed. */
  lemma RenamePreservesWellFormed(ds: Dataset, m: map<string, string>)
    requires WellFormed(ds) && NoOverlap(ds, m) && InjectiveOn(ds, m)
    ensures WellFormed(RenameEntries(ds, m))
  {
    var r := RenameEntries(ds, m);
    // Two held names never collide once renamed.
    forall a, b | Has(ds, a) && Has(ds, b) && a != b
      ensures NewName(m, a) != NewName(m, b)
    {
    }
    forall i, j | 0 <= i < j < |Keys(r.vars)|
      ensures Keys(r.vars)[i] != Keys(r.vars)[j]
    {
      assert Keys(ds.vars)[i] != Keys(ds.vars)[j];
      assert HasVar(ds, ds.vars[i].0) && HasVar(ds, ds.vars[j].0);
    }
    forall i, j | 0 <= i < j < |Keys(r.coords)|
      ensures Keys(r.coords)[i] != Keys(r.coords)[j]
    {
      assert Keys(ds.coords)[i] != Keys(ds.coords)[j];
      assert HasCoord(ds, ds.coords[i].0) && HasCoord(ds, ds.coords[j].0);
    }
    forall i, j | 0 <= i < |r.vars| && 0 <= j < |r.coords|
      ensures r.vars[i].0 != r.coords[j].0
    {
      assert Keys(ds.vars)[i] == ds.vars[i].0 && Keys(ds.coords)[j] == ds.coords[j].0;
    }
  }

  /** The shared name space of a dataset, variables first: the keys of
      `ds.variables`. */
  function AllNames(ds: Dataset): (ns: seq<string>)
    ensures |ns| == |ds.vars| + |ds.coords|
    ensures forall i :: 0 <= i < |ds.vars| ==> ns[i] == ds.vars[i].0
    ensures forall i :: |ds.vars| <= i < |ns| ==> ns[i] == ds.coords[i - |ds.vars|].0
  {
    Keys(ds.vars) + Keys(ds.coords)
  }

  /** A name is in the shared name space exactly when the dataset holds it. */
  lemma AllNamesHas(ds: Dataset, n: string)
    ensures n in AllNames(ds) <==> Has(ds, n)
  {
    assert AllNames(ds) == Keys(ds.vars) + Keys(ds.coords);
  }

  /** `ds.rename_vars(m)` raises `ValueError` ("the new name conflicts") when
      two entries would end up under one name. */
  predicate RenameConflicts(ds: Dataset, m: map<string, string>) {
    !Distinct(AllNames(RenameEntries(ds, m)))
  }

  /** A well-formed dataset has no name twice in its shared name space. */
  lemma AllNamesDistinct(ds: Dataset)
    requires WellFormed(ds)
    ensures Distinct(AllNames(ds))
  {
    var ns := AllNames(ds);
    forall i, j | 0 <= i < j < |ns|
      ensures ns[i] != ns[j]
    {
      var nv := |ds.vars|;
      if j < nv {
        assert ns[i] == Keys(ds.vars)[i] && ns[j] == Keys(ds.vars)[j];
      } else if i >= nv {
        assert ns[i] == Keys(ds.coords)[i - nv] && ns[j] == Keys(ds.coords)[j - nv];
      }
    }
  }

  /** Each entry is renamed on its own. */
  lemma AllNamesRenamed(ds: Dataset, m: map<string, string>)
    ensures |AllNames(RenameEntries(ds, m))| == |AllNames(ds)|
    ensures forall i :: 0 <= i < |AllNames(ds)| ==>
              AllNames(RenameEntries(ds, m))[i] == NewName(m, AllNames(ds)[i])
  {
    var ns, rs := AllNames(ds), AllNames(RenameEntries(ds, m));
    forall i | 0 <= i < |ns|
      ensures rs[i] == NewName(m, ns[i])
    {
    }
  }

  /** For a well-formed dataset that passed the overlap check, `rename_vars`
      raises exactly when two held names are sent to one new name. */
  lemma RenameConflictsIff(ds: Dataset, m: map<string, string>)
    requires WellFormed(ds) && NoOverlap(ds, m)
    ensures RenameConflicts(ds, m) <==> !InjectiveOn(ds, m)
  {
    if RenameConflicts(ds, m) {
      ConflictNotInjective(ds, m);
    }
    if !InjectiveOn(ds, m) {
      NotInjectiveConflict(ds, m);
    }
  }

  /** Two entries that collide after the rename were two held names sent to
      one name: the overlap check rules out a collision with a name kept. */
  lemma {:induction false} ConflictNotInjective(ds: Dataset, m: map<string, string>)
    requires WellFormed(ds) && NoOverlap(ds, m) && RenameConflicts(ds, m)
    ensures !InjectiveOn(ds, m)
  {
    var ns, rs := AllNames(ds), AllNames(RenameEntries(ds, m));
    AllNamesRenamed(ds, m);
    AllNamesDistinct(ds);
    var i, j :| 0 <= i < j < |rs| && rs[i] == rs[j];
    assert ns[i] != ns[j];
    AllNamesHas(ds, ns[i]);
    AllNamesHas(ds, ns[j]);
    AllNamesHas(ds, m[ns[i]]);
    AllNamesHas(ds, m[ns[j]]);
  }

  /** Two held names sent to one name collide after the rename. */
  lemma {:induction false} NotInjectiveConflict(ds: Dataset, m: map<string, string>)
    requires !InjectiveOn(ds, m)
    ensures RenameConflicts(ds, m)
  {
    var ns, rs := AllNames(ds), AllNames(RenameEntries(ds, m));
    AllNamesRenamed(ds, m);
    var a, b :| a in m && b in m && Has(ds, a) && Has(ds, b) && a != b && m[a] == m[b];
    AllNamesHas(ds, a);
    AllNamesHas(ds, b);
    var i :| 0 <= i < |ns| && ns[i] == a;
    var j :| 0 <= j < |ns| && ns[j] == b;
    assert rs[i] == rs[j] && i != j;
    if i < j {
      assert !Distinct(rs);
    } else {
      assert !Distinct(rs);
    }
  }

  /** A rename that does not raise leaves the dataset well formed. */
  lemma {:induction false} NoConflictWellFormed(ds: Dataset, m: map<string, string>)
    requires WellFormed(ds) && !RenameConflicts(ds, m)
    ensures WellFormed(RenameEntries(ds, m))
  {
    var r := RenameEntries(ds, m);
    var rs := AllNames(r);
    var nv := |r.vars|;
    forall i, j | 0 <= i < j < |Keys(r.vars)|
      ensures Keys(r.vars)[i] != Keys(r.vars)[j]
    {
      assert rs[i] != rs[j];
    }
    forall i, j | 0 <= i < j < |Keys(r.coords)|
      ensures Keys(r.coords)[i] != Keys(r.coords)[j]
    {
      assert rs[nv + i] != rs[nv + j] && rs[nv + i] == r.coords[i].0 && rs[nv + j] == r.coords[j].0;
    }
    forall i, j | 0 <= i < |r.vars| && 0 <= j < |r.coords|
      ensures r.vars[i].0 != r.coords[j].0
    {
      assert rs[i] != rs[nv + j] && rs[nv + j] == r.coords[j].0;
    }
  }

  // ---------------------------------------------------------------------------
  // Labels

  /** The shape of every variable of `ds`: its dimensions' sizes, in order. */
  function Shape(ds: Dataset): (r: seq<nat>)
    ensures |r| == |ds.sizes| && forall j :: 0 <= j < |r| ==> r[j] == ds.sizes[j].1
  {
    seq(|ds.sizes|, j requires 0 <= j < |ds.sizes| => ds.sizes[j].1)
  }

  /** The shape a selection by the coordinates `cs` picks out. */
  function Extent(cs: seq<Coord>): (r: seq<nat>)
    ensures |r| == |cs| && forall j :: 0 <= j < |r| ==> r[j] == |cs[j].labels|
  {
    seq(|cs|, j requires 0 <= j < |cs| => |cs[j].labels|)
  }

  /** Position `i` lies inside `shape`. */
  predicate Inside(i: seq<nat>, shape: seq<nat>) {
    |i| == |shape| && forall j :: 0 <= j < |i| ==> i[j] < shape[j]
  }

  /** Position `i` is inside the shape the coordinates describe. */
  predicate Fits(i: seq<nat>, cs: seq<Coord>) {
    |i| == |cs| && forall j :: 0 <= j < |i| ==> i[j] < |cs[j].labels|
  }

  /** The coordinate labels of position `i`. */
  function LabelOf(i: seq<nat>, cs: seq<Coord>): (x: seq<int>)
    requires Fits(i, cs)
    ensures |x| == |i|
    ensures forall j :: 0 <= j < |i| ==> x[j] == cs[j].labels[i[j]]
  {
    seq(|i|, j requires 0 <= j < |i| => cs[j].labels[i[j]])
  }

  /** `list.index`: the first position of `x` in `labels`. */
  function IndexIn(labels: seq<int>, x: int): (r: Option<nat>)
    ensures r.Some? <==> x in labels
    ensures r.Some? ==> r.value < |labels| && labels[r.value] == x
    ensures r.Some? ==> forall k :: 0 <= k < r.value ==> labels[k] != x
  {
    if |labels| == 0 then None
    else if labels[0] == x then Some(0)
    else
      match IndexIn(labels[1..], x)
      case None => None
      case Some(k) => Some(k + 1)
  }

  /** The position label-based indexing (`.loc`) picks for the label tuple `x`. */
  function IndexOf(x: seq<int>, cs: seq<Coord>): (r: Option<seq<nat>>)
    ensures r.Some? ==> Fits(r.value, cs) && LabelOf(r.value, cs) == x
  {
    if |x| != |cs| then None
    else if exists j :: 0 <= j < |x| && x[j] !in cs[j].labels then None
    else
      var i := seq(|x|, j requires 0 <= j < |x| => IndexIn(cs[j].labels, x[j]).value);
      assert LabelOf(i, cs) == x;
      Some(i)
  }

  /** A coordinate whose labels never repeat. */
  predicate UniqueLabels(cs: seq<Coord>) {
    forall j :: 0 <= j < |cs| ==> Distinct(cs[j].labels)
  }

  lemma IndexOfLabel(i: seq<nat>, cs: seq<Coord>)
    requires Fits(i, cs) && UniqueLabels(cs)
    ensures IndexOf(LabelOf(i, cs), cs) == Some(i)
  {
    var x := LabelOf(i, cs);
    assert forall j :: 0 <= j < |x| ==> x[j] in cs[j].labels;
    var r := IndexOf(x, cs);
    assert r.Some?;
    forall j | 0 <= j < |i|
      ensures r.value[j] == i[j]
    {
      var labels := cs[j].labels;
      assert labels[r.value[j]] == labels[i[j]];
      assert Distinct(labels);
    }
    assert r.value == i;
  }

  /** Attaching coordinates to a variable: each stored value is addressed by the
      labels of its position. */
  function Labelled(dims: seq<string>, v: Var, cs: seq<Coord>): (a: LArray)
    ensures a.dims == dims
    ensures forall x :: x in a.cells ==> IndexOf(x, cs).Some? && IndexOf(x, cs).value in v
                                         && a.cells[x] == v[IndexOf(x, cs).value]
  {
    var dom := set i | i in v && Fits(i, cs) :: LabelOf(i, cs);
    LArray(dims, map x | x in dom && IndexOf(x, cs).Some? && IndexOf(x, cs).value in v :: v[IndexOf(x, cs).value])
  }

  /** With labels that never repeat, attaching coordinates loses nothing: every
      stored value inside the coordinates' shape is found at its labels. */
  lemma LabelledLossless(dims: seq<string>, v: Var, cs: seq<Coord>, i: seq<nat>)
    requires UniqueLabels(cs) && i in v && Fits(i, cs)
    ensures LabelOf(i, cs) in Labelled(dims, v, cs).cells
    ensures Labelled(dims, v, cs).cells[LabelOf(i, cs)] == v[i]
  {
    IndexOfLabel(i, cs);
  }

  /** A footprint: for each dimension, the labels a selection keeps. */
  type Footprint = map<string, seq<int>>

  predicate InFootprint(x: seq<int>, dims: seq<string>, fp: Footprint) {
    |x| == |dims| && forall j :: 0 <= j < |x| && dims[j] in fp ==> x[j] in fp[dims[j]]
  }

  /** `a.sel(fp)`: the cells whose label along every selected dimension is one of
      the selected labels. Selecting along a dimension the array does not have
      is a `KeyError`. */
  function Select(a: LArray, fp: Footprint): (r: Result<LArray>)
    ensures r.Err? <==> exists d :: d in fp && d !in a.dims
    ensures r.Err? ==> r.error == MissingDim
    ensures r.Ok? ==> r.value.dims == a.dims
    ensures r.Ok? ==> forall x :: x in r.value.cells <==> x in a.cells && InFootprint(x, a.dims, fp)
    ensures r.Ok? ==> forall x :: x in r.value.cells ==> r.value.cells[x] == a.cells[x]
  {
    if exists d :: d in fp && d !in a.dims then Err(MissingDim)
    else Ok(LArray(a.dims, map x | x in a.cells && InFootprint(x, a.dims, fp) :: a.cells[x]))
  }
}

=== FILE: decimal.dfy ===
/** Decimal rendering of naturals, as Python's `str(n)` / f-string `{n}` does
    for a non-negative `int`, with its inverse. */
module Decimal {

  predicate IsDigit(c: char) {
    '0' <= c <= '9'
  }

  predicate AllDigits(s: string) {
    forall i :: 0 <= i < |s| ==> IsDigit(s[i])
  }

  function DigitChar(d: nat): (c: char)
    requires d < 10
    ensures IsDigit(c)
  {
    (48 + d) as char
  }

  function DigitValue(c: char): (d: nat)
    requires IsDigit(c)
    ensures d < 10
  {
    c as int - 48
  }

  /** `str(n)`: the shortest decimal numeral of `n`. */
  function Format(n: nat): (s: string)
    ensures 1 <= |s| && AllDigits(s)
    ensures |s| > 1 ==> s[0] != '0'
    decreases n
  {
    if n < 10 then [DigitChar(n)] else Format(n / 10) + [DigitChar(n % 10)]
  }

  /** `int(s)` for a string of decimal digits. */
  function Parse(s: string): nat
    requires AllDigits(s)
  {
    if |s| == 0 then 0 else Parse(s[..|s| - 1]) * 10 + DigitValue(s[|s| - 1])
  }

  /** Parsing a formatted number gives the number back. */
  lemma {:induction false} ParseFormat(n: nat)
    ensures Parse(Format(n)) == n
    decreases n
  {
    if n >= 10 {
      var s := Format(n);
      assert s[..|s| - 1] == Format(n / 10);
      ParseFormat(n / 10);
    }
  }

  /** Distinct numbers render as distinct strings. */
  lemma FormatInjective(a: nat, b: nat)
    requires Format(a) == Format(b)
    ensures a == b
  {
    ParseFormat(a);
    ParseFormat(b);
  }
}

=== FILE: inheritance.dfy ===
/** Data and coordinate inheritance: `inherited_coord`, `inherited_coords`,
    `inherited_data` and `leaf_data` of `XarrayTreeNode`. A node's ancestors
    are the prefixes of its position; `p[..k]` is the ancestor at depth `k`. */
module Inheritance {
  import opened Wrappers
  import opened Datasets
  import opened Tree

  /** What an upward search looks for. */
  datatype Wanted = WantsVar(name: string) | WantsCoord(name: string)

  predicate Holds(d: Option<Dataset>, w: Wanted) {
    d.Some? && match w
               case WantsVar(n) => HasVar(d.value, n)
               case WantsCoord(n) => HasCoord(d.value, n)
  }

  /** The ancestor at depth `k` holds what is wanted. */
  predicate HoldsAt(t: Node, p: Path, k: nat, w: Wanted)
    requires ValidPos(t, p) && k <= |p|
  {
    ValidPosPrefix(t, p, k);
    Holds(At(t, p[..k]).data, w)
  }

  /** The `while node is not None: ... node = node.parent` search from the
      ancestor at depth `k` upward: the depth of the deepest holder. */
  function Nearest(t: Node, p: Path, k: nat, w: Wanted): (r: Option<nat>)
    requires ValidPos(t, p) && k <= |p|
    ensures r.Some? ==> r.value <= k && HoldsAt(t, p, r.value, w)
    ensures r.Some? ==> forall j :: r.value < j <= k ==> !HoldsAt(t, p, j, w)
    ensures r.None? ==> forall j :: 0 <= j <= k ==> !HoldsAt(t, p, j, w)
    decreases k
  {
    if HoldsAt(t, p, k, w) then Some(k)
    else if k == 0 then None
    else Nearest(t, p, k - 1, w)
  }

  /** The search down a path, from depth `k` toward the node: the depth of the
      shallowest holder. */
  function Shallowest(t: Node, p: Path, k: nat, w: Wanted): (r: Option<nat>)
    requires ValidPos(t, p) && k <= |p|
    ensures r.Some? ==> k <= r.value <= |p| && HoldsAt(t, p, r.value, w)
    ensures r.Some? ==> forall j :: k <= j < r.value ==> !HoldsAt(t, p, j, w)
    ensures r.None? ==> forall j :: k <= j <= |p| ==> !HoldsAt(t, p, j, w)
    decreases |p| - k
  {
    if HoldsAt(t, p, k, w) then Some(k)
    else if k == |p| then None
    else Shallowest(t, p, k + 1, w)
  }

  function DataAt(t: Node, p: Path, k: nat): (d: Option<Dataset>)
    requires ValidPos(t, p) && k <= |p|
  {
    ValidPosPrefix(t, p, k);
    At(t, p[..k]).data
  }

  // ---------------------------------------------------------------------------
  // inherited_coord / inherited_coords

  function Range(n: nat): (r: seq<int>)
    ensures |r| == n && forall i :: 0 <= i < n ==> r[i] == i
  {
    seq(n, i requires 0 <= i < n => i)
  }

  /** `np.arange(self.dataset.dims[name])`: index labels along one of the
      dataset's own dimensions. */
  function IndexCoord(ds: Dataset, name: string): (r: Result<Coord>)
    ensures r.Err? <==> name !in Dims(ds)
    ensures r.Err? ==> r.error == MissingDim
    ensures r.Ok? ==> r.value.dim == name && SizeOf(ds, name) == Some(|r.value.labels|)
    ensures r.Ok? ==> forall i :: 0 <= i < |r.value.labels| ==> r.value.labels[i] == i
  {
    match SizeOf(ds, name)
    case None => Err(MissingDim)
    case Some(n) => Ok(Coord(name, Range(n)))
  }

  /** A coordinate found at an ancestor is kept when its length matches the
      node's size along the coordinate's dimension; a dimension the node does
      not have is a `KeyError`. */
  function Adopt(own: Dataset, c: Coord, name: string): (r: Result<Coord>)
  {
    match SizeOf(own, c.dim)
    case None => Err(MissingDim)
    case Some(n) => if |c.labels| == n then Ok(c) else IndexCoord(own, name)
  }

  /** `inherited_coord(name)` at `p`: the coordinate `name` of the nearest
      ancestor-or-self that has one, unless its length disagrees with this
      node's; otherwise the index labels of this node's dimension `name`. */
  function InheritedCoord(t: Node, p: Path, name: string): (r: Result<Coord>)
    requires ValidPos(t, p)
    ensures At(t, p).data.None? ==> r == Err(MissingDataset)
    ensures r.Err? ==> r.error == MissingDataset || r.error == MissingDim
    ensures r.Ok? ==> At(t, p).data.Some? && SizeOf(At(t, p).data.value, r.value.dim) == Some(|r.value.labels|)
    ensures r.Ok? ==>
              || (r.value.dim == name && forall i :: 0 <= i < |r.value.labels| ==> r.value.labels[i] == i)
              || exists k :: 0 <= k <= |p| && HoldsAt(t, p, k, WantsCoord(name))
                             && Lookup(DataAt(t, p, k).value.coords, name) == Some(r.value)
    ensures At(t, p).data.Some? && Nearest(t, p, |p|, WantsCoord(name)).None? ==>
              r == IndexCoord(At(t, p).data.value, name)
    ensures At(t, p).data.Some? && Nearest(t, p, |p|, WantsCoord(name)).Some? ==>
              var own := At(t, p).data.value;
              var k := Nearest(t, p, |p|, WantsCoord(name)).value;
              var c := Lookup(DataAt(t, p, k).value.coords, name).value;
              && (SizeOf(own, c.dim) == Some(|c.labels|) ==> r == Ok(c))
              && (SizeOf(own, c.dim).Some? && SizeOf(own, c.dim) != Some(|c.labels|) ==> r == IndexCoord(own, name))
              && (SizeOf(own, c.dim).None? ==> r == Err(MissingDim))
  {
    var own := At(t, p).data;
    match Nearest(t, p, |p|, WantsCoord(name))
    case Some(k) =>
      var c := Lookup(DataAt(t, p, k).value.coords, name).value;
      if own.None? then Err(MissingDataset) else Adopt(own.value, c, name)
    case None =>
      if own.None? then Err(MissingDataset) else IndexCoord(own.value, name)
  }

  /** The nearest holder decides: a node with a dataset, below a holder of
      the coordinate at depth `k` with no holder in between, gets that
      holder's coordinate when the length agrees with its own size, its own
      index labels when the length differs, and a `KeyError` when it lacks the
      dimension. */
  lemma InheritedCoordNearest(t: Node, p: Path, k: nat, name: string)
    requires ValidPos(t, p) && k <= |p| && At(t, p).data.Some?
    requires HoldsAt(t, p, k, WantsCoord(name))
    requires forall j :: k < j <= |p| ==> !HoldsAt(t, p, j, WantsCoord(name))
    ensures var own := At(t, p).data.value;
            var c := Lookup(DataAt(t, p, k).value.coords, name).value;
            && (SizeOf(own, c.dim) == Some(|c.labels|) ==> InheritedCoord(t, p, name) == Ok(c))
            && (SizeOf(own, c.dim).Some? && SizeOf(own, c.dim) != Some(|c.labels|) ==>
                  InheritedCoord(t, p, name) == IndexCoord(own, name))
            && (SizeOf(own, c.dim).None? ==> InheritedCoord(t, p, name) == Err(MissingDim))
  {
    NearestIs(t, p, k, WantsCoord(name));
  }

  /** A coordinate the node holds itself, of the right length, is its own
      inherited coordinate. */
  lemma InheritedCoordLocal(t: Node, p: Path, name: string)
    requires ValidPos(t, p) && At(t, p).data.Some?
    requires HasCoord(At(t, p).data.value, name)
    requires var c := Lookup(At(t, p).data.value.coords, name).value;
             SizeOf(At(t, p).data.value, c.dim) == Some(|c.labels|)
    ensures InheritedCoord(t, p, name) == Ok(Lookup(At(t, p).data.value.coords, name).value)
  {
    assert p[..|p|] == p;
    assert HoldsAt(t, p, |p|, WantsCoord(name));
  }

  /** A coordinate the node lacks is looked for further up: when the parent
      adopted an ancestor's coordinate and the node's size agrees with it, the
      node adopts the same one. */
  lemma InheritedCoordFromParent(t: Node, p: Path, name: string)
    requires ValidPos(t, p) && p != [] && At(t, p).data.Some?
    requires !HasCoord(At(t, p).data.value, name)
    requires ValidPos(t, Parent(p))
    requires Nearest(t, Parent(p), |p| - 1, WantsCoord(name)).Some?
    requires var k := Nearest(t, Parent(p), |p| - 1, WantsCoord(name)).value;
             var c := Lookup(DataAt(t, Parent(p), k).value.coords, name).value;
             && InheritedCoord(t, Parent(p), name) == Ok(c)
             && SizeOf(At(t, p).data.value, c.dim) == Some(|c.labels|)
    ensures InheritedCoord(t, p, name) == InheritedCoord(t, Parent(p), name)
  {
    var q := Parent(p);
    var w := WantsCoord(name);
    NearestFromParent(t, p, w);
    DataAtParent(t, p, Nearest(t, q, |q|, w).value);
  }

  /** When the node itself does not hold what is wanted, the search from it
      finds what the search from its parent finds. */
  lemma NearestFromParent(t: Node, p: Path, w: Wanted)
    requires ValidPos(t, p) && p != [] && ValidPos(t, Parent(p))
    requires !Holds(At(t, p).data, w)
    ensures Nearest(t, p, |p|, w) == Nearest(t, Parent(p), |p| - 1, w)
  {
    assert p[..|p|] == p;
    assert !HoldsAt(t, p, |p|, w);
    ParentAgrees(t, p, w);
    NearestAgrees(t, Parent(p), p, |p| - 1, w);
  }

  lemma DataAtParent(t: Node, p: Path, k: nat)
    requires ValidPos(t, p) && p != [] && ValidPos(t, Parent(p)) && k < |p|
    ensures DataAt(t, Parent(p), k) == DataAt(t, p, k)
  {
    assert Parent(p)[..k] == p[..k];
  }

  /** The ancestors of a node's parent are the node's own ancestors, at the
      same depths. */
  lemma ParentAgrees(t: Node, p: Path, w: Wanted)
    requires ValidPos(t, p) && p != [] && ValidPos(t, Parent(p))
    ensures forall j :: 0 <= j <= |p| - 1 ==> Parent(p)[..j] == p[..j]
    ensures forall j :: 0 <= j <= |p| - 1 ==> (HoldsAt(t, Parent(p), j, w) <==> HoldsAt(t, p, j, w))
  {
    var q := Parent(p);
    assert forall j :: 0 <= j <= |q| ==> q[..j] == p[..j];
  }

  lemma {:induction false} NearestAgrees(t: Node, q: Path, p: Path, k: nat, w: Wanted)
    requires ValidPos(t, q) && ValidPos(t, p) && k <= |q| && k <= |p|
    requires forall j :: 0 <= j <= k ==> (HoldsAt(t, q, j, w) <==> HoldsAt(t, p, j, w))
    requires forall j :: 0 <= j <= k ==> q[..j] == p[..j]
    ensures Nearest(t, q, k, w) == Nearest(t, p, k, w)
    decreases k
  {
    if !HoldsAt(t, q, k, w) && k > 0 {
      NearestAgrees(t, q, p, k - 1, w);
    }
  }

  /** The coordinate a node uses for dimension `dim`: its own, or the
      inherited one. */
  function DimCoord(t: Node, p: Path, ds: Dataset, dim: string): (r: Result<Coord>)
    requires ValidPos(t, p) && At(t, p).data == Some(ds)
  {
    match Lookup(ds.coords, dim)
    case Some(c) => Ok(c)
    case None => InheritedCoord(t, p, dim)
  }

  /** The coordinates of the dimensions `dims`, in order. */
  function CoordsFor(t: Node, p: Path, ds: Dataset, dims: seq<string>): (r: Result<seq<(string, Coord)>>)
    requires ValidPos(t, p) && At(t, p).data == Some(ds)
    ensures r.Err? <==> exists i :: 0 <= i < |dims| && DimCoord(t, p, ds, dims[i]).Err?
    ensures r.Ok? ==> Keys(r.value) == dims
    ensures r.Ok? ==> forall i :: 0 <= i < |dims| ==> DimCoord(t, p, ds, dims[i]) == Ok(r.value[i].1)
  {
    if |dims| == 0 then Ok([])
    else
      match DimCoord(t, p, ds, dims[0])
      case Err(e) => Err(e)
      case Ok(c) =>
        match CoordsFor(t, p, ds, dims[1..])
        case Err(e) =>
          assert forall i :: 0 < i < |dims| ==> dims[1..][i - 1] == dims[i];
          Err(e)
        case Ok(rest) =>
          assert forall i :: 0 < i < |dims| ==> dims[1..][i - 1] == dims[i];
          var r := [(dims[0], c)] + rest;
          assert Keys(r) == dims by {
            assert forall i :: 0 < i < |dims| ==> Keys(r)[i] == Keys(rest)[i - 1];
          }
          Ok(r)
  }

  /** `inherited_coords()` at `p`: one coordinate per dimension of the node's
      dataset, its own where it has one. */
  function InheritedCoords(t: Node, p: Path): (r: Result<seq<(string, Coord)>>)
    requires ValidPos(t, p)
    ensures At(t, p).data.None? ==> r == Err(MissingDataset)
    ensures r.Ok? ==> At(t, p).data.Some? && Keys(r.value) == Dims(At(t, p).data.value)
    ensures r.Ok? ==> forall i :: 0 <= i < |r.value| ==>
              var ds := At(t, p).data.value;
              if HasCoord(ds, r.value[i].0) then Lookup(ds.coords, r.value[i].0) == Some(r.value[i].1)
              else InheritedCoord(t, p, r.value[i].0) == Ok(r.value[i].1)
  {
    match At(t, p).data
    case None => Err(MissingDataset)
    case Some(ds) =>
      var r := CoordsFor(t, p, ds, Dims(ds));
      if r.Ok? then
        assert forall i :: 0 <= i < |r.value| ==> r.value[i].0 == Dims(ds)[i];
        r
      else r
  }

  function Labels(cs: seq<(string, Coord)>): (r: seq<Coord>)
    ensures |r| == |cs| && forall i :: 0 <= i < |cs| ==> r[i] == cs[i].1
  {
    seq(|cs|, i requires 0 <= i < |cs| => cs[i].1)
  }

  /** The footprint of a node: its coordinates' labels by dimension. */
  function FootprintOf(cs: seq<(string, Coord)>): (fp: Footprint)
    ensures forall k :: k in fp <==> k in Keys(cs)
    ensures Distinct(Keys(cs)) ==> forall i :: 0 <= i < |cs| ==> fp[cs[i].0] == cs[i].1.labels
  {
    var fp := map k | k in Keys(cs) :: Lookup(cs, k).value.labels;
    assert forall i :: 0 <= i < |cs| ==> Keys(cs)[i] == cs[i].0;
    if Distinct(Keys(cs)) then
      assert forall i :: 0 <= i < |cs| ==> fp[cs[i].0] == cs[i].1.labels by {
        forall i | 0 <= i < |cs|
          ensures fp[cs[i].0] == cs[i].1.labels
        {
          LookupAt(cs, i);
        }
      }
      fp
    else fp
  }

  // ---------------------------------------------------------------------------
  // inherited_data

  /** The variable `name` of the dataset `ds` held at `p[..k]`, labelled with
      that node's coordinates. */
  function Resolved(t: Node, p: Path, k: nat, name: string): (r: Result<LArray>)
    requires ValidPos(t, p) && k <= |p| && HoldsAt(t, p, k, WantsVar(name))
    ensures r.Ok? ==> r.value.dims == Dims(DataAt(t, p, k).value)
  {
    ValidPosPrefix(t, p, k);
    var q := p[..k];
    var ds := At(t, q).data.value;
    var v := Lookup(ds.vars, name).value;
    match CoordsFor(t, q, ds, Dims(ds))
    case Err(e) => Err(e)
    case Ok(cs) => Ok(Labelled(Dims(ds), v, Labels(cs)))
  }

  /** Every cell of `a` holds one of the values stored in `v`. */
  predicate ValuesFrom(a: LArray, v: Var) {
    forall x :: x in a.cells ==> exists i :: i in v && a.cells[x] == v[i]
  }

  lemma SelectValuesFrom(a: LArray, fp: Footprint, v: Var)
    requires ValuesFrom(a, v) && Select(a, fp).Ok?
    ensures ValuesFrom(Select(a, fp).value, v)
  {
    var s := Select(a, fp).value;
    forall x | x in s.cells
      ensures exists i :: i in v && s.cells[x] == v[i]
    {
      assert x in a.cells && s.cells[x] == a.cells[x];
    }
  }

  /** `inherited_data(name)` at `p`: nothing when no ancestor-or-self holds the
      variable; the owner's labelled variable when the owner is the node; and
      otherwise that variable selected at the node's own coordinates. */
  function InheritedData(t: Node, p: Path, name: string): (r: Result<Option<LArray>>)
    requires ValidPos(t, p)
    ensures r == Ok(None) <==> forall k :: 0 <= k <= |p| ==> !HoldsAt(t, p, k, WantsVar(name))
    ensures r.Ok? && r.value.Some? ==>
              && Nearest(t, p, |p|, WantsVar(name)).Some?
              && var k := Nearest(t, p, |p|, WantsVar(name)).value;
                 && r.value.value.dims == Dims(DataAt(t, p, k).value)
                 && ValuesFrom(r.value.value, Lookup(DataAt(t, p, k).value.vars, name).value)
  {
    match Nearest(t, p, |p|, WantsVar(name))
    case None => Ok(None)
    case Some(k) =>
      match Resolved(t, p, k, name)
      case Err(e) => Err(e)
      case Ok(a) =>
        var v := Lookup(DataAt(t, p, k).value.vars, name).value;
        assert ValuesFrom(a, v);
        if k == |p| then Ok(Some(a))
        else
          match InheritedCoords(t, p)
          case Err(e) => Err(e)
          case Ok(own) =>
            var s := Select(a, FootprintOf(own));
            if s.Err? then Err(s.error)
            else
              SelectValuesFrom(a, FootprintOf(own), v);
              Ok(Some(s.value))
  }

  /** At the owner itself nothing is lost: every stored value inside the
      coordinates' shape is found at its labels. */
  lemma InheritedDataAtOwner(t: Node, p: Path, name: string, i: seq<nat>)
    requires ValidPos(t, p) && Holds(At(t, p).data, WantsVar(name))
    requires InheritedCoords(t, p).Ok?
    requires var cs := Labels(InheritedCoords(t, p).value);
             && UniqueLabels(cs) && Fits(i, cs)
             && i in Lookup(At(t, p).data.value.vars, name).value
    ensures InheritedData(t, p, name).Ok? && InheritedData(t, p, name).value.Some?
    ensures var cs := Labels(InheritedCoords(t, p).value);
            var a := InheritedData(t, p, name).value.value;
            LabelOf(i, cs) in a.cells && a.cells[LabelOf(i, cs)] == Lookup(At(t, p).data.value.vars, name).value[i]
  {
    assert p[..|p|] == p;
    assert HoldsAt(t, p, |p|, WantsVar(name));
    var ds := At(t, p).data.value;
    var cs := Labels(InheritedCoords(t, p).value);
    LabelledLossless(Dims(ds), Lookup(ds.vars, name).value, cs, i);
  }

  /** Below the owner, a node that does not hold the variable itself sees the
      owner's array selected at its own coordinates. */
  lemma InheritedDataBelow(t: Node, p: Path, k: nat, name: string)
    requires ValidPos(t, p) && k < |p|
    requires HoldsAt(t, p, k, WantsVar(name))
    requires forall j :: k < j <= |p| ==> !HoldsAt(t, p, j, WantsVar(name))
    requires ValidPos(t, p[..k]) && InheritedData(t, p[..k], name).Ok?
    requires InheritedCoords(t, p).Ok?
    ensures InheritedData(t, p[..k], name).value.Some?
    ensures var s := Select(InheritedData(t, p[..k], name).value.value, FootprintOf(InheritedCoords(t, p).value));
            InheritedData(t, p, name) == if s.Ok? then Ok(Some(s.value)) else Err(s.error)
  {
    var q := p[..k];
    var w := WantsVar(name);
    assert q[..k] == q && |q| == k;
    assert HoldsAt(t, q, k, w);
    assert Nearest(t, q, k, w) == Some(k);
    NearestIs(t, p, k, w);
    assert Resolved(t, p, k, name) == Resolved(t, q, k, name);
  }

  /** The nearest holder is the one with no holder between it and the node. */
  lemma NearestIs(t: Node, p: Path, k: nat, w: Wanted)
    requires ValidPos(t, p) && k <= |p| && HoldsAt(t, p, k, w)
    requires forall j :: k < j <= |p| ==> !HoldsAt(t, p, j, w)
    ensures Nearest(t, p, |p|, w) == Some(k)
  {
  }

  // ---------------------------------------------------------------------------
  // leaf_data

  /** `var.loc[coords] = values`: the cells of `layer` replace those of `a`;
      every other cell of `a` stays. */
  function Overlay(a: LArray, layer: LArray): (r: LArray)
    ensures r.dims == a.dims && r.cells.Keys == a.cells.Keys
    ensures forall x :: x in a.cells && x in layer.cells ==> r.cells[x] == layer.cells[x]
    ensures forall x :: x in a.cells && x !in layer.cells ==> r.cells[x] == a.cells[x]
  {
    LArray(a.dims, map x | x in a.cells :: if x in layer.cells then layer.cells[x] else a.cells[x])
  }

  /** Overlay `ls` onto `a`, shallowest first. */
  function OverlayAll(a: LArray, ls: seq<LArray>): (r: LArray)
    decreases |ls|
  {
    if |ls| == 0 then a else Overlay(OverlayAll(a, ls[..|ls| - 1]), ls[|ls| - 1])
  }

  /** The index of the deepest layer that has cell `x`. */
  function TopHolder(x: seq<int>, ls: seq<LArray>): (r: Option<nat>)
    ensures r.Some? ==> r.value < |ls| && x in ls[r.value].cells
    ensures r.Some? ==> forall j :: r.value < j < |ls| ==> x !in ls[j].cells
    ensures r.None? ==> forall j :: 0 <= j < |ls| ==> x !in ls[j].cells
    decreases |ls|
  {
    if |ls| == 0 then None
    else if x in ls[|ls| - 1].cells then Some(|ls| - 1)
    else TopHolder(x, ls[..|ls| - 1])
  }

  /** The deepest layer holding a cell decides its value; cells no layer
      holds keep the base value, and no cell is added or lost. */
  lemma {:induction false} OverlayAllDeepestWins(a: LArray, ls: seq<LArray>)
    ensures OverlayAll(a, ls).dims == a.dims
    ensures OverlayAll(a, ls).cells.Keys == a.cells.Keys
    ensures forall x :: x in a.cells ==>
              OverlayAll(a, ls).cells[x]
              == match TopHolder(x, ls)
                 case Some(j) => ls[j].cells[x]
                 case None => a.cells[x]
    decreases |ls|
  {
    if |ls| > 0 {
      var init := ls[..|ls| - 1];
      OverlayAllDeepestWins(a, init);
      forall x | x in a.cells
        ensures OverlayAll(a, ls).cells[x]
                == match TopHolder(x, ls)
                   case Some(j) => ls[j].cells[x]
                   case None => a.cells[x]
      {
        if x !in ls[|ls| - 1].cells {
          assert TopHolder(x, ls) == TopHolder(x, init);
          match TopHolder(x, init)
          case Some(j) => assert ls[j] == init[j];
          case None =>
        }
      }
    }
  }

  /** The coordinates, taken at the holder at depth `k`, of the dimensions
      `dims` of the working array. */
  function CoordsAt(t: Node, p: Path, k: nat, dims: seq<string>): (r: Result<seq<(string, Coord)>>)
    requires ValidPos(t, p) && k <= |p| && DataAt(t, p, k).Some?
    ensures r.Ok? ==> Keys(r.value) == dims
  {
    ValidPosPrefix(t, p, k);
    CoordsFor(t, p[..k], DataAt(t, p, k).value, dims)
  }

  /** The layer a deeper holder at depth `k` contributes: the `.loc`
      assignment of its variable's values into the working array, whose
      dimensions are `dims`, at its own coordinates (inherited ones where it
      has none). The values are assigned by position, so their shape must be
      that of the selection, or the assignment raises. */
  function LayerAt(t: Node, p: Path, k: nat, name: string, dims: seq<string>): (r: Result<LArray>)
    requires ValidPos(t, p) && k <= |p| && HoldsAt(t, p, k, WantsVar(name))
    ensures CoordsAt(t, p, k, dims).Err? ==> r == Err(CoordsAt(t, p, k, dims).error)
    ensures CoordsAt(t, p, k, dims).Ok? ==>
              (r.Err? <==> Shape(DataAt(t, p, k).value) != Extent(Labels(CoordsAt(t, p, k, dims).value)))
    ensures r.Err? && CoordsAt(t, p, k, dims).Ok? ==> r.error == ShapeMismatch
    ensures r.Ok? ==>
              && CoordsAt(t, p, k, dims).Ok?
              && var cs := Labels(CoordsAt(t, p, k, dims).value);
                 var v := Lookup(DataAt(t, p, k).value.vars, name).value;
                 && r.value.dims == dims
                 && forall x :: x in r.value.cells ==>
                      && IndexOf(x, cs).Some? && IndexOf(x, cs).value in v
                      && r.value.cells[x] == v[IndexOf(x, cs).value]
  {
    ValidPosPrefix(t, p, k);
    var ds := DataAt(t, p, k).value;
    match CoordsAt(t, p, k, dims)
    case Err(e) => Err(e)
    case Ok(cs) =>
      if Shape(ds) != Extent(Labels(cs)) then Err(ShapeMismatch)
      else Ok(Labelled(dims, Lookup(ds.vars, name).value, Labels(cs)))
  }

  /** With labels that never repeat, a layer drops none of the holder's
      stored values: each position inside the holder's shape is found at its
      labels. */
  lemma LayerAtLossless(t: Node, p: Path, k: nat, name: string, dims: seq<string>,
                         ds: Dataset, cs: seq<(string, Coord)>, a: LArray, i: seq<nat>)
    requires ValidPos(t, p) && k <= |p| && HoldsAt(t, p, k, WantsVar(name))
    requires DataAt(t, p, k) == Some(ds) && CoordsAt(t, p, k, dims) == Ok(cs)
    requires LayerAt(t, p, k, name, dims) == Ok(a)
    requires UniqueLabels(Labels(cs)) && HasVar(ds, name)
    requires Inside(i, Shape(ds)) && i in Lookup(ds.vars, name).value
    ensures Fits(i, Labels(cs))
    ensures LabelOf(i, Labels(cs)) in a.cells && a.cells[LabelOf(i, Labels(cs))] == Lookup(ds.vars, name).value[i]
  {
    var ls := Labels(cs);
    assert Shape(ds) == Extent(ls);
    assert Fits(i, ls) by {
      forall j | 0 <= j < |i| ensures i[j] < |ls[j].labels| {
        assert Shape(ds)[j] == Extent(ls)[j];
      }
    }
    LabelledLossless(dims, Lookup(ds.vars, name).value, ls, i);
  }

  /** A holder whose variable spans more dimensions than the working array
      raises: the root holds `v` over `x` of size 1, its child holds `v` over
      `x` and `y`, and the child's `leaf_data('v')` assigns a 1-by-2 block
      into a selection of one cell. */
  lemma LeafDataShapeMismatchExample()
    ensures var root := Dataset([("x", 1)], [("v", map[[0] := 1])], [("x", Coord("x", [0]))]);
            var kid := Dataset([("x", 1), ("y", 2)], [("v", map[[0, 0] := 2, [0, 1] := 3])], [("x", Coord("x", [0]))]);
            var t := Node("", Some(root), [Node("c", Some(kid), [])]);
            && ValidPos(t, [0]) && HoldsAt(t, [0], 1, WantsVar("v"))
            && LayerAt(t, [0], 1, "v", ["x"]) == Err(ShapeMismatch)
            && LeafData(t, [0], "v", None) == Err(ShapeMismatch)
  {
    var root := Dataset([("x", 1)], [("v", map[[0] := 1])], [("x", Coord("x", [0]))]);
    var kid := Dataset([("x", 1), ("y", 2)], [("v", map[[0, 0] := 2, [0, 1] := 3])], [("x", Coord("x", [0]))]);
    var t := Node("", Some(root), [Node("c", Some(kid), [])]);
    var p: Path := [0];
    assert p[..0] == [] && p[..1] == p;
    assert At(t, p) == Node("c", Some(kid), []) by {
      assert p[1..] == [];
    }
    assert Keys(root.vars) == ["v"] && Keys(kid.vars) == ["v"];
    assert HoldsAt(t, p, 0, WantsVar("v")) && HoldsAt(t, p, 1, WantsVar("v"));
    assert Dims(root) == ["x"];
    assert Resolved(t, p, 0, "v").Ok?;
    assert DataAt(t, p, 1) == Some(kid);
    assert Lookup(kid.coords, "x") == Some(Coord("x", [0]));
    assert DimCoord(t, p, kid, "x") == Ok(Coord("x", [0]));
    var cs := CoordsAt(t, p, 1, ["x"]);
    assert cs.Ok? && |cs.value| == 1 && cs.value[0].1 == Coord("x", [0]);
    assert Extent(Labels(cs.value)) == [1];
    assert Shape(kid) == [1, 2];
    assert LayerAt(t, p, 1, "v", ["x"]) == Err(ShapeMismatch);
    assert Holders(t, p, WantsVar("v"), 1) == [1];
    assert Shallowest(t, p, 0, WantsVar("v")) == Some(0);
  }

  /** The depths from `k` to `|p|` whose node holds what is wanted, in order. */
  function Holders(t: Node, p: Path, w: Wanted, k: nat): (r: seq<nat>)
    requires ValidPos(t, p) && k <= |p| + 1
    ensures forall i :: 0 <= i < |r| ==> k <= r[i] <= |p| && HoldsAt(t, p, r[i], w)
    ensures forall i, j :: 0 <= i < j < |r| ==> r[i] < r[j]
    ensures forall d :: k <= d <= |p| && HoldsAt(t, p, d, w) ==> d in r
    decreases |p| + 1 - k
  {
    if k > |p| then []
    else if HoldsAt(t, p, k, w) then [k] + Holders(t, p, w, k + 1)
    else Holders(t, p, w, k + 1)
  }

  /** The layers of the holders at `ds`, in order; the first that cannot be
      built is the error. */
  function LayersAt(t: Node, p: Path, name: string, dims: seq<string>, ds: seq<nat>): (r: Result<seq<LArray>>)
    requires ValidPos(t, p)
    requires forall i :: 0 <= i < |ds| ==> ds[i] <= |p| && HoldsAt(t, p, ds[i], WantsVar(name))
    ensures r.Err? ==> exists i :: 0 <= i < |ds| && LayerAt(t, p, ds[i], name, dims) == Err(r.error)
    ensures r.Ok? ==> |r.value| == |ds|
    ensures r.Ok? ==> forall i :: 0 <= i < |ds| ==> LayerAt(t, p, ds[i], name, dims) == Ok(r.value[i])
  {
    if |ds| == 0 then Ok([])
    else
      match LayerAt(t, p, ds[0], name, dims)
      case Err(e) => Err(e)
      case Ok(layer) =>
        var tail := ds[1..];
        assert forall i :: 0 <= i < |tail| ==> tail[i] == ds[i + 1];
        match LayersAt(t, p, name, dims, tail)
        case Err(e) => Err(e)
        case Ok(rest) => Ok([layer] + rest)
  }

  /** The layers build exactly when each one does. */
  lemma LayersAtOk(t: Node, p: Path, name: string, dims: seq<string>, ds: seq<nat>)
    requires ValidPos(t, p)
    requires forall i :: 0 <= i < |ds| ==> ds[i] <= |p| && HoldsAt(t, p, ds[i], WantsVar(name))
    ensures LayersAt(t, p, name, dims, ds).Ok? <==> forall i :: 0 <= i < |ds| ==> LayerAt(t, p, ds[i], name, dims).Ok?
  {
  }

  /** Where the path of `leaf_data` starts: at `root` when it is an ancestor,
      otherwise at the top of the tree. */
  function StartDepth(p: Path, root: Option<Path>): (k: nat)
    ensures k <= |p|
    ensures root.Some? && IsPrefix(root.value, p) ==> k == |root.value|
  {
    if root.Some? && IsPrefix(root.value, p) then |root.value| else 0
  }

  /** The overlay from the holder at depth `k` raises nothing: its own array
      resolves, and every deeper holder's values fit where they are assigned. */
  predicate OverlayBuilds(t: Node, p: Path, name: string, k: nat)
    requires ValidPos(t, p) && k <= |p| && HoldsAt(t, p, k, WantsVar(name))
  {
    && Resolved(t, p, k, name).Ok?
    && var hs := Holders(t, p, WantsVar(name), k + 1);
       forall i :: 0 <= i < |hs| ==> LayerAt(t, p, hs[i], name, Resolved(t, p, k, name).value.dims).Ok?
  }

  /** The array of the holder at depth `k`, overlaid in order by each deeper
      holder. */
  function Overlaid(t: Node, p: Path, name: string, k: nat): (r: Result<Option<LArray>>)
    requires ValidPos(t, p) && k <= |p| && HoldsAt(t, p, k, WantsVar(name))
    ensures r != Ok(None)
    ensures r.Ok? <==> OverlayBuilds(t, p, name, k)
    ensures r.Err? && Resolved(t, p, k, name).Err? ==> r.error == Resolved(t, p, k, name).error
    ensures r.Err? && Resolved(t, p, k, name).Ok? ==>
              var ls := LayersAt(t, p, name, Resolved(t, p, k, name).value.dims, Holders(t, p, WantsVar(name), k + 1));
              ls.Err? && r.error == ls.error
    ensures r.Ok? ==>
              && Resolved(t, p, k, name).Ok?
              && r.value.value.dims == Resolved(t, p, k, name).value.dims
              && r.value.value.cells.Keys == Resolved(t, p, k, name).value.cells.Keys
  {
    match Resolved(t, p, k, name)
    case Err(e) => Err(e)
    case Ok(a) =>
      var hs := Holders(t, p, WantsVar(name), k + 1);
      LayersAtOk(t, p, name, a.dims, hs);
      match LayersAt(t, p, name, a.dims, hs)
      case Err(e) => Err(e)
      case Ok(ls) =>
        OverlayAllDeepestWins(a, ls);
        Ok(Some(OverlayAll(a, ls)))
  }

  /** The array built along the path from depth `k0`: the shallowest
      holder's, overlaid by the deeper ones. */
  function PathData(t: Node, p: Path, name: string, k0: nat): (r: Result<Option<LArray>>)
    requires ValidPos(t, p) && k0 <= |p|
    ensures r == Ok(None) <==> forall k :: k0 <= k <= |p| ==> !HoldsAt(t, p, k, WantsVar(name))
    ensures r.Err? <==>
              && Shallowest(t, p, k0, WantsVar(name)).Some?
              && !OverlayBuilds(t, p, name, Shallowest(t, p, k0, WantsVar(name)).value)
    ensures r.Ok? && r.value.Some? ==>
              && Shallowest(t, p, k0, WantsVar(name)).Some?
              && var k := Shallowest(t, p, k0, WantsVar(name)).value;
                 && Resolved(t, p, k, name).Ok?
                 && r.value.value.dims == Resolved(t, p, k, name).value.dims
                 && r.value.value.cells.Keys == Resolved(t, p, k, name).value.cells.Keys
  {
    match Shallowest(t, p, k0, WantsVar(name))
    case None => Ok(None)
    case Some(k) => Overlaid(t, p, name, k)
  }

  /** `leaf_data(name, root)` at `p`: when `root` is the node itself (or is
      left out at the top), `inherited_data`; otherwise the shallowest holder's
      array on the path from `root`, overlaid in order by each deeper holder. */
  function LeafData(t: Node, p: Path, name: string, root: Option<Path>): (r: Result<Option<LArray>>)
    requires ValidPos(t, p)
    ensures root == Some(p) || (root.None? && p == []) ==> r == InheritedData(t, p, name)
    ensures !(root == Some(p) || (root.None? && p == [])) ==>
              (r == Ok(None) <==> forall k :: StartDepth(p, root) <= k <= |p| ==> !HoldsAt(t, p, k, WantsVar(name)))
    ensures !(root == Some(p) || (root.None? && p == [])) ==>
              (r.Err? <==>
                 && Shallowest(t, p, StartDepth(p, root), WantsVar(name)).Some?
                 && !OverlayBuilds(t, p, name, Shallowest(t, p, StartDepth(p, root), WantsVar(name)).value))
    ensures !(root == Some(p) || (root.None? && p == [])) && r.Ok? && r.value.Some? ==>
              && Shallowest(t, p, StartDepth(p, root), WantsVar(name)).Some?
              && var k := Shallowest(t, p, StartDepth(p, root), WantsVar(name)).value;
                 && Resolved(t, p, k, name).Ok?
                 && r.value.value.dims == Resolved(t, p, k, name).value.dims
                 && r.value.value.cells.Keys == Resolved(t, p, k, name).value.cells.Keys
  {
    if root == Some(p) || (root.None? && p == []) then InheritedData(t, p, name)
    else PathData(t, p, name, StartDepth(p, root))
  }

  /** `r` has the cells of `a`, each carrying the value of the deepest layer
      of `ls` that has it, and the value in `a` when none has. */
  predicate DeepestWins(r: LArray, a: LArray, ls: seq<LArray>) {
    r.cells.Keys == a.cells.Keys &&
    forall x :: x in r.cells ==>
      r.cells[x] == match TopHolder(x, ls)
                    case Some(j) => ls[j].cells[x]
                    case None => a.cells[x]
  }

  /** `leaf_data`'s value for each cell: among the holders below the
      shallowest one, the deepest whose layer has the cell decides it; a cell
      none of their layers has keeps the shallowest holder's value. */
  lemma LeafDataCells(t: Node, p: Path, name: string, root: Option<Path>, r: LArray) returns (k: nat, ls: seq<LArray>)
    requires ValidPos(t, p) && !(root == Some(p) || (root.None? && p == []))
    requires LeafData(t, p, name, root) == Ok(Some(r))
    ensures Shallowest(t, p, StartDepth(p, root), WantsVar(name)) == Some(k)
    ensures k <= |p| && HoldsAt(t, p, k, WantsVar(name)) && Resolved(t, p, k, name).Ok?
    ensures LayersAt(t, p, name, Resolved(t, p, k, name).value.dims, Holders(t, p, WantsVar(name), k + 1)) == Ok(ls)
    ensures DeepestWins(r, Resolved(t, p, k, name).value, ls)
  {
    k := LeafDataOverlaid(t, p, name, root);
    ls := OverlaidCells(t, p, name, k, r);
  }

  /** Below its own root, `leaf_data` is the overlay from the shallowest holder. */
  lemma LeafDataOverlaid(t: Node, p: Path, name: string, root: Option<Path>) returns (k: nat)
    requires ValidPos(t, p) && !(root == Some(p) || (root.None? && p == []))
    requires LeafData(t, p, name, root).Ok? && LeafData(t, p, name, root).value.Some?
    ensures Shallowest(t, p, StartDepth(p, root), WantsVar(name)) == Some(k)
    ensures k <= |p| && HoldsAt(t, p, k, WantsVar(name))
    ensures LeafData(t, p, name, root) == Overlaid(t, p, name, k)
  {
    assert LeafData(t, p, name, root) == PathData(t, p, name, StartDepth(p, root));
    k := Shallowest(t, p, StartDepth(p, root), WantsVar(name)).value;
  }

  /** The same, for the overlay from the holder at depth `k`. */
  lemma OverlaidCells(t: Node, p: Path, name: string, k: nat, r: LArray) returns (ls: seq<LArray>)
    requires ValidPos(t, p) && k <= |p| && HoldsAt(t, p, k, WantsVar(name))
    requires Overlaid(t, p, name, k) == Ok(Some(r))
    ensures Resolved(t, p, k, name).Ok?
    ensures LayersAt(t, p, name, Resolved(t, p, k, name).value.dims, Holders(t, p, WantsVar(name), k + 1)) == Ok(ls)
    ensures DeepestWins(r, Resolved(t, p, k, name).value, ls)
  {
    ls := OverlaidLayers(t, p, name, k);
    OverlayAllDeepestWins(Resolved(t, p, k, name).value, ls);
  }

  /** Inside the node's own footprint its own values win: when the node holds
      the variable below the shallowest holder, every cell its own layer has
      carries its own value. */
  lemma LeafDataOwnFootprint(t: Node, p: Path, name: string, root: Option<Path>, r: LArray, x: seq<int>)
    requires ValidPos(t, p) && !(root == Some(p) || (root.None? && p == []))
    requires HoldsAt(t, p, |p|, WantsVar(name))
    requires var s := Shallowest(t, p, StartDepth(p, root), WantsVar(name));
             s.Some? && s.value < |p|
    requires LeafData(t, p, name, root) == Ok(Some(r)) && x in r.cells
    ensures var k := Shallowest(t, p, StartDepth(p, root), WantsVar(name)).value;
            var dims := Resolved(t, p, k, name).value.dims;
            LayerAt(t, p, |p|, name, dims).Ok?
            && (x in LayerAt(t, p, |p|, name, dims).value.cells ==> r.cells[x] == LayerAt(t, p, |p|, name, dims).value.cells[x])
  {
    var k := Shallowest(t, p, StartDepth(p, root), WantsVar(name)).value;
    assert LeafData(t, p, name, root) == PathData(t, p, name, StartDepth(p, root)) == Overlaid(t, p, name, k);
    OverlaidOwnFootprint(t, p, name, k, r, x);
  }

  /** The same, for the overlay from the holder at depth `k`. */
  lemma OverlaidOwnFootprint(t: Node, p: Path, name: string, k: nat, r: LArray, x: seq<int>)
    requires ValidPos(t, p) && k < |p| && HoldsAt(t, p, k, WantsVar(name)) && HoldsAt(t, p, |p|, WantsVar(name))
    requires Overlaid(t, p, name, k) == Ok(Some(r)) && x in r.cells
    ensures Resolved(t, p, k, name).Ok?
    ensures var dims := Resolved(t, p, k, name).value.dims;
            LayerAt(t, p, |p|, name, dims).Ok?
            && (x in LayerAt(t, p, |p|, name, dims).value.cells ==> r.cells[x] == LayerAt(t, p, |p|, name, dims).value.cells[x])
  {
    var a := Resolved(t, p, k, name).value;
    var ls := OverlaidLayers(t, p, name, k);
    assert r == OverlayAll(a, ls);
    OwnLayerLast(t, p, name, a.dims, k + 1, ls);
    if x in ls[|ls| - 1].cells {
      OverlayTopWins(a, ls, x);
    }
  }

  /** The layers overlaid on the holder at depth `k`. */
  lemma OverlaidLayers(t: Node, p: Path, name: string, k: nat) returns (ls: seq<LArray>)
    requires ValidPos(t, p) && k <= |p| && HoldsAt(t, p, k, WantsVar(name))
    requires Overlaid(t, p, name, k).Ok?
    ensures Resolved(t, p, k, name).Ok?
    ensures LayersAt(t, p, name, Resolved(t, p, k, name).value.dims, Holders(t, p, WantsVar(name), k + 1)) == Ok(ls)
    ensures Overlaid(t, p, name, k) == Ok(Some(OverlayAll(Resolved(t, p, k, name).value, ls)))
  {
    var a := Resolved(t, p, k, name).value;
    ls := LayersAt(t, p, name, a.dims, Holders(t, p, WantsVar(name), k + 1)).value;
  }

  /** A node holding the variable contributes the last layer. */
  lemma OwnLayerLast(t: Node, p: Path, name: string, dims: seq<string>, k: nat, ls: seq<LArray>)
    requires ValidPos(t, p) && k <= |p| && HoldsAt(t, p, |p|, WantsVar(name))
    requires LayersAt(t, p, name, dims, Holders(t, p, WantsVar(name), k)) == Ok(ls)
    ensures |ls| > 0 && LayerAt(t, p, |p|, name, dims) == Ok(ls[|ls| - 1])
  {
    var hs := Holders(t, p, WantsVar(name), k);
    HoldersEndAtNode(t, p, WantsVar(name), k);
    var j := |hs| - 1;
    assert LayerAt(t, p, hs[j], name, dims) == Ok(ls[j]);
  }

  /** When the node itself holds what is wanted, it is the deepest holder. */
  lemma HoldersEndAtNode(t: Node, p: Path, w: Wanted, k: nat)
    requires ValidPos(t, p) && k <= |p| && HoldsAt(t, p, |p|, w)
    ensures var hs := Holders(t, p, w, k); |hs| > 0 && hs[|hs| - 1] == |p|
  {
    var hs := Holders(t, p, w, k);
    assert |p| in hs;
    var i :| 0 <= i < |hs| && hs[i] == |p|;
    var j := |hs| - 1;
    assert hs[i] <= hs[j];
  }

  lemma OverlayTopWins(a: LArray, ls: seq<LArray>, x: seq<int>)
    requires |ls| > 0 && x in OverlayAll(a, ls).cells && x in ls[|ls| - 1].cells
    ensures OverlayAll(a, ls).cells[x] == ls[|ls| - 1].cells[x]
  {
    OverlayAllDeepestWins(a, ls);
  }
}

=== FILE: items.dfy ===
/** `XarrayTreeItem`, in both packages: the rows a view shows for a node tree
    (one row per node, and below it one row per shown variable and
    coordinate), what a row displays and what editing a row does. */
module Items {
  import opened Wrappers
  import opened Seqs
  import opened Datasets
  import opened Tree
  import opened TreeEdit
  import opened NodeOps
  import opened Decimal

  /** Which package's item class: they differ only in the options they read
      and in how a row's path is spelled. */
  datatype Flavour = Plain | PyQt

  /** The `options` dict: `show_vars` and `show_coords` (default true), and
      `hide_vars` and `hide_coords` (default false), which only the PyQt
      package reads. */
  datatype Options = Options(showVars: bool, showCoords: bool, hideVars: bool, hideCoords: bool)

  const Defaults := Options(true, true, false, false)

  predicate ShowsVars(f: Flavour, o: Options) {
    if f == PyQt then !o.hideVars && o.showVars else o.showVars
  }

  predicate ShowsCoords(f: Flavour, o: Options) {
    if f == PyQt then !o.hideCoords && o.showCoords else o.showCoords
  }

  /** A row: the node it belongs to, and the key of a variable or coordinate
      of the node's dataset, or `None` for the node's own row. */
  datatype Row = Row(node: Path, key: Option<string>)

  /** An item: its row and its child items. */
  datatype Item = Item(row: Row, kids: seq<Item>)

  // ---------------------------------------------------------------------------
  // Building the item tree

  function KeyItems<V>(s: seq<(string, V)>, at: Path): (r: seq<Item>)
    ensures |r| == |s| && forall i :: 0 <= i < |s| ==> r[i] == Item(Row(at, Some(s[i].0)), [])
  {
    seq(|s|, i requires 0 <= i < |s| => Item(Row(at, Some(s[i].0)), []))
  }

  /** The variable rows, then the coordinate rows, of a node's dataset. */
  function EntryItems(d: Option<Dataset>, at: Path, f: Flavour, o: Options): seq<Item> {
    match d
    case None => []
    case Some(ds) =>
      (if ShowsVars(f, o) then KeyItems(ds.vars, at) else []) +
      (if ShowsCoords(f, o) then KeyItems(ds.coords, at) else [])
  }

  /** The item of the node `n` at position `at`: its entry rows first, then
      one item per child node, recursively. */
  function Build(n: Node, at: Path, f: Flavour, o: Options): (it: Item)
    ensures it.row == Row(at, None)
    ensures it.kids == EntryItems(n.data, at, f, o) + KidItems(n, at, f, o)
    decreases n, 1
  {
    Item(Row(at, None), EntryItems(n.data, at, f, o) + KidItems(n, at, f, o))
  }

  function KidItems(n: Node, at: Path, f: Flavour, o: Options): (ks: seq<Item>)
    ensures |ks| == |n.children|
    decreases n, 0
  {
    seq(|n.children|, i requires 0 <= i < |n.children| => Build(n.children[i], at + [i], f, o))
  }

  /** `depth_first`: an item's row, then its children's rows in order. */
  function Flatten(it: Item): (rs: seq<Row>)
    ensures |rs| > 0 && rs[0] == it.row
    decreases it, 1
  {
    [it.row] + FlattenAll(it.kids)
  }

  function FlattenAll(its: seq<Item>): seq<Row>
    decreases its, 0
  {
    if |its| == 0 then [] else Flatten(its[0]) + FlattenAll(its[1..])
  }

  /** Every row of the view of `t`, in depth-first order. */
  function Rows(t: Node, f: Flavour, o: Options): seq<Row> {
    Flatten(Build(t, [], f, o))
  }

  /** Whether the node `m` gets a row with this key. */
  predicate Shown(f: Flavour, o: Options, m: Node, key: Option<string>) {
    match key
    case None => true
    case Some(k) =>
      m.data.Some? &&
      ((ShowsVars(f, o) && HasVar(m.data.value, k)) || (ShowsCoords(f, o) && HasCoord(m.data.value, k)))
  }

  lemma {:induction false} FlattenAllMember(its: seq<Item>, r: Row)
    ensures r in FlattenAll(its) <==> exists i :: 0 <= i < |its| && r in Flatten(its[i])
    decreases |its|
  {
    if |its| > 0 {
      FlattenAllMember(its[1..], r);
      if exists i :: 0 <= i < |its[1..]| && r in Flatten(its[1..][i]) {
        var i :| 0 <= i < |its[1..]| && r in Flatten(its[1..][i]);
        assert its[1..][i] == its[i + 1];
      }
      if exists i :: 0 <= i < |its| && r in Flatten(its[i]) {
        var i :| 0 <= i < |its| && r in Flatten(its[i]);
        if i > 0 {
          assert its[1..][i - 1] == its[i];
        }
      }
    }
  }

  lemma KeyItemsMember<V>(s: seq<(string, V)>, at: Path, r: Row)
    ensures r in FlattenAll(KeyItems(s, at)) <==> r.node == at && r.key.Some? && r.key.value in Keys(s)
  {
    var its := KeyItems(s, at);
    FlattenAllMember(its, r);
    forall i | 0 <= i < |its|
      ensures Flatten(its[i]) == [Row(at, Some(s[i].0))]
    {
      assert FlattenAll(its[i].kids) == [];
    }
    if r.node == at && r.key.Some? && r.key.value in Keys(s) {
      var i :| 0 <= i < |Keys(s)| && Keys(s)[i] == r.key.value;
      assert r in Flatten(its[i]);
    }
  }

  lemma FlattenAllConcat(a: seq<Item>, b: seq<Item>)
    ensures FlattenAll(a + b) == FlattenAll(a) + FlattenAll(b)
    decreases |a|
  {
    if |a| > 0 {
      assert (a + b)[1..] == a[1..] + b;
      FlattenAllConcat(a[1..], b);
    } else {
      assert a + b == b;
    }
  }

  lemma EntryItemsMember(d: Option<Dataset>, at: Path, f: Flavour, o: Options, r: Row)
    ensures r in FlattenAll(EntryItems(d, at, f, o)) <==>
              r.node == at && r.key.Some? && Shown(f, o, Node("", d, []), r.key)
  {
    if d.Some? {
      var ds := d.value;
      var vs := if ShowsVars(f, o) then KeyItems(ds.vars, at) else [];
      var cs := if ShowsCoords(f, o) then KeyItems(ds.coords, at) else [];
      FlattenAllConcat(vs, cs);
      KeyItemsMember(ds.vars, at, r);
      KeyItemsMember(ds.coords, at, r);
    }
  }

  /** `r` lies in the subtree at `at`, at the relative position `Rel(r, at)`. */
  predicate Under(r: Row, at: Path) {
    |r.node| >= |at| && r.node[..|at|] == at
  }

  function Rel(r: Row, at: Path): Path
    requires Under(r, at)
  {
    r.node[|at|..]
  }

  lemma UnderChild(r: Row, at: Path, i: nat)
    requires Under(r, at + [i])
    ensures Under(r, at) && Rel(r, at) == [i] + Rel(r, at + [i])
  {
    var h := r.node[..|at| + 1];
    assert h == at + [i];
    assert r.node[..|at|] == h[..|at|];
    assert r.node[|at|] == h[|at|];
  }

  /** The rows of a node's item: its own row, its entries' rows, then its
      children's. */
  lemma BuildFlat(n: Node, at: Path, f: Flavour, o: Options)
    ensures Flatten(Build(n, at, f, o)) ==
            [Row(at, None)] + FlattenAll(EntryItems(n.data, at, f, o)) + FlattenAll(KidItems(n, at, f, o))
  {
    var es := EntryItems(n.data, at, f, o);
    var ks := KidItems(n, at, f, o);
    var it := Build(n, at, f, o);
    assert Flatten(it) == [Row(at, None)] + FlattenAll(es + ks);
    FlattenAllConcat(es, ks);
    ConcatAssoc([Row(at, None)], FlattenAll(es), FlattenAll(ks));
  }

  /** Every row of a node's item belongs to a node below it and is shown. */
  lemma {:induction false} BuildRowsSound(n: Node, at: Path, f: Flavour, o: Options, r: Row)
    requires r in Flatten(Build(n, at, f, o))
    ensures Under(r, at) && ValidPos(n, Rel(r, at)) && Shown(f, o, At(n, Rel(r, at)), r.key)
    decreases n
  {
    var ks := KidItems(n, at, f, o);
    BuildFlat(n, at, f, o);
    if r in FlattenAll(ks) {
      FlattenAllMember(ks, r);
      var i :| 0 <= i < |ks| && r in Flatten(ks[i]);
      BuildRowsSound(n.children[i], at + [i], f, o, r);
      ChildRowSound(n, at, i, f, o, r);
    } else {
      OwnRowSound(n, at, f, o, r);
    }
  }

  /** A row shown below child `i` is shown below the node. */
  lemma ChildRowSound(n: Node, at: Path, i: nat, f: Flavour, o: Options, r: Row)
    requires i < |n.children| && Under(r, at + [i]) && ValidPos(n.children[i], Rel(r, at + [i]))
    requires Shown(f, o, At(n.children[i], Rel(r, at + [i])), r.key)
    ensures Under(r, at) && ValidPos(n, Rel(r, at)) && Shown(f, o, At(n, Rel(r, at)), r.key)
  {
    UnderChild(r, at, i);
    ChildPos(n, i, Rel(r, at + [i]));
  }

  /** The node's own row and its entry rows are shown at the node. */
  lemma OwnRowSound(n: Node, at: Path, f: Flavour, o: Options, r: Row)
    requires r in [Row(at, None)] + FlattenAll(EntryItems(n.data, at, f, o))
    ensures Under(r, at) && Rel(r, at) == [] && Shown(f, o, n, r.key)
  {
    EntryItemsMember(n.data, at, f, o, r);
    assert r.node[..|at|] == at && r.node[|at|..] == [];
  }

  /** Every shown entry of a node below, and every node below, has a row. */
  /** A row strictly below `at` is under the child its relative position
      starts with. */
  lemma RelChild(n: Node, r: Row, at: Path)
    requires Under(r, at) && ValidPos(n, Rel(r, at)) && Rel(r, at) != []
    ensures var q := Rel(r, at);
            && Under(r, at + [q[0]]) && Rel(r, at + [q[0]]) == q[1..]
            && ValidPos(n.children[q[0]], q[1..]) && At(n, q) == At(n.children[q[0]], q[1..])
  {
    var q := Rel(r, at);
    assert r.node[..|at| + 1] == at + [q[0]];
    ChildPos(n, q[0], q[1..]);
    assert q == [q[0]] + q[1..];
  }

  lemma {:induction false} BuildRowsComplete(n: Node, at: Path, f: Flavour, o: Options, r: Row)
    requires Under(r, at) && ValidPos(n, Rel(r, at)) && Shown(f, o, At(n, Rel(r, at)), r.key)
    ensures r in Flatten(Build(n, at, f, o))
    decreases n
  {
    var es := EntryItems(n.data, at, f, o);
    var ks := KidItems(n, at, f, o);
    BuildFlat(n, at, f, o);
    var q := Rel(r, at);
    if q == [] {
      assert r.node == at;
      if r.key.Some? {
        EntryItemsMember(n.data, at, f, o, r);
      }
    } else {
      var i := q[0];
      RelChild(n, r, at);
      BuildRowsComplete(n.children[i], at + [i], f, o, r);
      assert r in Flatten(ks[i]);
      FlattenAllMember(ks, r);
    }
  }

  lemma BuildRows(n: Node, at: Path, f: Flavour, o: Options, r: Row)
    ensures r in Flatten(Build(n, at, f, o)) <==>
              Under(r, at) && ValidPos(n, Rel(r, at)) && Shown(f, o, At(n, Rel(r, at)), r.key)
  {
    if r in Flatten(Build(n, at, f, o)) {
      BuildRowsSound(n, at, f, o, r);
    }
    if Under(r, at) && ValidPos(n, Rel(r, at)) && Shown(f, o, At(n, Rel(r, at)), r.key) {
      BuildRowsComplete(n, at, f, o, r);
    }
  }

  /** The rows of the whole view: one per node, and one per shown variable or
      coordinate of every node's dataset. */
  lemma RowsMembers(t: Node, f: Flavour, o: Options, r: Row)
    ensures r in Rows(t, f, o) <==> ValidPos(t, r.node) && Shown(f, o, At(t, r.node), r.key)
  {
    BuildRows(t, [], f, o, r);
    assert Rel(r, []) == r.node;
  }

  // ---------------------------------------------------------------------------
  // Row kinds

  /** `is_dataset` / `is_node` */
  predicate IsNodeRow(r: Row) {
    r.key.None?
  }

  /** `is_var`, or `None` where the source's attribute lookup on a missing
      dataset raises. */
  function IsVar(t: Node, r: Row): (b: Result<bool>)
    requires ValidPos(t, r.node)
    ensures b.Err? <==> r.key.Some? && At(t, r.node).data.None?
    ensures b == Ok(true) <==> r.key.Some? && At(t, r.node).data.Some? && HasVar(At(t, r.node).data.value, r.key.value)
  {
    match r.key
    case None => Ok(false)
    case Some(k) =>
      match At(t, r.node).data
      case None => Err(MissingDataset)
      case Some(ds) => Ok(HasVar(ds, k))
  }

  /** `is_coord` */
  function IsCoord(t: Node, r: Row): (b: Result<bool>)
    requires ValidPos(t, r.node)
    ensures b.Err? <==> r.key.Some? && At(t, r.node).data.None?
    ensures b == Ok(true) <==> r.key.Some? && At(t, r.node).data.Some? && HasCoord(At(t, r.node).data.value, r.key.value)
  {
    match r.key
    case None => Ok(false)
    case Some(k) =>
      match At(t, r.node).data
      case None => Err(MissingDataset)
      case Some(ds) => Ok(HasCoord(ds, k))
  }

  // ---------------------------------------------------------------------------
  // Displayed text

  /** `f'{dim}: {size}'` */
  function SizeEntry(e: (string, nat)): string {
    e.0 + ": " + Format(e.1)
  }

  /** `', '.join(...)` of the size entries. */
  function JoinSizes(sizes: seq<(string, nat)>): (s: string)
    ensures |sizes| > 0 ==> |s| > 0
    decreases |sizes|
  {
    if |sizes| == 0 then ""
    else if |sizes| == 1 then SizeEntry(sizes[0])
    else SizeEntry(sizes[0]) + ", " + JoinSizes(sizes[1..])
  }

  /** The details text of a node row: `(dim: size, ...)`. */
  function Details(sizes: seq<(string, nat)>): (s: string)
    ensures |s| >= 2 && s[0] == '(' && s[|s| - 1] == ')'
  {
    "(" + JoinSizes(sizes) + ")"
  }

  /** What a row shows: plain text, or the one-line summary xarray prints for
      a variable or coordinate (`Summary`, left uninterpreted). */
  datatype Text = Label(s: string) | Summary(node: Path, key: string)

  /** `data(column)`: `None` for a stale key or another column, and an error
      where the source reads the sizes or names of a missing dataset. */
  function ItemData(t: Node, r: Row, column: int): (x: Result<Option<Text>>)
    requires ValidPos(t, r.node)
    ensures column == 0 && r.key.None? ==> x == Ok(Some(Label(At(t, r.node).name)))
    ensures column == 0 && r.key.Some? && At(t, r.node).data.Some? ==>
              x == Ok(if Has(At(t, r.node).data.value, r.key.value) then Some(Label(r.key.value)) else None)
    ensures column == 1 && r.key.None? && At(t, r.node).data.Some? ==>
              x == Ok(Some(Label(Details(At(t, r.node).data.value.sizes))))
    ensures column == 1 && r.key.Some? && At(t, r.node).data.Some? ==>
              x == Ok(if Has(At(t, r.node).data.value, r.key.value) then Some(Summary(r.node, r.key.value)) else None)
    ensures x.Err? <==> (column == 0 || column == 1) && At(t, r.node).data.None? && (column == 1 || r.key.Some?)
    ensures column != 0 && column != 1 ==> x == Ok(None)
  {
    var m := At(t, r.node);
    if column == 0 then
      match r.key
      case None => Ok(Some(Label(m.name)))
      case Some(k) =>
        if m.data.None? then Err(MissingDataset)
        else if HasVar(m.data.value, k) || HasCoord(m.data.value, k) then Ok(Some(Label(k)))
        else Ok(None)
    else if column == 1 then
      if m.data.None? then Err(MissingDataset)
      else
        match r.key
        case None => Ok(Some(Label(Details(m.data.value.sizes))))
        case Some(k) =>
          if HasVar(m.data.value, k) || HasCoord(m.data.value, k) then Ok(Some(Summary(r.node, k)))
          else Ok(None)
    else Ok(None)
  }

  /** The position of the first `c` in `s`, or `|s|`. */
  function IndexOf(s: string, c: char): (i: nat)
    ensures i <= |s| && (i < |s| ==> s[i] == c)
  {
    if |s| == 0 || s[0] == c then 0 else 1 + IndexOf(s[1..], c)
  }

  lemma {:induction false} IndexOfConcat(a: string, b: string, c: char)
    requires c !in a
    ensures IndexOf(a + b, c) == |a| + IndexOf(b, c)
    decreases |a|
  {
    if |a| > 0 {
      assert (a + b)[0] == a[0] && (a + b)[1..] == a[1..] + b;
      IndexOfConcat(a[1..], b, c);
    } else {
      assert a + b == b;
    }
  }

  /** Reads a size listing back: `dim: size` entries separated by `, `. */
  function ParseSizes(s: string): Option<seq<(string, nat)>>
    decreases |s|
  {
    if |s| == 0 then Some([])
    else
      match ParseEntry(s)
      case None => None
      case Some((e, None)) => Some([e])
      case Some((e, Some(more))) =>
        match ParseSizes(more)
        case None => None
        case Some(es) => if |es| == 0 then None else Some([e] + es)
  }

  /** The `dim: size` entry at the front of `s`, and what follows the `, `
      after it when something does. */
  function ParseEntry(s: string): (r: Option<((string, nat), Option<string>)>)
    ensures r.Some? && r.value.1.Some? ==> |r.value.1.value| < |s|
  {
    var i := IndexOf(s, ':');
    if i + 1 >= |s| || s[i + 1] != ' ' then None
    else
      var rest := s[i + 2..];
      var j := IndexOf(rest, ',');
      var num := rest[..j];
      if |num| == 0 || !AllDigits(num) then None
      else if j == |rest| then Some(((s[..i], Parse(num)), None))
      else if j + 1 >= |rest| || rest[j + 1] != ' ' then None
      else Some(((s[..i], Parse(num)), Some(rest[j + 2..])))
  }

  function ParseDetails(s: string): Option<seq<(string, nat)>> {
    if |s| >= 2 && s[0] == '(' && s[|s| - 1] == ')' then ParseSizes(s[1..|s| - 1]) else None
  }

  predicate NoColon(sizes: seq<(string, nat)>) {
    forall i :: 0 <= i < |sizes| ==> ':' !in sizes[i].0
  }

  lemma {:induction false} ParseJoin(sizes: seq<(string, nat)>)
    requires NoColon(sizes)
    ensures ParseSizes(JoinSizes(sizes)) == Some(sizes)
    decreases |sizes|
  {
    if |sizes| == 1 {
      JoinOne(sizes);
    } else if |sizes| > 1 {
      NoColonTail(sizes);
      ParseJoin(sizes[1..]);
      JoinMore(sizes);
    }
  }

  /** A listing of one entry reads back as that entry. */
  lemma JoinOne(sizes: seq<(string, nat)>)
    requires NoColon(sizes) && |sizes| == 1
    ensures ParseSizes(JoinSizes(sizes)) == Some(sizes)
  {
    var dim := sizes[0].0;
    var num := Format(sizes[0].1);
    ParseFormat(sizes[0].1);
    Assoc5(dim, ": ", num, "", "");
    ParseCons(dim, num, "");
    assert [(dim, Parse(num))] == sizes;
  }

  /** If the rest of a longer listing reads back, so does the whole listing. */
  lemma JoinMore(sizes: seq<(string, nat)>)
    requires NoColon(sizes) && |sizes| > 1
    requires ParseSizes(JoinSizes(sizes[1..])) == Some(sizes[1..])
    ensures ParseSizes(JoinSizes(sizes)) == Some(sizes)
  {
    var rest := sizes[1..];
    Uncons(sizes);
    JoinSizesCons(sizes);
    EntryBack(sizes[0], JoinSizes(rest), rest);
  }

  /** An entry in front of a non-empty listing that reads back. */
  lemma EntryBack(e: (string, nat), more: string, es: seq<(string, nat)>)
    requires ':' !in e.0
    requires ParseSizes(more) == Some(es) && |es| > 0
    ensures ParseSizes(e.0 + (": " + Format(e.1) + (", " + more))) == Some([e] + es)
  {
    ParseFormat(e.1);
    ConsBack(e.0, Format(e.1), more, es);
  }

  /** A listing of more than one entry is its first entry, `, ` and the rest. */
  lemma JoinSizesCons(sizes: seq<(string, nat)>)
    requires |sizes| > 1
    ensures JoinSizes(sizes) == sizes[0].0 + (": " + Format(sizes[0].1) + (", " + JoinSizes(sizes[1..])))
  {
    Assoc5(sizes[0].0, ": ", Format(sizes[0].1), ", ", JoinSizes(sizes[1..]));
  }

  /** `EntryBack` with the size written as any digit string. */
  lemma ConsBack(dim: string, num: string, more: string, es: seq<(string, nat)>)
    requires ':' !in dim && |num| > 0 && AllDigits(num)
    requires ParseSizes(more) == Some(es) && |es| > 0
    ensures ParseSizes(dim + (": " + num + (", " + more))) == Some([(dim, Parse(num))] + es)
  {
    ParseCons(dim, num, ", " + more);
    assert (", " + more)[2..] == more;
  }

  lemma NoColonTail(sizes: seq<(string, nat)>)
    requires NoColon(sizes) && |sizes| > 0
    ensures NoColon(sizes[1..])
  {
    forall i | 0 <= i < |sizes[1..]|
      ensures ':' !in sizes[1..][i].0
    {
      assert sizes[1..][i] == sizes[i + 1];
    }
  }

  /** How the parser reads one `dim: size` entry followed by `tail`. */
  lemma ParseCons(dim: string, num: string, tail: string)
    requires ':' !in dim && |num| > 0 && AllDigits(num)
    requires tail == "" || (|tail| >= 2 && tail[..2] == ", ")
    ensures tail == "" ==> ParseSizes(dim + (": " + num + tail)) == Some([(dim, Parse(num))])
    ensures tail != "" ==>
              ParseSizes(dim + (": " + num + tail)) ==
              match ParseSizes(tail[2..])
              case None => None
              case Some(more) => if |more| == 0 then None else Some([(dim, Parse(num))] + more)
  {
    EntryCut(dim, num, tail);
    if tail == "" {
      ParseLast(dim + (": " + num + tail), |dim|, num);
    } else {
      var rest := num + tail;
      assert rest[|num| + 2..] == tail[2..];
      ParseMore(dim + (": " + num + tail), |dim|, num, tail[2..]);
    }
  }

  /** The last entry, read from the positions of its separators. */
  lemma ParseLast(s: string, i: nat, num: string)
    requires |s| > 0 && IndexOf(s, ':') == i && i + 1 < |s| && s[i + 1] == ' '
    requires s[i + 2..] == num && IndexOf(num, ',') == |num| && |num| > 0 && AllDigits(num)
    ensures ParseEntry(s) == Some(((s[..i], Parse(num)), None))
  {
    Whole(num);
  }

  /** An entry followed by `, ` and more. */
  lemma ParseMore(s: string, i: nat, num: string, more: string)
    requires |s| > 0 && IndexOf(s, ':') == i && i + 1 < |s| && s[i + 1] == ' '
    requires var rest := s[i + 2..];
             && IndexOf(rest, ',') == |num| && |rest| >= |num| + 2 && rest[..|num|] == num
             && rest[|num| + 1] == ' ' && rest[|num| + 2..] == more
    requires |num| > 0 && AllDigits(num)
    ensures ParseEntry(s) == Some(((s[..i], Parse(num)), Some(more)))
  {
  }

  /** Where the parser cuts: the first colon ends the dimension name, the
      first comma after it ends the number. */
  lemma EntryCut(dim: string, num: string, tail: string)
    requires ':' !in dim && |num| > 0 && AllDigits(num)
    requires tail == "" || (|tail| >= 2 && tail[..2] == ", ")
    ensures var s := dim + (": " + num + tail);
            && IndexOf(s, ':') == |dim| && |dim| + 1 < |s| && s[|dim| + 1] == ' ' && s[..|dim|] == dim
            && s[|dim| + 2..] == num + tail
            && IndexOf(num + tail, ',') == |num| && (num + tail)[..|num|] == num
            && (tail != "" ==> (num + tail)[|num| + 1] == ' ')
  {
    assert ": " + num + tail == ": " + (num + tail);
    DimCut(dim, num + tail);
    NumCut(num, tail);
  }

  /** The first colon of `dim: rest` is the one after `dim`. */
  lemma DimCut(dim: string, rest: string)
    requires ':' !in dim
    ensures var s := dim + (": " + rest);
            && IndexOf(s, ':') == |dim| && |dim| + 1 < |s| && s[|dim| + 1] == ' ' && s[..|dim|] == dim
            && s[|dim| + 2..] == rest
  {
    var s := dim + (": " + rest);
    IndexOfConcat(dim, ": " + rest, ':');
    assert s[|dim| + 2..] == rest;
    assert s[..|dim|] == dim;
  }

  /** The first comma of `num, …` is the one after the digits. */
  lemma NumCut(num: string, tail: string)
    requires |num| > 0 && AllDigits(num)
    requires tail == "" || (|tail| >= 2 && tail[..2] == ", ")
    ensures IndexOf(num + tail, ',') == |num| && (num + tail)[..|num|] == num
    ensures tail != "" ==> (num + tail)[|num| + 1] == ' '
  {
    assert ',' !in num by {
      forall k | 0 <= k < |num|
        ensures num[k] != ','
      {
        assert IsDigit(num[k]);
      }
    }
    IndexOfConcat(num, tail, ',');
    assert (num + tail)[..|num|] == num;
    if tail != "" {
      assert tail[0] == ',';
      assert tail[1] == ' ';
    }
  }

  /** The details text lists the sizes in order and can be read back, as long
      as no dimension name holds a colon. */
  lemma DetailsRoundTrip(sizes: seq<(string, nat)>)
    requires NoColon(sizes)
    ensures ParseDetails(Details(sizes)) == Some(sizes)
  {
    var s := Details(sizes);
    assert s[1..|s| - 1] == JoinSizes(sizes);
    ParseJoin(sizes);
  }

  // ---------------------------------------------------------------------------
  // Paths

  /** The PyQt item's `path`: the node's path, directly followed by the key. */
  function ItemPath(t: Node, r: Row): (s: string)
    requires ValidPos(t, r.node)
    ensures r.key.None? ==> s == NodePath(t, r.node)
  {
    NodePath(t, r.node) + (if r.key.Some? then r.key.value else "")
  }

  /** The plain package's item `path`: the node's path, a slash, the key. */
  function PlainItemPath(t: Node, r: Row): (s: string)
    requires ValidPos(t, r.node)
    ensures r.key.None? ==> s == NodePath(t, r.node)
  {
    NodePath(t, r.node) + (if r.key.Some? then "/" + r.key.value else "")
  }

  /** Splitting a PyQt row's path at the slashes gives the node names from the
      root down, then the key. */
  lemma ItemPathSegments(t: Node, r: Row)
    requires ValidPos(t, r.node) && r.key.Some? && |r.key.value| > 0 && '/' !in r.key.value
    requires forall k :: 0 <= k <= |r.node| ==> '/' !in Lineage(t, r.node)[k]
    ensures Segments(ItemPath(t, r)) == Lineage(t, r.node) + [r.key.value]
  {
    PathSegments(t, r.node);
    NodePathLast(t, r.node);
    SegmentsAppendLast(NodePath(t, r.node), r.key.value);
  }

  /** Splitting a plain row's path at the slashes gives the node names, an
      empty segment (the node path already ends in a slash), then the key. */
  lemma PlainItemPathSegments(t: Node, r: Row)
    requires ValidPos(t, r.node) && r.key.Some? && |r.key.value| > 0 && '/' !in r.key.value
    requires forall k :: 0 <= k <= |r.node| ==> '/' !in Lineage(t, r.node)[k]
    ensures Segments(PlainItemPath(t, r)) == Lineage(t, r.node) + ["", r.key.value]
  {
    var np := NodePath(t, r.node);
    var k := r.key.value;
    assert PlainItemPath(t, r) == np + ("/" + k);
    assert np + ("/" + k) == np + "/" + k;
    PathSegments(t, r.node);
    NodePathLast(t, r.node);
    SegmentsEmptyThenLast(np, k);
  }

  lemma SegmentsEmptyThenLast(np: string, key: string)
    requires |np| > 0 && np[|np| - 1] == '/' && |key| > 0 && '/' !in key
    ensures Segments(np + "/" + key) == Segments(np) + ["", key]
  {
    var a := np + "/";
    assert np + "" + "/" == a;
    SegmentsAppend(np, "");
    assert a[|a| - 1] == '/';
    SegmentsAppendLast(a, key);
  }

  // ---------------------------------------------------------------------------
  // Editing a row

  /** The tree with the dataset of the node at `p` replaced. */
  function SetDataset(t: Node, p: Path, ds: Dataset): Node
    requires ValidPos(t, p)
  {
    Put(t, p, At(t, p).(data := Some(ds)))
  }

  /** Replacing one node's dataset changes no position, no name and no other
      node's dataset. */
  lemma {:induction false} SetDatasetKeeps(t: Node, p: Path, ds: Dataset, q: Path)
    requires ValidPos(t, p)
    ensures ValidPos(SetDataset(t, p, ds), q) <==> ValidPos(t, q)
    ensures ValidPos(t, q) ==>
              && At(SetDataset(t, p, ds), q).name == At(t, q).name
              && Names(At(SetDataset(t, p, ds), q).children) == Names(At(t, q).children)
              && At(SetDataset(t, p, ds), q).data == (if q == p then Some(ds) else At(t, q).data)
    decreases |p|
  {
    if p != [] {
      var c := t.children[p[0]];
      assert At(t, p) == At(c, p[1..]);
      assert SetDataset(t, p, ds) == t.(children := t.children[p[0] := SetDataset(c, p[1..], ds)]);
      SetDatasetKeeps(c, p[1..], ds, []);
      if q != [] {
        if q[0] == p[0] {
          SetDatasetKeeps(c, p[1..], ds, q[1..]);
          assert q == p <==> q[1..] == p[1..];
        }
      } else {
        var r := SetDataset(t, p, ds);
        assert Names(r.children) == Names(t.children) by {
          forall i | 0 <= i < |r.children|
            ensures Names(r.children)[i] == Names(t.children)[i]
          {
          }
        }
      }
    }
  }

  lemma SetDatasetValid(t: Node, p: Path, ds: Dataset)
    requires ValidTree(t) && ValidPos(t, p)
    ensures ValidTree(SetDataset(t, p, ds))
  {
    ValidAt(t, p);
    OwnNameFree(t, p);
    var n := At(t, p).(data := Some(ds));
    assert ValidTree(n) by {
      assert n.children == At(t, p).children;
    }
    PutValid(t, p, n);
  }

  /** What `set_data` returns and leaves behind: whether it succeeded, the
      tree, and the row's key afterwards. */
  datatype Edit = Edit(ok: bool, tree: Node, key: Option<string>)

  /** `set_data(column, value)` on one row. A node row renames its node (the
      name setter may raise); a variable or coordinate row renames that one
      entry of its dataset unless the new name is already held there. */
  function SetItemData(t: Node, r: Row, column: int, value: string): (e: Result<Edit>)
    requires ValidPos(t, r.node)
    ensures column != 0 ==> e == Ok(Edit(false, t, r.key))
    ensures r.key.None? && column == 0 ==>
              match SetName(t, r.node, value)
              case Err(x) => e == Err(x)
              case Ok(t') => e == Ok(Edit(true, t', None))
    ensures r.key.Some? && column == 0 ==>
              (e.Err? <==> At(t, r.node).data.None?)
    ensures e.Ok? && !e.value.ok ==> e.value.tree == t && e.value.key == r.key
    ensures r.key.Some? && column == 0 && At(t, r.node).data.Some? ==>
              var ds := At(t, r.node).data.value;
              var k := r.key.value;
              && (e.value.ok <==> Has(ds, k) && !Has(ds, value))
              && (e.value.ok ==>
                    && e.value.key == Some(value)
                    && e.value.tree == SetDataset(t, r.node, RenameEntries(ds, map[k := value])))
  {
    if column != 0 then Ok(Edit(false, t, r.key))
    else
      match r.key
      case None =>
        (match SetName(t, r.node, value)
         case Err(x) => Err(x)
         case Ok(t') => Ok(Edit(true, t', None)))
      case Some(k) =>
        match At(t, r.node).data
        case None => Err(MissingDataset)
        case Some(ds) =>
          if !(HasVar(ds, k) || HasCoord(ds, k)) then Ok(Edit(false, t, r.key))
          else if HasVar(ds, value) || HasCoord(ds, value) then Ok(Edit(false, t, r.key))
          else Ok(Edit(true, SetDataset(t, r.node, RenameEntries(ds, map[k := value])), Some(value)))
  }

  /** After a successful entry rename the dataset holds the new name and no
      longer the old one; every other node keeps its dataset. */
  lemma SetItemDataRenames(t: Node, r: Row, value: string, q: Path)
    requires ValidPos(t, r.node) && r.key.Some?
    requires SetItemData(t, r, 0, value).Ok? && SetItemData(t, r, 0, value).value.ok
    ensures var t' := SetItemData(t, r, 0, value).value.tree;
            && ValidPos(t', r.node)
            && At(t', r.node).data.Some?
            && Has(At(t', r.node).data.value, value)
            && !Has(At(t', r.node).data.value, r.key.value)
            && (ValidPos(t, q) && q != r.node ==> ValidPos(t', q) && At(t', q) .data == At(t, q).data)
  {
    var ds := At(t, r.node).data.value;
    var k := r.key.value;
    var m := map[k := value];
    var ds' := RenameEntries(ds, m);
    SetDatasetKeeps(t, r.node, ds', r.node);
    SetDatasetKeeps(t, r.node, ds', q);
    RenameHas(ds, m, value);
    RenameHas(ds, m, k);
    if HasVar(ds, k) {
      var i :| 0 <= i < |Keys(ds.vars)| && Keys(ds.vars)[i] == k;
      assert NewName(m, ds.vars[i].0) == value;
    } else {
      var i :| 0 <= i < |Keys(ds.coords)| && Keys(ds.coords)[i] == k;
      assert NewName(m, ds.coords[i].0) == value;
    }
  }

  /** An edit keeps the sibling-name rule. */
  lemma SetItemDataValid(t: Node, r: Row, column: int, value: string)
    requires ValidTree(t) && ValidPos(t, r.node)
    requires SetItemData(t, r, column, value).Ok?
    ensures ValidTree(SetItemData(t, r, column, value).value.tree)
  {
    if column == 0 && r.key.Some? && SetItemData(t, r, column, value).value.ok {
      var ds := At(t, r.node).data.value;
      SetDatasetValid(t, r.node, RenameEntries(ds, map[r.key.value := value]));
    }
  }
}

=== FILE: models.dfy ===
/** `XarrayTreeModel`, in both packages: the column count, the item flags and
    `setData`, whose rename of a variable or coordinate row cascades to the
    rows of the same name throughout the tree. */
module Models {
  import opened Wrappers
  import opened Datasets
  import opened Tree
  import opened Items
  import opened VarRenames

  // ---------------------------------------------------------------------------
  // The details column

  /** Whether column 1 (`Details`) is shown. */
  datatype ViewState = ViewState(showDetails: bool)

  /** The structural change announced to the view. */
  datatype ColumnChange = Inserted | Removed

  function ColumnCount(v: ViewState): (n: nat) {
    if v.showDetails then 2 else 1
  }

  /** `setShowDetailsColumn` / the `show_details_column` setter. */
  function SetShowDetails(v: ViewState, show: bool): (r: (ViewState, Option<ColumnChange>))
    ensures r.0.showDetails == show
    ensures r.1.None? <==> v.showDetails == show
    ensures r.1 == Some(Inserted) ==> ColumnCount(r.0) == ColumnCount(v) + 1
    ensures r.1 == Some(Removed) ==> ColumnCount(r.0) + 1 == ColumnCount(v)
  {
    if v.showDetails == show then (v, None)
    else if show then (ViewState(true), Some(Inserted))
    else (ViewState(false), Some(Removed))
  }

  /** The column count follows the setting, and setting it again changes
      nothing. */
  lemma SetShowDetailsSettles(v: ViewState, show: bool)
    ensures ColumnCount(SetShowDetails(v, show).0) == (if show then 2 else 1)
    ensures SetShowDetails(SetShowDetails(v, show).0, show) == (SetShowDetails(v, show).0, None)
  {
  }

  // ---------------------------------------------------------------------------
  // Flags

  datatype Flag = Enabled | Selectable | Editable | DragEnabled | DropEnabled

  /** The plain package's `flags`. `valid` is whether the index is valid and
      `drops` whether the model supports drop actions. A column other than 0
      and 1 leaves `flags` unassigned. */
  function PlainFlags(valid: bool, r: Row, column: int, drops: bool): (fs: Result<set<Flag>>)
    ensures !valid ==> fs == Ok(if drops then {DropEnabled} else {})
    ensures valid ==> (fs.Err? <==> column != 0 && column != 1)
    ensures valid && fs.Ok? ==>
              && Enabled in fs.value && Selectable in fs.value
              && (Editable in fs.value <==> column == 0)
              && (DragEnabled in fs.value <==> drops)
              && (DropEnabled in fs.value <==> drops && IsNodeRow(r))
  {
    if !valid then Ok(if drops then {DropEnabled} else {})
    else if column != 0 && column != 1 then Err(UnboundLocal)
    else
      var base := if column == 0 then {Enabled, Selectable, Editable} else {Enabled, Selectable};
      if !drops then Ok(base)
      else if IsNodeRow(r) then Ok(base + {DragEnabled, DropEnabled})
      else Ok(base + {DragEnabled})
  }

  /** A row is a variable row of its dataset (`is_var` on an existing dataset). */
  predicate VarRow(t: Node, r: Row)
    requires ValidPos(t, r.node)
  {
    r.key.Some? && At(t, r.node).data.Some? && HasVar(At(t, r.node).data.value, r.key.value)
  }

  predicate CoordRow(t: Node, r: Row)
    requires ValidPos(t, r.node)
  {
    r.key.Some? && At(t, r.node).data.Some? && HasCoord(At(t, r.node).data.value, r.key.value)
  }

  /** `is_var() or is_coord()`: the row's key is still an entry of its dataset.
      A row whose key is gone (or whose node lost its dataset) is stale. */
  predicate LiveRow(t: Node, r: Row)
    requires ValidPos(t, r.node)
  {
    VarRow(t, r) || CoordRow(t, r)
  }

  /** Every keyed row of the view built from the current tree is live. */
  lemma RowsLive(t: Node, f: Flavour, o: Options, r: Row)
    requires r in Rows(t, f, o) && r.key.Some?
    ensures ValidPos(t, r.node) && LiveRow(t, r)
  {
    RowsMembers(t, f, o, r);
  }

  /** The row's kind is among the allowed selections. */
  predicate Allowed(t: Node, r: Row, allowed: seq<string>)
    requires ValidPos(t, r.node)
  {
    && (IsNodeRow(r) ==> "dataset" in allowed)
    && (VarRow(t, r) ==> "var" in allowed)
    && (CoordRow(t, r) ==> "coord" in allowed)
  }

  /** The PyQt package's `flags`: a row of a kind that may not be selected is
      enabled and editable (in either column); otherwise column 1 is enabled
      and selectable and column 0 also editable. */
  function PyQtFlags(t: Node, valid: bool, r: Option<Row>, column: int, allowed: seq<string>): (fs: Result<set<Flag>>)
    requires r.Some? ==> ValidPos(t, r.value.node)
    ensures !valid || r.None? ==> fs == Ok({})
    ensures valid && r.Some? ==>
              (fs.Err? <==> r.value.key.Some? && At(t, r.value.node).data.None?)
    ensures valid && r.Some? && fs.Ok? ==>
              && Enabled in fs.value
              && (Selectable in fs.value <==> Allowed(t, r.value, allowed))
              && (Editable in fs.value <==> !Allowed(t, r.value, allowed) || column != 1)
              && DragEnabled !in fs.value && DropEnabled !in fs.value
  {
    if !valid || r.None? then Ok({})
    else
      var row := r.value;
      if IsNodeRow(row) && "dataset" !in allowed then Ok({Enabled, Editable})
      else if row.key.Some? && At(t, row.node).data.None? then Err(MissingDataset)
      else if VarRow(t, row) && "var" !in allowed then Ok({Enabled, Editable})
      else if CoordRow(t, row) && "coord" !in allowed then Ok({Enabled, Editable})
      else if column == 1 then Ok({Enabled, Selectable})
      else Ok({Enabled, Selectable, Editable})
  }

  // ---------------------------------------------------------------------------
  // The cascade's two phases

  /** Which rows the first walk checks and collects: the plain package takes
      every row with the edited key; the PyQt package takes the rows of the
      edited row's kind, checking the new name against that kind only, or,
      when `strict`, against both kinds as the per-row rename does. */
  datatype Selector = SameKey | SameKind(itemVar: bool, itemCoord: bool, strict: bool)

  /** The check of the first walk fails at row `x`. */
  predicate Rejects(s: Selector, t: Node, x: Row, k: string, v: string) {
    ValidPos(t, x.node) && At(t, x.node).data.Some? &&
    var d := At(t, x.node).data;
    match s
    case SameKey => x.key == Some(k) && Has(d.value, v)
    case SameKind(iv, ic, strict) =>
      if iv && VarRow(t, x) then (if strict then Has(d.value, v) else HasVar(d.value, v))
      else if ic && CoordRow(t, x) then (if strict then Has(d.value, v) else HasCoord(d.value, v))
      else false
  }

  /** The first walk collects row `x` for renaming. */
  predicate Collects(s: Selector, t: Node, x: Row, k: string) {
    ValidPos(t, x.node) && At(t, x.node).data.Some? && x.key == Some(k) &&
    match s
    case SameKey => true
    case SameKind(iv, ic, _) => (iv && VarRow(t, x)) || (ic && CoordRow(t, x))
  }

  /** The first walk: fail at the first row whose check fails, else return the
      collected rows. */
  method Collect(s: Selector, t: Node, rows: seq<Row>, k: string, v: string) returns (ok: bool, picked: seq<Row>)
    ensures ok <==> forall x :: x in rows ==> !Rejects(s, t, x, k, v)
    ensures ok ==> forall x :: x in picked <==> x in rows && Collects(s, t, x, k)
  {
    picked := [];
    var i := 0;
    while i < |rows|
      invariant 0 <= i <= |rows|
      invariant forall j :: 0 <= j < i ==> !Rejects(s, t, rows[j], k, v)
      invariant forall x :: x in picked <==> x in rows[..i] && Collects(s, t, x, k)
    {
      var x := rows[i];
      if Rejects(s, t, x, k, v) {
        return false, picked;
      }
      if Collects(s, t, x, k) {
        picked := picked + [x];
      }
      assert rows[..i + 1] == rows[..i] + [x];
      i := i + 1;
    }
    assert rows[..i] == rows;
    ok := true;
  }

  /** The renamed dataset no longer holds the old name. */
  lemma RenameSingleDrops(ds: Dataset, k: string, v: string)
    requires k != v
    ensures !Has(RenameEntries(ds, map[k := v]), k)
  {
    var m := map[k := v];
    RenameHas(ds, m, k);
  }

  /** With the old name held, the rename of `rename_vars` and of `set_data`
      agree. */
  lemma RenameSingleApplies(ds: Dataset, k: string, v: string)
    requires Has(ds, k)
    ensures RenameData(Some(ds), map[k := v]) == Some(RenameEntries(ds, map[k := v]))
  {
    var m := map[k := v];
    assert Applicable(ds, m) == m;
  }

  /** One row of the second walk: the node's dataset is renamed unless it
      already was, or already holds the new name. */
  lemma ApplyStep(t: Node, cur: Node, done: iset<Path>, k: string, v: string, q: Path)
    requires k != v && RenamedAt(t, cur, done, map[k := v])
    requires ValidPos(t, q) && At(t, q).data.Some? && Has(At(t, q).data.value, k)
    ensures ValidPos(cur, q)
    ensures SetItemData(cur, Row(q, Some(k)), 0, v).Ok?
    ensures RenamedAt(t, SetItemData(cur, Row(q, Some(k)), 0, v).value.tree,
                      if Has(At(t, q).data.value, v) then done else done + iset{q}, map[k := v])
    ensures ValidTree(cur) ==> ValidTree(SetItemData(cur, Row(q, Some(k)), 0, v).value.tree)
  {
    var m := map[k := v];
    var ds := At(t, q).data.value;
    var r := Row(q, Some(k));
    assert ValidPos(cur, q);
    var e := SetItemData(cur, r, 0, v);
    if ValidTree(cur) {
      SetItemDataValid(cur, r, 0, v);
    }
    if q in done {
      RenameSingleApplies(ds, k, v);
      RenameSingleDrops(ds, k, v);
      assert !e.value.ok;
      assert done + iset{q} == done;
    } else if Has(ds, v) {
      assert !e.value.ok;
    } else {
      var ds' := RenameEntries(ds, m);
      assert e.value.tree == SetDataset(cur, q, ds');
      RenameSingleApplies(ds, k, v);
      var done' := done + iset{q};
      forall y
        ensures ValidPos(t, y) <==> ValidPos(e.value.tree, y)
        ensures ValidPos(t, y) ==>
                  && ValidPos(e.value.tree, y)
                  && At(e.value.tree, y).name == At(t, y).name
                  && At(e.value.tree, y).data == (if y in done' then RenameData(At(t, y).data, m) else At(t, y).data)
      {
        SetDatasetKeeps(cur, q, ds', y);
      }
    }
  }

  /** The nodes the second walk renames: those of collected rows whose
      dataset does not already hold the new name. */
  ghost predicate RenamedBy(t: Node, picked: seq<Row>, v: string, q: Path) {
    ValidPos(t, q) && At(t, q).data.Some? && !Has(At(t, q).data.value, v) &&
    exists x :: x in picked && x.node == q
  }

  /** One more collected row adds its node, unless that node already holds
      the new name. */
  lemma RenamedByExtend(t: Node, picked: seq<Row>, i: nat, v: string, q: Path)
    requires i < |picked|
    ensures RenamedBy(t, picked[..i + 1], v, q) <==>
            RenamedBy(t, picked[..i], v, q) ||
            (q == picked[i].node && ValidPos(t, q) && At(t, q).data.Some? && !Has(At(t, q).data.value, v))
  {
    var x := picked[i];
    assert picked[..i + 1] == picked[..i] + [x];
    if RenamedBy(t, picked[..i + 1], v, q) {
      var y :| y in picked[..i + 1] && y.node == q;
      if y != x {
        assert y in picked[..i];
      }
    }
    if RenamedBy(t, picked[..i], v, q) {
      var y :| y in picked[..i] && y.node == q;
      assert y in picked[..i + 1];
    }
    if q == x.node && ValidPos(t, q) && At(t, q).data.Some? && !Has(At(t, q).data.value, v) {
      assert x in picked[..i + 1];
    }
  }

  /** The second walk: `set_data(0, value)` on every collected row in turn,
      keeping whatever each one does. */
  method ApplyAll(t: Node, picked: seq<Row>, k: string, v: string) returns (r: Node)
    requires k != v
    requires forall x :: x in picked ==>
               && x.key == Some(k) && ValidPos(t, x.node)
               && At(t, x.node).data.Some? && Has(At(t, x.node).data.value, k)
    ensures RenamedAt(t, r, iset q | RenamedBy(t, picked, v, q), map[k := v])
    ensures ValidTree(t) ==> ValidTree(r)
  {
    r := t;
    ghost var done: iset<Path> := iset{};
    assert RenamedAt(t, r, done, map[k := v]);
    var i := 0;
    while i < |picked|
      invariant 0 <= i <= |picked|
      invariant RenamedAt(t, r, done, map[k := v])
      invariant ValidTree(t) ==> ValidTree(r)
      invariant forall q :: q in done <==> RenamedBy(t, picked[..i], v, q)
    {
      var x := picked[i];
      assert x in picked;
      ApplyStep(t, r, done, k, v, x.node);
      assert x == Row(x.node, Some(k));
      var e := SetItemData(r, x, 0, v);
      r := e.value.tree;
      done := if Has(At(t, x.node).data.value, v) then done else done + iset{x.node};
      forall q
        ensures q in done <==> RenamedBy(t, picked[..i + 1], v, q)
      {
        RenamedByExtend(t, picked, i, v, q);
      }
      i := i + 1;
    }
    assert picked[..i] == picked;
    assert done == iset q | RenamedBy(t, picked, v, q);
  }

  /** The nodes whose dataset the second walk renames: those of collected
      rows that do not already hold the new name. */
  ghost predicate Renames(s: Selector, t: Node, rows: seq<Row>, k: string, v: string, q: Path) {
    ValidPos(t, q) && At(t, q).data.Some? && !Has(At(t, q).data.value, v) &&
    exists x :: x in rows && x.node == q && Collects(s, t, x, k)
  }

  /** Both walks: check every row, then rename every collected one. */
  method Cascade(s: Selector, t: Node, rows: seq<Row>, k: string, v: string) returns (ok: bool, r: Node)
    requires k != v
    requires forall x :: x in rows && Collects(s, t, x, k) ==> Has(At(t, x.node).data.value, k)
    ensures ok <==> forall x :: x in rows ==> !Rejects(s, t, x, k, v)
    ensures !ok ==> r == t
    ensures ok ==> RenamedAt(t, r, iset q | Renames(s, t, rows, k, v, q), map[k := v])
    ensures ValidTree(t) ==> ValidTree(r)
  {
    var picked;
    ok, picked := Collect(s, t, rows, k, v);
    if !ok {
      return false, t;
    }
    r := ApplyAll(t, picked, k, v);
    forall q
      ensures RenamedBy(t, picked, v, q) <==> Renames(s, t, rows, k, v, q)
    {
      if RenamedBy(t, picked, v, q) {
        var y :| y in picked && y.node == q;
        assert y in rows && Collects(s, t, y, k);
      }
      if Renames(s, t, rows, k, v, q) {
        var y :| y in rows && y.node == q && Collects(s, t, y, k);
        assert y in picked;
      }
    }
    assert (iset q | RenamedBy(t, picked, v, q)) == (iset q | Renames(s, t, rows, k, v, q));
  }

  // ---------------------------------------------------------------------------
  // setData

  /** What `setData` reports, and the tree it leaves. */
  datatype Outcome = Outcome(accepted: bool, tree: Node)

  /** `item.set_data(column, value)` as `setData`'s answer. */
  function Single(e: Result<Edit>): (r: Result<Outcome>)
    ensures r.Ok? <==> e.Ok?
    ensures e.Ok? ==> r.value == Outcome(e.value.ok, e.value.tree)
  {
    match e
    case Err(x) => Err(x)
    case Ok(ed) => Ok(Outcome(ed.ok, ed.tree))
  }

  /** The nodes showing a row with key `k` in the plain package. */
  ghost function ShownNodes(t: Node, o: Options, k: string): iset<Path> {
    iset q | ValidPos(t, q) && Shown(Plain, o, At(t, q), Some(k))
  }

  /** The plain package's `setData`. `edit` is whether the role is the edit
      role and `answer` whether the user agreed to rename throughout the
      tree. The cascade renames the key in every dataset showing it, or
      nothing when one of them already holds the new name. The edited row
      may be stale: `is_var` raises when its node has no dataset, and a key
      the dataset no longer holds skips the cascade, so the row's own
      `set_data` returns False. */
  method PlainSetData(t: Node, o: Options, row: Row, column: int, value: string, edit: bool, answer: bool)
    returns (r: Result<Outcome>)
    requires ValidPos(t, row.node)
    ensures !edit ==> r == Ok(Outcome(false, t))
    ensures edit && column == 0 && row.key == Some(value) ==> r == Ok(Outcome(false, t))
    ensures edit && column == 0 && LiveRow(t, row) && row.key != Some(value) && answer ==>
              var k := row.key.value;
              && r.Ok?
              && (r.value.accepted <==>
                    forall q :: ValidPos(t, q) && Shown(Plain, o, At(t, q), Some(k)) ==>
                                  !Has(At(t, q).data.value, value))
              && (r.value.accepted ==> RenamedAt(t, r.value.tree, ShownNodes(t, o, k), map[k := value]))
    ensures edit && !(column == 0 && (row.key == Some(value) || (LiveRow(t, row) && answer))) ==>
              r == Single(SetItemData(t, row, column, value))
    ensures edit && column == 0 && row.key.Some? && row.key != Some(value) && At(t, row.node).data.None? ==>
              r == Err(MissingDataset)
    ensures edit && row.key.Some? && At(t, row.node).data.Some? && !LiveRow(t, row) ==>
              r == Ok(Outcome(false, t))
    ensures r.Ok? && !r.value.accepted ==> r.value.tree == t
    ensures r.Ok? && ValidTree(t) ==> ValidTree(r.value.tree)
  {
    if !edit {
      return Ok(Outcome(false, t));
    }
    if column == 0 && row.key == Some(value) {
      return Ok(Outcome(false, t));
    }
    if column == 0 && row.key.Some? {
      var isVar := IsVar(t, row);
      if isVar.Err? {
        return Err(isVar.error);
      }
      var isCoord := IsCoord(t, row);
      if (isVar.value || isCoord.value) && answer {
        var ok, tree := PlainCascade(t, o, row.key.value, value);
        return Ok(Outcome(ok, tree));
      }
    }
    r := Single(SetItemData(t, row, column, value));
    if r.Ok? && ValidTree(t) {
      SetItemDataValid(t, row, column, value);
    }
  }

  /** The plain package's cascade over the rows with key `k`. */
  method PlainCascade(t: Node, o: Options, k: string, value: string) returns (ok: bool, tree: Node)
    requires k != value
    ensures ok <==> forall q :: ValidPos(t, q) && Shown(Plain, o, At(t, q), Some(k)) ==>
                                  !Has(At(t, q).data.value, value)
    ensures !ok ==> tree == t
    ensures ok ==> RenamedAt(t, tree, ShownNodes(t, o, k), map[k := value])
    ensures ValidTree(t) ==> ValidTree(tree)
  {
    var rows := Rows(t, Plain, o);
    forall y | y in rows && Collects(SameKey, t, y, k)
      ensures Has(At(t, y.node).data.value, k)
    {
      RowsMembers(t, Plain, o, y);
    }
    ok, tree := Cascade(SameKey, t, rows, k, value);
    PlainWalk(t, o, k, value);
    if ok {
      forall q
        ensures Renames(SameKey, t, rows, k, value, q) <==> q in ShownNodes(t, o, k)
      {
        PlainRenames(t, o, k, value, q);
      }
      assert (iset q | Renames(SameKey, t, rows, k, value, q)) == ShownNodes(t, o, k);
    }
  }

  /** The plain package's check fails exactly at a node showing the key
      whose dataset holds the new name. */
  lemma PlainWalk(t: Node, o: Options, k: string, v: string)
    ensures (forall x :: x in Rows(t, Plain, o) ==> !Rejects(SameKey, t, x, k, v)) <==>
            (forall q :: ValidPos(t, q) && Shown(Plain, o, At(t, q), Some(k)) ==> !Has(At(t, q).data.value, v))
  {
    var rows := Rows(t, Plain, o);
    if forall x :: x in rows ==> !Rejects(SameKey, t, x, k, v) {
      forall q | ValidPos(t, q) && Shown(Plain, o, At(t, q), Some(k))
        ensures !Has(At(t, q).data.value, v)
      {
        RowsMembers(t, Plain, o, Row(q, Some(k)));
        assert !Rejects(SameKey, t, Row(q, Some(k)), k, v);
      }
    } else {
      var x :| x in rows && Rejects(SameKey, t, x, k, v);
      RowsMembers(t, Plain, o, x);
      assert ValidPos(t, x.node) && Shown(Plain, o, At(t, x.node), Some(k));
      assert Has(At(t, x.node).data.value, v);
    }
  }

  /** Once the check has passed, the plain cascade renames exactly the nodes
      showing the key. */
  lemma PlainRenames(t: Node, o: Options, k: string, v: string, q: Path)
    requires forall x :: x in Rows(t, Plain, o) ==> !Rejects(SameKey, t, x, k, v)
    ensures Renames(SameKey, t, Rows(t, Plain, o), k, v, q) <==> q in ShownNodes(t, o, k)
  {
    var rows := Rows(t, Plain, o);
    if Renames(SameKey, t, rows, k, v, q) {
      var y :| y in rows && y.node == q && Collects(SameKey, t, y, k);
      RowsMembers(t, Plain, o, y);
    }
    if q in ShownNodes(t, o, k) {
      var y := Row(q, Some(k));
      RowsMembers(t, Plain, o, y);
      assert !Rejects(SameKey, t, y, k, v);
      assert y in rows && y.node == q && Collects(SameKey, t, y, k);
    }
  }

  // ---------------------------------------------------------------------------
  // The PyQt package's cascade

  /** Every dataset in the tree is one xarray could hold. */
  ghost predicate AllWellFormed(t: Node) {
    forall q :: ValidPos(t, q) && At(t, q).data.Some? ==> WellFormed(At(t, q).data.value)
  }

  /** Variables or coordinates. */
  datatype Kind = VarKind | CoordKind

  function KindNames(kind: Kind, ds: Dataset): seq<string> {
    if kind == VarKind then Keys(ds.vars) else Keys(ds.coords)
  }

  predicate HasKind(kind: Kind, ds: Dataset, name: string) {
    name in KindNames(kind, ds)
  }

  predicate ShowsKind(f: Flavour, o: Options, kind: Kind) {
    if kind == VarKind then ShowsVars(f, o) else ShowsCoords(f, o)
  }

  /** The kind of a variable or coordinate row. */
  function KindOf(t: Node, x: Row): Kind
    requires ValidPos(t, x.node)
  {
    if VarRow(t, x) then VarKind else CoordKind
  }

  /** The selector of a walk over the rows of one kind. */
  function KindSelector(kind: Kind, strict: bool): Selector {
    SameKind(kind == VarKind, kind == CoordKind, strict)
  }

  /** The check passes: no dataset holds the new name among entries of the
      edited kind or, when `strict`, no dataset with entries of that kind
      holds it at all. */
  ghost predicate KindFree(t: Node, kind: Kind, v: string, strict: bool) {
    forall q :: ValidPos(t, q) && At(t, q).data.Some? ==>
      if strict then |KindNames(kind, At(t, q).data.value)| > 0 ==> !Has(At(t, q).data.value, v)
      else !HasKind(kind, At(t, q).data.value, v)
  }

  /** The nodes with an entry `k` of the edited kind. */
  ghost function Holders(t: Node, kind: Kind, k: string): iset<Path> {
    iset q | ValidPos(t, q) && At(t, q).data.Some? && HasKind(kind, At(t, q).data.value, k)
  }

  /** Of those, the ones whose dataset does not already hold the new name. */
  ghost function Renamable(t: Node, kind: Kind, k: string, v: string): iset<Path> {
    iset q | ValidPos(t, q) && At(t, q).data.Some? && HasKind(kind, At(t, q).data.value, k)
                 && !Has(At(t, q).data.value, v)
  }

  /** A variable or coordinate row of a well-formed tree is of exactly one
      kind, and rows of that kind are shown. */
  lemma RowKind(t: Node, o: Options, x: Row)
    requires x in Rows(t, PyQt, o) && x.key.Some? && AllWellFormed(t)
    ensures ValidPos(t, x.node) && At(t, x.node).data.Some?
    ensures ShowsKind(PyQt, o, KindOf(t, x))
    ensures HasKind(KindOf(t, x), At(t, x.node).data.value, x.key.value)
    ensures SameKind(VarRow(t, x), CoordRow(t, x), false) == KindSelector(KindOf(t, x), false)
    ensures SameKind(VarRow(t, x), CoordRow(t, x), true) == KindSelector(KindOf(t, x), true)
  {
    RowsMembers(t, PyQt, o, x);
    var ds := At(t, x.node).data.value;
    var k := x.key.value;
    assert WellFormed(ds);
  }

  /** The check of a walk over one kind passes exactly when `KindFree`. */
  lemma KindWalk(t: Node, o: Options, kind: Kind, k: string, v: string, strict: bool)
    requires ShowsKind(PyQt, o, kind)
    ensures (forall x :: x in Rows(t, PyQt, o) ==> !Rejects(KindSelector(kind, strict), t, x, k, v)) <==>
            KindFree(t, kind, v, strict)
  {
    var rows := Rows(t, PyQt, o);
    var s := KindSelector(kind, strict);
    if forall x :: x in rows ==> !Rejects(s, t, x, k, v) {
      forall q | ValidPos(t, q) && At(t, q).data.Some?
        ensures if strict then |KindNames(kind, At(t, q).data.value)| > 0 ==> !Has(At(t, q).data.value, v)
                else !HasKind(kind, At(t, q).data.value, v)
      {
        var ds := At(t, q).data.value;
        if strict && |KindNames(kind, ds)| > 0 {
          var y := Row(q, Some(KindNames(kind, ds)[0]));
          RowsMembers(t, PyQt, o, y);
          assert !Rejects(s, t, y, k, v);
        } else if !strict {
          var y := Row(q, Some(v));
          RowsMembers(t, PyQt, o, y);
          assert !Rejects(s, t, y, k, v);
        }
      }
    } else {
      var x :| x in rows && Rejects(s, t, x, k, v);
      var ds := At(t, x.node).data.value;
      assert HasKind(kind, ds, x.key.value);
      assert !KindFree(t, kind, v, strict) by {
        assert ValidPos(t, x.node) && At(t, x.node).data.Some?;
      }
    }
  }

  /** A walk over one kind renames the nodes holding the key as that kind
      and not already holding the new name. */
  lemma KindRenames(t: Node, o: Options, kind: Kind, k: string, v: string, strict: bool, q: Path)
    requires ShowsKind(PyQt, o, kind)
    ensures Renames(KindSelector(kind, strict), t, Rows(t, PyQt, o), k, v, q) <==> q in Renamable(t, kind, k, v)
  {
    var rows := Rows(t, PyQt, o);
    var s := KindSelector(kind, strict);
    if q in Renamable(t, kind, k, v) {
      var y := Row(q, Some(k));
      RowsMembers(t, PyQt, o, y);
      assert y in rows && y.node == q && Collects(s, t, y, k);
    }
  }

  /** Both walks of the PyQt package's cascade, checking the new name against
      the edited kind only or, when `strict`, against both kinds. */
  method PyQtWalk(t: Node, o: Options, x: Row, value: string, strict: bool) returns (ok: bool, r: Node)
    requires x in Rows(t, PyQt, o) && x.key.Some?
    ensures ValidPos(t, x.node)
    ensures ok <==> forall y :: y in Rows(t, PyQt, o) ==>
                      !Rejects(SameKind(VarRow(t, x), CoordRow(t, x), strict), t, y, x.key.value, value)
    ensures !ok ==> r == t
    ensures ok ==> RenamedAt(t, r, iset q | Renames(SameKind(VarRow(t, x), CoordRow(t, x), strict), t,
                                                     Rows(t, PyQt, o), x.key.value, value, q),
                             map[x.key.value := value])
    ensures ValidTree(t) ==> ValidTree(r)
  {
    RowsMembers(t, PyQt, o, x);
    var k := x.key.value;
    var s := SameKind(VarRow(t, x), CoordRow(t, x), strict);
    var rows := Rows(t, PyQt, o);
    if k == value {
      assert Rejects(s, t, x, k, value);
      return false, t;
    }
    ok, r := Cascade(s, t, rows, k, value);
  }

  /** The PyQt package's `setData`, as written: a variable row's rename is
      checked against the variables of the tree only (a coordinate row's
      against the coordinates), yet each per-node rename refuses a name held
      as either kind. It then reports success while the nodes holding the new
      name as the other kind keep the old name. A stale row raises or
      returns False as in the plain package. */
  method PyQtSetData(t: Node, o: Options, row: Option<Row>, column: int, value: string, edit: bool)
    returns (r: Result<Outcome>)
    requires row.Some? ==> ValidPos(t, row.value.node) && (LiveRow(t, row.value) ==> row.value in Rows(t, PyQt, o))
    ensures !edit || row.None? ==> r == Ok(Outcome(false, t))
    ensures edit && row.Some? && row.value.key.None? ==>
              r == Single(SetItemData(t, row.value, column, value))
    ensures edit && row.Some? && row.value.key.Some? && At(t, row.value.node).data.None? ==>
              r == Err(MissingDataset)
    ensures edit && row.Some? && row.value.key.Some? && At(t, row.value.node).data.Some? && !LiveRow(t, row.value) ==>
              r == Ok(Outcome(false, t))
    ensures edit && row.Some? && LiveRow(t, row.value) ==> r.Ok?
    ensures edit && row.Some? && LiveRow(t, row.value) && AllWellFormed(t) ==>
              var x := row.value;
              && (r.value.accepted <==> KindFree(t, KindOf(t, x), value, false))
              && (r.value.accepted ==>
                    RenamedAt(t, r.value.tree, Renamable(t, KindOf(t, x), x.key.value, value), map[x.key.value := value]))
    ensures r.Ok? && !r.value.accepted ==> r.value.tree == t
    ensures r.Ok? && ValidTree(t) ==> ValidTree(r.value.tree)
  {
    if !edit || row.None? {
      return Ok(Outcome(false, t));
    }
    var x := row.value;
    if x.key.Some? {
      var isVar := IsVar(t, x);
      if isVar.Err? {
        return Err(isVar.error);
      }
      var isCoord := IsCoord(t, x);
      if isVar.value || isCoord.value {
        var ok, tree := PyQtWalk(t, o, x, value, false);
        if AllWellFormed(t) {
          PyQtKindFacts(t, o, x, value, false);
        }
        return Ok(Outcome(ok, tree));
      }
    }
    r := Single(SetItemData(t, x, column, value));
    if r.Ok? && ValidTree(t) {
      SetItemDataValid(t, x, column, value);
    }
  }

  /** The walk over the rows of a well-formed tree, stated per kind. */
  lemma PyQtKindFacts(t: Node, o: Options, x: Row, value: string, strict: bool)
    requires x in Rows(t, PyQt, o) && x.key.Some? && AllWellFormed(t)
    ensures ValidPos(t, x.node)
    ensures (forall y :: y in Rows(t, PyQt, o) ==>
               !Rejects(SameKind(VarRow(t, x), CoordRow(t, x), strict), t, y, x.key.value, value)) <==>
            KindFree(t, KindOf(t, x), value, strict)
    ensures (iset q | Renames(SameKind(VarRow(t, x), CoordRow(t, x), strict), t, Rows(t, PyQt, o), x.key.value, value, q))
            == Renamable(t, KindOf(t, x), x.key.value, value)
  {
    RowKind(t, o, x);
    var kind := KindOf(t, x);
    KindWalk(t, o, kind, x.key.value, value, strict);
    KindRenamesAll(t, o, kind, x.key.value, value, strict);
  }

  /** The nodes a walk over one kind renames, as a set. */
  lemma KindRenamesAll(t: Node, o: Options, kind: Kind, k: string, v: string, strict: bool)
    requires ShowsKind(PyQt, o, kind)
    ensures (iset q | Renames(KindSelector(kind, strict), t, Rows(t, PyQt, o), k, v, q)) == Renamable(t, kind, k, v)
  {
    forall q
      ensures Renames(KindSelector(kind, strict), t, Rows(t, PyQt, o), k, v, q) <==> q in Renamable(t, kind, k, v)
    {
      KindRenames(t, o, kind, k, v, strict, q);
    }
  }

  /** Corrected `setData`: the check refuses a name held as either kind, as
      the per-node rename does, so a reported success renames the key in
      every dataset holding it as the edited kind. */
  method PyQtSetDataStrict(t: Node, o: Options, row: Option<Row>, column: int, value: string, edit: bool)
    returns (r: Result<Outcome>)
    requires row.Some? ==> ValidPos(t, row.value.node) && (LiveRow(t, row.value) ==> row.value in Rows(t, PyQt, o))
    ensures !edit || row.None? ==> r == Ok(Outcome(false, t))
    ensures edit && row.Some? && row.value.key.None? ==>
              r == Single(SetItemData(t, row.value, column, value))
    ensures edit && row.Some? && row.value.key.Some? && At(t, row.value.node).data.None? ==>
              r == Err(MissingDataset)
    ensures edit && row.Some? && row.value.key.Some? && At(t, row.value.node).data.Some? && !LiveRow(t, row.value) ==>
              r == Ok(Outcome(false, t))
    ensures edit && row.Some? && LiveRow(t, row.value) ==> r.Ok?
    ensures edit && row.Some? && LiveRow(t, row.value) && AllWellFormed(t) ==>
              var x := row.value;
              && (r.value.accepted <==> KindFree(t, KindOf(t, x), value, true))
              && (r.value.accepted ==>
                    RenamedAt(t, r.value.tree, Holders(t, KindOf(t, x), x.key.value), map[x.key.value := value]))
    ensures r.Ok? && !r.value.accepted ==> r.value.tree == t
    ensures r.Ok? && ValidTree(t) ==> ValidTree(r.value.tree)
  {
    if !edit || row.None? {
      return Ok(Outcome(false, t));
    }
    var x := row.value;
    if x.key.Some? {
      var isVar := IsVar(t, x);
      if isVar.Err? {
        return Err(isVar.error);
      }
      var isCoord := IsCoord(t, x);
      if isVar.value || isCoord.value {
        var ok, tree := PyQtWalk(t, o, x, value, true);
        if AllWellFormed(t) {
          PyQtKindFacts(t, o, x, value, true);
          if ok {
            StrictRenamesAll(t, KindOf(t, x), x.key.value, value);
          }
        }
        return Ok(Outcome(ok, tree));
      }
    }
    r := Single(SetItemData(t, x, column, value));
    if r.Ok? && ValidTree(t) {
      SetItemDataValid(t, x, column, value);
    }
  }

  /** When the strict check passes, no holder of the key already holds the
      new name. */
  lemma StrictRenamesAll(t: Node, kind: Kind, k: string, v: string)
    requires KindFree(t, kind, v, true)
    ensures Renamable(t, kind, k, v) == Holders(t, kind, k)
  {
    forall q | q in Holders(t, kind, k)
      ensures q in Renamable(t, kind, k, v)
    {
      assert |KindNames(kind, At(t, q).data.value)| > 0;
    }
  }

  /** A root holding variable `x` with one child holding variable `x` and
      coordinate `y`. */
  function Example(): (t: Node)
    ensures |t.children| == 1 && t.children[0].children == []
  {
    Node("", Some(Dataset([], [("x", map[])], [])),
         [Node("c", Some(Dataset([], [("x", map[])], [("y", Coord("d", []))])), [])])
  }

  /** The example has two positions: the root and its child. */
  lemma ExamplePositions(q: Path)
    requires ValidPos(Example(), q)
    ensures q == [] || q == [0]
  {
    if q != [] {
      assert q[0] == 0 && ValidPos(Example().children[0], q[1..]);
      assert q[1..] == [];
    }
  }

  lemma ExampleData()
    ensures At(Example(), []).data.value == Dataset([], [("x", map[])], [])
    ensures At(Example(), [0]).data.value == Dataset([], [("x", map[])], [("y", Coord("d", []))])
    ensures Keys(At(Example(), []).data.value.vars) == ["x"] && Keys(At(Example(), []).data.value.coords) == []
    ensures Keys(At(Example(), [0]).data.value.vars) == ["x"] && Keys(At(Example(), [0]).data.value.coords) == ["y"]
  {
    assert At(Example(), [0]) == Example().children[0];
  }

  /** Renaming variable `x` to `y` from the root's row passes the as-written
      check, and the strict check refuses it. */
  lemma PartialRename()
    ensures Row([], Some("x")) in Rows(Example(), PyQt, Defaults)
    ensures AllWellFormed(Example()) && KindOf(Example(), Row([], Some("x"))) == VarKind
    ensures KindFree(Example(), VarKind, "y", false)
    ensures !KindFree(Example(), VarKind, "y", true)
  {
    ExampleData();
    RowsMembers(Example(), PyQt, Defaults, Row([], Some("x")));
    ExampleWellFormed();
    ExampleFree();
  }

  lemma ExampleWellFormed()
    ensures AllWellFormed(Example())
  {
    ExampleData();
    forall q | ValidPos(Example(), q)
      ensures q == [] || q == [0]
    {
      ExamplePositions(q);
    }
  }

  /** No node has a variable `y`, but the child has a coordinate `y`. */
  lemma ExampleFree()
    ensures KindFree(Example(), VarKind, "y", false)
    ensures !KindFree(Example(), VarKind, "y", true)
  {
    var t := Example();
    ExampleData();
    forall q | ValidPos(t, q)
      ensures q == [] || q == [0]
    {
      ExamplePositions(q);
    }
    assert ValidPos(t, [0]);
  }

  /** After that rename, accepted by the as-written check, the child keeps
      variable `x`. */
  lemma PartialRenameKeepsChild(r: Node)
    requires RenamedAt(Example(), r, Renamable(Example(), VarKind, "x", "y"), map["x" := "y"])
    ensures [0] in Holders(Example(), VarKind, "x") && [0] !in Renamable(Example(), VarKind, "x", "y")
    ensures ValidPos(r, [0]) && At(r, [0]).data.Some? && HasVar(At(r, [0]).data.value, "x")
  {
    ExampleData();
    assert ValidPos(Example(), [0]);
  }
}

=== FILE: node_ops.dfy ===
/** The mutating operations of `XarrayTreeNode`: the `name` and `parent`
    setters, and the slash-terminated `path`. */
module NodeOps {
  import opened Wrappers
  import opened Datasets
  import opened Tree
  import opened TreeEdit

  /** Some sibling of the node at `p` other than itself is called `name`. */
  predicate SiblingNamed(t: Node, p: Path, name: string)
    requires ValidPos(t, p)
  {
    p != [] && (ValidPosParent(t, p); name in Names(At(t, Parent(p)).children))
  }

  /** The `name` setter. Renaming to the current name changes nothing, a root
      just takes the name, and a child may not take a sibling's name: the
      setter raises and the tree is left as it was. */
  function SetName(t: Node, p: Path, name: string): (r: Result<Node>)
    requires ValidPos(t, p)
    ensures At(t, p).name == name ==> r == Ok(t)
    ensures p == [] ==> r == Ok(t.(name := name))
    ensures r.Err? <==> At(t, p).name != name && SiblingNamed(t, p, name)
    ensures r.Err? ==> r.error == NameConflict
    ensures r.Ok? ==> ValidPos(r.value, p) && At(r.value, p) == At(t, p).(name := name)
    ensures r.Ok? && ValidTree(t) ==> ValidTree(r.value)
  {
    if At(t, p).name == name then Ok(t)
    else if p == [] then Ok(t.(name := name))
    else if SiblingNamed(t, p, name) then Err(NameConflict)
    else
      var n := At(t, p).(name := name);
      PutAt(t, p, n);
      if ValidTree(t) then
        ValidAt(t, p);
        ValidPosParent(t, p);
        assert FreeAmongSiblings(t, p, name) by {
          var sibs := At(t, Parent(p)).children;
          forall j | 0 <= j < |sibs| && j != Last(p)
            ensures sibs[j].name != name
          {
            assert Names(sibs)[j] == sibs[j].name;
          }
        }
        PutValid(t, p, n);
        Ok(Put(t, p, n))
      else Ok(Put(t, p, n))
  }

  /** After a successful rename the parent's dict is re-keyed in place: the
      renamed child keeps its position and every other key is unchanged. */
  lemma SetNameRekeysParent(t: Node, p: Path, name: string)
    requires ValidPos(t, p) && p != [] && SetName(t, p, name).Ok?
    ensures ValidPos(t, Parent(p)) && ValidPos(SetName(t, p, name).value, Parent(p))
    ensures Last(p) < |At(t, Parent(p)).children|
    ensures Names(At(SetName(t, p, name).value, Parent(p)).children)
         == Names(At(t, Parent(p)).children)[Last(p) := name]
  {
    ValidPosParent(t, p);
    var r := SetName(t, p, name).value;
    var n := At(t, p).(name := name);
    var k := |p| - 1;
    PutAbove(t, p, n, k);
    assert p[k..] == [Last(p)];
    var a := At(t, Parent(p));
    assert Put(a, [Last(p)], n).children == a.children[Last(p) := n];
    if At(t, p).name == name {
      assert r == t;
      assert Names(a.children)[Last(p)] == name;
    } else {
      assert r == Put(t, p, n);
    }
  }

  /** A rename changes nothing outside the renamed subtree. */
  lemma SetNameKeepsOthers(t: Node, p: Path, name: string, q: Path)
    requires ValidPos(t, p) && ValidPos(t, q) && SetName(t, p, name).Ok?
    requires !IsPrefix(p, q) && !IsPrefix(q, p)
    ensures ValidPos(SetName(t, p, name).value, q) && At(SetName(t, p, name).value, q) == At(t, q)
  {
    if At(t, p).name != name {
      PutElsewhere(t, p, At(t, p).(name := name), q);
    }
  }

  // ---------------------------------------------------------------------------
  // The parent setter

  /** `node.parent = None`: the node at `p` leaves its parent and becomes the
      root of its own tree; the rest of the tree loses exactly that child. */
  function Detach(t: Node, p: Path): (r: (Node, Node))
    requires ValidPos(t, p) && p != []
    ensures r.1 == At(t, p)
    ensures ValidPos(t, Parent(p)) && ValidPos(r.0, Parent(p))
    ensures Last(p) < |At(t, Parent(p)).children|
    ensures At(r.0, Parent(p)).children == RemoveIndex(At(t, Parent(p)).children, Last(p))
    ensures ValidTree(t) ==> ValidTree(r.0) && ValidTree(r.1)
  {
    ValidPosParent(t, p);
    RemoveAbove(t, p, Parent(p));
    var r := RemoveChild(t, p);
    if ValidTree(t) then
      var parent := At(t, Parent(p));
      ValidAt(t, Parent(p));
      ValidAt(t, p);
      NamesRemove(parent.children, Last(p));
      DistinctRemove(Names(parent.children), Last(p));
      OwnNameFree(t, Parent(p));
      PutValid(t, Parent(p), parent.(children := RemoveIndex(parent.children, Last(p))));
      (r, At(t, p))
    else (r, At(t, p))
  }

  /** `root.parent = node`: a root node `n` of another tree joins the tree as
      the last child of `q`, unless `q` already has a child of that name. */
  function Attach(t: Node, q: Path, n: Node): (r: Result<Node>)
    requires ValidPos(t, q)
    ensures r.Err? <==> n.name in Names(At(t, q).children)
    ensures r.Err? ==> r.error == NameConflict
    ensures r.Ok? ==> ValidPos(r.value, q) && At(r.value, q).children == At(t, q).children + [n]
    ensures r.Ok? ==> At(r.value, q).name == At(t, q).name
    ensures r.Ok? && ValidTree(t) && ValidTree(n) ==> ValidTree(r.value)
  {
    if n.name in Names(At(t, q).children) then Err(NameConflict)
    else
      var parent := At(t, q);
      var m := parent.(children := parent.children + [n]);
      PutAt(t, q, m);
      if ValidTree(t) && ValidTree(n) then
        ValidAt(t, q);
        OwnNameFree(t, q);
        assert Names(m.children) == Names(parent.children) + [n.name];
        PutValid(t, q, m);
        Ok(AppendChild(t, q, n))
      else Ok(AppendChild(t, q, n))
  }

  /** `node.parent = other` for a node `other` of the same tree. Re-setting the
      current parent is a no-op; a name clash at the new parent raises before
      anything is detached; otherwise the node is popped from its old parent
      and appended to the new one. The new parent must lie outside the moved
      subtree: the setter does not check this, and moving a node under its own
      descendant cuts the subtree off into a cycle. */
  function Move(t: Node, p: Path, q: Path): (r: Result<Node>)
    requires ValidPos(t, p) && ValidPos(t, q) && p != []
    requires !IsPrefix(p, q)
    ensures q == Parent(p) ==> r == Ok(t)
    ensures r.Err? <==> q != Parent(p) && At(t, p).name in Names(At(t, q).children)
    ensures r.Err? ==> r.error == NameConflict
    ensures r.Ok? && ValidTree(t) ==> ValidTree(r.value)
    ensures r.Ok? && q != Parent(p) ==>
      && ValidPos(r.value, Shift(q, p))
      && At(r.value, Shift(q, p)).name == At(t, q).name
      && Names(At(r.value, Shift(q, p)).children) == Names(At(t, q).children) + [At(t, p).name]
      && At(r.value, Shift(q, p)).children[|At(t, q).children|] == At(t, p)
    ensures r.Ok? && q != Parent(p) ==>
      && ValidPos(t, Parent(p)) && Last(p) < |At(t, Parent(p)).children|
      && ValidPos(r.value, Parent(p))
      && Names(At(r.value, Parent(p)).children) == Names(RemoveIndex(At(t, Parent(p)).children, Last(p)))
  {
    if q == Parent(p) then Ok(t)
    else if At(t, p).name in Names(At(t, q).children) then Err(NameConflict)
    else
      var (rest, sub) := Detach(t, p);
      var q' := Shift(q, p);
      MoveTarget(t, p, q);
      MoveOldParent(t, p, q);
      var r := Attach(rest, q', sub);
      assert r.Ok?;
      assert Names(At(r.value, q').children) == Names(At(rest, q').children) + [sub.name];
      r
  }

  /** Where the new parent sits once the moved node is popped, and that its
      children keep their names. */
  lemma MoveTarget(t: Node, p: Path, q: Path)
    requires ValidPos(t, p) && ValidPos(t, q) && p != [] && !IsPrefix(p, q) && q != Parent(p)
    ensures ValidPos(RemoveChild(t, p), Shift(q, p))
    ensures At(RemoveChild(t, p), Shift(q, p)).name == At(t, q).name
    ensures Names(At(RemoveChild(t, p), Shift(q, p)).children) == Names(At(t, q).children)
  {
    if IsPrefix(q, Parent(p)) {
      RemoveAbove(t, p, q);
      assert Shift(q, p) == q;
      assert |q| < |p| - 1;
      ValidPosPrefix(t, Parent(p), |q|);
      var z := Parent(p)[|q|..];
      ValidPosParent(t, p);
      PutAbove(t, Parent(p), At(t, Parent(p)).(children := RemoveIndex(At(t, Parent(p)).children, Last(p))), |q|);
      assert Parent(p)[..|q|] == q;
      assert z != [];
    } else {
      RemoveKeeps(t, p, q);
    }
  }

  /** Once the node is appended under the new parent, the old parent still
      lacks exactly the moved child. */
  lemma MoveOldParent(t: Node, p: Path, q: Path)
    requires ValidPos(t, p) && ValidPos(t, q) && p != [] && !IsPrefix(p, q) && q != Parent(p)
    ensures ValidPos(RemoveChild(t, p), Shift(q, p))
    ensures var r := AppendChild(RemoveChild(t, p), Shift(q, p), At(t, p));
            && ValidPos(t, Parent(p)) && Last(p) < |At(t, Parent(p)).children|
            && ValidPos(r, Parent(p))
            && Names(At(r, Parent(p)).children) == Names(RemoveIndex(At(t, Parent(p)).children, Last(p)))
  {
    MoveTarget(t, p, q);
    var rest := RemoveChild(t, p);
    var q' := Shift(q, p);
    RemoveAbove(t, p, Parent(p));
    if IsPrefix(Parent(p), q') {
      assert q' != Parent(p);
      AppendAbove(rest, q', At(t, p), Parent(p));
    } else {
      AppendKeeps(rest, q', At(t, p), Parent(p));
    }
  }

  /** Positions off the moved node's subtree keep their relative order once
      shifted: `Shift` never makes a non-ancestor into an ancestor. */
  lemma ShiftPrefix(y: Path, q: Path, p: Path)
    requires p != [] && !IsPrefix(p, y) && !IsPrefix(p, q)
    requires IsPrefix(Shift(y, p), Shift(q, p))
    ensures IsPrefix(y, q)
  {
    var k := |p| - 1;
    var y', q' := Shift(y, p), Shift(q, p);
    if |y| > k {
      assert y[..k] == y'[..k] == q'[..k] == q[..k];
      if y[..k] == Parent(p) {
        assert y'[k] == q'[k];
        assert y[k] == q[k];
      }
      assert forall i :: 0 <= i < |y| ==> y[i] == q[i] by {
        forall i | 0 <= i < |y|
          ensures y[i] == q[i]
        {
          assert y'[i] == q'[i];
        }
      }
      assert q[..|y|] == y;
    } else {
      assert y' == y;
      assert forall i :: 0 <= i < |y| ==> q'[i] == q[i];
      assert q[..|y|] == y;
    }
  }

  /** Moving a node changes no node off the lines of its old and its new
      parent, except that its later siblings, and everything below them, move
      one index down. */
  lemma MoveKeepsOthers(t: Node, p: Path, q: Path, y: Path)
    requires ValidPos(t, p) && ValidPos(t, q) && ValidPos(t, y) && p != [] && !IsPrefix(p, q)
    requires Move(t, p, q).Ok?
    requires !IsPrefix(p, y) && !IsPrefix(y, Parent(p)) && !IsPrefix(y, q)
    ensures q != Parent(p) ==>
              ValidPos(Move(t, p, q).value, Shift(y, p)) && At(Move(t, p, q).value, Shift(y, p)) == At(t, y)
  {
    if q != Parent(p) {
      var rest := RemoveChild(t, p);
      var q' := Shift(q, p);
      MoveTarget(t, p, q);
      RemoveKeeps(t, p, y);
      if IsPrefix(Shift(y, p), q') {
        ShiftPrefix(y, q, p);
      }
      AppendKeeps(rest, q', At(t, p), Shift(y, p));
      assert Move(t, p, q).value == AppendChild(rest, q', At(t, p));
    }
  }

  // ---------------------------------------------------------------------------
  // Path

  function TrimStart(s: string): (r: string)
    ensures |r| <= |s| && r == s[|s| - |r|..]
    ensures r == [] || r[0] != '/'
    ensures forall i :: 0 <= i < |s| - |r| ==> s[i] == '/'
  {
    if |s| > 0 && s[0] == '/' then TrimStart(s[1..]) else s
  }

  function TrimEnd(s: string): (r: string)
    ensures |r| <= |s| && r == s[..|r|]
    ensures r == [] || r[|r| - 1] != '/'
    ensures forall i :: |r| <= i < |s| ==> s[i] == '/'
  {
    if |s| > 0 && s[|s| - 1] == '/' then TrimEnd(s[..|s| - 1]) else s
  }

  /** `name.strip('/')` */
  function Strip(s: string): string {
    TrimEnd(TrimStart(s))
  }

  /** The `path` property: the stripped names from the root down to the node,
      each followed by a slash. */
  function NodePath(t: Node, p: Path): string
    requires ValidPos(t, p)
    decreases |p|
  {
    var up := if p == [] then "" else (ValidPosParent(t, p); NodePath(t, Parent(p)));
    up + Strip(At(t, p).name) + "/"
  }

  /** The position of the first slash in `s`, or `|s|` when there is none. */
  function FirstSlash(s: string): (i: nat)
    ensures i <= |s|
    ensures i < |s| ==> s[i] == '/'
  {
    if |s| == 0 || s[0] == '/' then 0 else 1 + FirstSlash(s[1..])
  }

  /** The segments a slash-terminated path is made of. */
  function Segments(s: string): seq<string>
    decreases |s|
  {
    var i := FirstSlash(s);
    if |s| == 0 then []
    else if i == |s| then [s]
    else [s[..i]] + Segments(s[i + 1..])
  }

  /** The stripped names along the path from the root to `p`. */
  function Lineage(t: Node, p: Path): (r: seq<string>)
    requires ValidPos(t, p)
    ensures |r| == |p| + 1
    decreases |p|
  {
    if p == [] then [Strip(t.name)]
    else ValidPosParent(t, p); Lineage(t, Parent(p)) + [Strip(At(t, p).name)]
  }

  /** When no stripped name holds an inner slash, splitting a node's path at the
      slashes gives back the names from the root down to the node. */
  lemma {:induction false} PathSegments(t: Node, p: Path)
    requires ValidPos(t, p)
    requires forall k :: 0 <= k <= |p| ==> '/' !in Lineage(t, p)[k]
    ensures Segments(NodePath(t, p)) == Lineage(t, p)
    decreases |p|
  {
    var own := Strip(At(t, p).name);
    if p == [] {
      assert '/' !in own by {
        assert Lineage(t, p)[0] == own;
      }
      SegmentsAppend("", own);
      assert NodePath(t, p) == "" + own + "/";
    } else {
      ValidPosParent(t, p);
      var up := NodePath(t, Parent(p));
      LineageParent(t, p);
      PathSegments(t, Parent(p));
      NodePathLast(t, Parent(p));
      SegmentsAppend(up, own);
      assert NodePath(t, p) == up + own + "/";
    }
  }

  /** The lineage of a node is its parent's followed by its own name; no name
      on it has a slash when none on the node's lineage has. */
  lemma LineageParent(t: Node, p: Path)
    requires ValidPos(t, p) && p != []
    requires forall k :: 0 <= k <= |p| ==> '/' !in Lineage(t, p)[k]
    ensures ValidPos(t, Parent(p))
    ensures Lineage(t, p) == Lineage(t, Parent(p)) + [Strip(At(t, p).name)]
    ensures '/' !in Strip(At(t, p).name)
    ensures forall k :: 0 <= k <= |Parent(p)| ==> '/' !in Lineage(t, Parent(p))[k]
  {
    ValidPosParent(t, p);
    var lin := Lineage(t, Parent(p));
    assert Lineage(t, p) == lin + [Strip(At(t, p).name)];
    assert Lineage(t, p)[|p|] == Strip(At(t, p).name);
    forall k | 0 <= k <= |Parent(p)|
      ensures '/' !in lin[k]
    {
      assert Lineage(t, p)[k] == lin[k];
    }
  }

  /** A node path ends in a slash. */
  lemma NodePathLast(t: Node, p: Path)
    requires ValidPos(t, p)
    ensures |NodePath(t, p)| > 0 && NodePath(t, p)[|NodePath(t, p)| - 1] == '/'
  {
  }

  /** The first slash is at or before any slash. */
  lemma {:induction false} FirstSlashAtMost(s: string, k: nat)
    requires k < |s| && s[k] == '/'
    ensures FirstSlash(s) <= k
  {
    if s[0] != '/' {
      FirstSlashAtMost(s[1..], k - 1);
    }
  }

  lemma {:induction false} FirstSlashConcat(a: string, b: string)
    ensures FirstSlash(a) < |a| ==> FirstSlash(a + b) == FirstSlash(a)
    ensures FirstSlash(a) == |a| ==> FirstSlash(a + b) == |a| + FirstSlash(b)
  {
    if |a| > 0 && a[0] != '/' {
      assert (a + b)[1..] == a[1..] + b;
      FirstSlashConcat(a[1..], b);
    } else if |a| == 0 {
      assert a + b == b;
    }
  }

  /** Splitting after a slash-terminated prefix: the prefix's segments, then
      the rest's. */
  lemma {:induction false} SegmentsPrefix(prefix: string, tail: string)
    requires prefix == [] || prefix[|prefix| - 1] == '/'
    ensures Segments(prefix + tail) == Segments(prefix) + Segments(tail)
    decreases |prefix|, 1
  {
    if |prefix| == 0 {
      assert prefix + tail == tail;
    } else {
      SegmentsPrefixStep(prefix, tail);
    }
  }

  lemma {:induction false} SegmentsPrefixStep(prefix: string, tail: string)
    requires |prefix| > 0 && prefix[|prefix| - 1] == '/'
    ensures Segments(prefix + tail) == Segments(prefix) + Segments(tail)
    decreases |prefix|, 0
  {
    SegmentsStep(prefix, tail);
    var i := FirstSlash(prefix);
    var rest := prefix[i + 1..];
    SegmentsPrefix(rest, tail);
    Regroup(Segments(prefix + tail), Segments(prefix), prefix[..i], Segments(rest + tail), Segments(rest), Segments(tail));
  }

  lemma Regroup<T>(x: seq<T>, y: seq<T>, h: T, a: seq<T>, b: seq<T>, c: seq<T>)
    requires x == [h] + a && a == b + c && y == [h] + b
    ensures x == y + c
  {
  }

  /** The first segment of a slash-terminated prefix is split off the same
      way whatever follows it. */
  lemma SegmentsStep(prefix: string, tail: string)
    requires |prefix| > 0 && prefix[|prefix| - 1] == '/'
    ensures FirstSlash(prefix) < |prefix|
    ensures var i := FirstSlash(prefix);
            var rest := prefix[i + 1..];
            && (rest == [] || rest[|rest| - 1] == '/')
            && Segments(prefix + tail) == [prefix[..i]] + Segments(rest + tail)
            && Segments(prefix) == [prefix[..i]] + Segments(rest)
  {
    FirstSlashAtMost(prefix, |prefix| - 1);
    SegmentsCut(prefix, tail);
  }

  /** Appending a slash-free segment and a slash appends one segment. */
  lemma SegmentsAppend(prefix: string, seg: string)
    requires '/' !in seg
    requires prefix == [] || prefix[|prefix| - 1] == '/'
    ensures Segments(prefix + seg + "/") == Segments(prefix) + [seg]
  {
    assert prefix + seg + "/" == prefix + (seg + "/");
    SegmentsPrefix(prefix, seg + "/");
    SegmentsOne(seg);
  }

  /** Appending a slash-free, non-empty last segment appends one segment. */
  lemma SegmentsAppendLast(prefix: string, seg: string)
    requires '/' !in seg && |seg| > 0
    requires prefix == [] || prefix[|prefix| - 1] == '/'
    ensures Segments(prefix + seg) == Segments(prefix) + [seg]
  {
    SegmentsPrefix(prefix, seg);
    assert FirstSlash(seg) == |seg|;
  }

  /** A single slash-terminated segment. */
  lemma SegmentsOne(seg: string)
    requires '/' !in seg
    ensures Segments(seg + "/") == [seg]
  {
    var s := seg + "/";
    assert FirstSlash(seg) == |seg|;
    FirstSlashConcat(seg, "/");
    assert s[..|seg|] == seg && s[|seg| + 1..] == [];
  }

  /** Text after a slash does not change where the first segment ends. */
  lemma SegmentsCut(a: string, b: string)
    requires FirstSlash(a) < |a|
    ensures Segments(a + b) == [a[..FirstSlash(a)]] + Segments(a[FirstSlash(a) + 1..] + b)
  {
    var i := FirstSlash(a);
    FirstSlashConcat(a, b);
    assert (a + b)[..i] == a[..i];
    assert (a + b)[i + 1..] == a[i + 1..] + b;
  }
}

=== FILE: permutations.dfy ===
/** `XarrayTreeNode.permutations`: every combination of one label per
    dimension, produced by an odometer over per-dimension indices whose last
    dimension turns fastest. */
module Permutations {
  import opened Wrappers
  import opened Seqs

  /** A per-dimension entry: a bare scalar or a list of labels. */
  datatype Item = Scalar(v: int) | Many(vs: seq<int>)

  /** A scalar entry is wrapped into a one-element list. */
  function Listify(x: Item): (r: seq<int>)
    ensures x.Scalar? ==> r == [x.v]
    ensures x.Many? ==> r == x.vs
  {
    match x
    case Scalar(v) => [v]
    case Many(vs) => vs
  }

  // ---------------------------------------------------------------------------
  // The odometer
  // ---------------------------------------------------------------------------

  /** How many positions the odometer wheel of a dimension has: an empty list
      still takes one (failing) position before it rolls over. */
  function Radix(l: seq<int>): (b: nat)
    ensures b >= 1 && b >= |l|
  {
    if |l| == 0 then 1 else |l|
  }

  /** Every wheel shows one of its positions. */
  predicate InRange(idx: seq<nat>, ls: seq<seq<int>>) {
    |idx| == |ls| && forall i :: 0 <= i < |idx| ==> idx[i] < Radix(ls[i])
  }

  /** One turn of the odometer: the last wheel that can advance does, the
      wheels after it go back to 0, and `None` once the first wheel rolls over. */
  function Step(idx: seq<nat>, ls: seq<seq<int>>): Option<seq<nat>>
    requires |idx| == |ls|
    decreases |idx|
  {
    if |idx| == 0 then Some(idx)
    else
      var n := |idx| - 1;
      if idx[n] + 1 < |ls[n]| then Some(idx[n := idx[n] + 1])
      else if n == 0 then None
      else
        match Step(idx[..n], ls[..n])
        case None => None
        case Some(p) => Some(p + [0])
  }

  /** The odometer reading as a mixed-radix number. */
  function Rank(idx: seq<nat>, ls: seq<seq<int>>): nat
    requires |idx| == |ls|
    decreases |idx|
  {
    if |idx| == 0 then 0
    else
      var n := |idx| - 1;
      Rank(idx[..n], ls[..n]) * Radix(ls[n]) + idx[n]
  }

  /** How many readings the odometer has. */
  function Total(ls: seq<seq<int>>): (t: nat)
    ensures t >= 1
    decreases |ls|
  {
    if |ls| == 0 then 1 else Total(ls[..|ls| - 1]) * Radix(ls[|ls| - 1])
  }

  lemma {:induction false} MulMono(a: nat, b: nat, c: nat)
    requires a < b
    ensures a * c + c <= b * c
    decreases c
  {
    if c > 0 {
      MulMono(a, b, c - 1);
      assert a * c == a * (c - 1) + a;
      assert b * c == b * (c - 1) + b;
    }
  }

  /** Every reading is below the number of readings. */
  lemma {:induction false} RankBelowTotal(idx: seq<nat>, ls: seq<seq<int>>)
    requires InRange(idx, ls)
    ensures Rank(idx, ls) < Total(ls)
    decreases |idx|
  {
    if |idx| > 0 {
      var n := |idx| - 1;
      RankBelowTotal(idx[..n], ls[..n]);
      assert ls[..n] == ls[..|ls| - 1];
      MulMono(Rank(idx[..n], ls[..n]), Total(ls[..n]), Radix(ls[n]));
    }
  }

  /** Advancing the last wheel stays below the number of readings. */
  lemma Advance(r: nat, t: nat, b: nat, d: nat)
    requires r < t && d + 1 < b
    ensures r * b + d + 1 < t * b
  {
    MulMono(r, t, b);
  }

  /** Carrying out of the last wheel: the reading after `r * b + (b - 1)` is
      `(r + 1) * b`, and it exists exactly when `r + 1 < t`. */
  lemma Carry(r: nat, t: nat, b: nat)
    requires r < t && b >= 1
    ensures (r + 1) * b == r * b + (b - 1) + 1
    ensures r * b + (b - 1) + 1 < t * b <==> r + 1 < t
  {
    assert (r + 1) * b == r * b + b;
    if r + 1 < t {
      MulMono(r + 1, t, b);
    } else {
      assert t == r + 1;
    }
  }

  /** A turn adds one to the reading, and stops exactly when the reading is
      the last one. */
  lemma {:induction false} StepRank(idx: seq<nat>, ls: seq<seq<int>>)
    requires InRange(idx, ls) && |idx| > 0
    ensures Step(idx, ls).Some? <==> Rank(idx, ls) + 1 < Total(ls)
    ensures Step(idx, ls).Some? ==>
              InRange(Step(idx, ls).value, ls) && Rank(Step(idx, ls).value, ls) == Rank(idx, ls) + 1
    decreases |idx|
  {
    var n := |idx| - 1;
    var b := Radix(ls[n]);
    var pre := idx[..n];
    assert ls[..n] == ls[..|ls| - 1];
    RankBelowTotal(pre, ls[..n]);
    var r := Rank(pre, ls[..n]);
    var t := Total(ls[..n]);
    assert Rank(idx, ls) == r * b + idx[n];
    assert Total(ls) == t * b;
    if idx[n] + 1 < |ls[n]| {
      var q := idx[n := idx[n] + 1];
      assert Step(idx, ls) == Some(q);
      assert q[..n] == pre;
      assert Rank(q, ls) == r * b + (idx[n] + 1);
      Advance(r, t, b, idx[n]);
    } else {
      assert idx[n] == b - 1;
      Carry(r, t, b);
      if n == 0 {
        assert r == 0 && t == 1;
      } else {
        StepRank(pre, ls[..n]);
        match Step(pre, ls[..n])
        case None =>
          assert Step(idx, ls).None?;
        case Some(p) =>
          var q := p + [0];
          assert Step(idx, ls) == Some(q);
          assert q[..n] == p;
          assert Rank(q, ls) == Rank(p, ls[..n]) * b + 0;
      }
    }
  }

  /** The odometer before its first turn. */
  function Zeros(n: nat): (z: seq<nat>)
    ensures |z| == n && forall i :: 0 <= i < n ==> z[i] == 0
  {
    seq(n, _ => 0)
  }

  lemma {:induction false} RankZeros(ls: seq<seq<int>>)
    ensures InRange(Zeros(|ls|), ls) && Rank(Zeros(|ls|), ls) == 0
    decreases |ls|
  {
    if |ls| > 0 {
      var n := |ls| - 1;
      assert Zeros(|ls|)[..n] == Zeros(n);
      RankZeros(ls[..n]);
    }
  }

  /** With no dimensions, a turn leaves the odometer where it was, so the
      source's loop never reaches `None`. */
  function Run(idx: seq<nat>, ls: seq<seq<int>>, k: nat): Option<seq<nat>>
    requires |idx| == |ls|
    decreases k
  {
    if k == 0 then Some(idx)
    else
      match Step(idx, ls)
      case None => None
      case Some(q) => if |q| == |ls| then Run(q, ls, k - 1) else None
  }

  lemma {:induction false} StepStallsOnEmpty(k: nat)
    ensures Run([], [], k) == Some([])
    decreases k
  {
    if k > 0 {
      assert Step([], []) == Some([]);
      StepStallsOnEmpty(k - 1);
    }
  }

  // ---------------------------------------------------------------------------
  // The combinations
  // ---------------------------------------------------------------------------

  predicate AllNonEmpty(ls: seq<seq<int>>) {
    forall i :: 0 <= i < |ls| ==> |ls[i]| > 0
  }

  /** The labels a reading points at. */
  function Combo(idx: seq<nat>, ls: seq<seq<int>>): (c: seq<int>)
    requires |idx| == |ls| && forall i :: 0 <= i < |idx| ==> idx[i] < |ls[i]|
    ensures |c| == |ls| && forall i :: 0 <= i < |c| ==> c[i] == ls[i][idx[i]]
  {
    seq(|idx|, i requires 0 <= i < |idx| => ls[i][idx[i]])
  }

  /** The cartesian product in lexicographic order, last dimension fastest. */
  function Product(ls: seq<seq<int>>): (ps: seq<seq<int>>)
    decreases |ls|
  {
    if |ls| == 0 then [[]]
    else
      var pre := Product(ls[..|ls| - 1]);
      var l := ls[|ls| - 1];
      if |l| == 0 then [] else Extend(pre, l)
  }

  /** Every combination of `pre` followed by every label of `l`, the labels
      varying fastest. */
  function Extend(pre: seq<seq<int>>, l: seq<int>): (ps: seq<seq<int>>)
    ensures |ps| == |pre| * |l|
    decreases |pre|
  {
    if |pre| == 0 then []
    else
      var n := |pre| - 1;
      assert |pre| * |l| == n * |l| + |l|;
      Extend(pre[..n], l) + Attach(pre[n], l)
  }

  /** One combination followed by each label of `l` in turn. */
  function Attach(h: seq<int>, l: seq<int>): (ps: seq<seq<int>>)
    ensures |ps| == |l| && forall d :: 0 <= d < |l| ==> ps[d] == h + [l[d]]
  {
    seq(|l|, d requires 0 <= d < |l| => h + [l[d]])
  }

  /** Every extended combination is one of `pre` followed by one label. */
  lemma {:induction false} ExtendPick(pre: seq<seq<int>>, l: seq<int>, c: seq<int>) returns (q: nat, d: nat)
    requires c in Extend(pre, l)
    ensures q < |pre| && d < |l| && c == pre[q] + [l[d]]
    decreases |pre|
  {
    var n := |pre| - 1;
    var front := Extend(pre[..n], l);
    var back := Attach(pre[n], l);
    assert Extend(pre, l) == front + back;
    if c in back {
      var k :| 0 <= k < |back| && back[k] == c;
      q, d := n, k;
    } else {
      assert c in front;
      q, d := ExtendPick(pre[..n], l, c);
      assert pre[..n][q] == pre[q];
    }
  }

  /** Every combination of `pre` followed by any label of `l` is extended. */
  lemma ExtendHas(pre: seq<seq<int>>, l: seq<int>, h: seq<int>, x: int)
    requires h in pre && x in l
    ensures h + [x] in Extend(pre, l)
  {
    var a :| 0 <= a < |pre| && pre[a] == h;
    var d :| 0 <= d < |l| && l[d] == x;
    var e := Extend(pre, l);
    ExtendAt(pre, l, a, d);
    assert e[a * |l| + d] == h + [x];
  }

  /** The combination `q` followed by label `d` sits at `q * |l| + d`. */
  lemma {:induction false} ExtendAt(pre: seq<seq<int>>, l: seq<int>, q: nat, d: nat)
    requires q < |pre| && d < |l|
    ensures q * |l| + d < |Extend(pre, l)| && Extend(pre, l)[q * |l| + d] == pre[q] + [l[d]]
    decreases |pre|
  {
    var n := |pre| - 1;
    var front := Extend(pre[..n], l);
    assert Extend(pre, l) == front + Attach(pre[n], l);
    if q == n {
      assert |front| == q * |l|;
    } else {
      ExtendAt(pre[..n], l, q, d);
      assert pre[..n][q] == pre[q];
    }
  }

  /** With every list non-empty there is one combination per reading. */
  lemma {:induction false} ProductSize(ls: seq<seq<int>>)
    requires AllNonEmpty(ls)
    ensures |Product(ls)| == Total(ls)
    decreases |ls|
  {
    if |ls| > 0 {
      ProductSize(ls[..|ls| - 1]);
    }
  }

  /** The combination at a reading's rank is the one the reading points at. */
  lemma {:induction false} ProductAt(idx: seq<nat>, ls: seq<seq<int>>)
    requires AllNonEmpty(ls) && InRange(idx, ls)
    ensures Rank(idx, ls) < |Product(ls)| && Product(ls)[Rank(idx, ls)] == Combo(idx, ls)
    decreases |ls|
  {
    if |ls| > 0 {
      var n := |ls| - 1;
      var pre := idx[..n];
      assert ls[..n] == ls[..|ls| - 1];
      ProductAt(pre, ls[..n]);
      var r := Rank(pre, ls[..n]);
      ProductIndex(ls, r, idx[n]);
      assert Rank(idx, ls) == r * |ls[n]| + idx[n];
      ComboLast(idx, ls);
    }
  }

  /** Position `r * |l| + d` of the product holds combination `r` of the
      leading dimensions followed by label `d` of the last one. */
  lemma ProductIndex(ls: seq<seq<int>>, r: nat, d: nat)
    requires |ls| > 0 && r < |Product(ls[..|ls| - 1])| && d < |ls[|ls| - 1]|
    ensures var n := |ls| - 1;
            r * |ls[n]| + d < |Product(ls)| &&
            Product(ls)[r * |ls[n]| + d] == Product(ls[..n])[r] + [ls[n][d]]
  {
    var n := |ls| - 1;
    var pre := Product(ls[..n]);
    assert Product(ls) == Extend(pre, ls[n]);
    ExtendAt(pre, ls[n], r, d);
  }

  /** A reading's combination is its leading readings' combination followed
      by the last label. */
  lemma ComboLast(idx: seq<nat>, ls: seq<seq<int>>)
    requires |ls| > 0 && |idx| == |ls| && forall i :: 0 <= i < |idx| ==> idx[i] < |ls[i]|
    ensures var n := |ls| - 1;
            Combo(idx, ls) == Combo(idx[..n], ls[..n]) + [ls[n][idx[n]]]
  {
  }

  /** `c` takes one label from each dimension. */
  predicate Picks(ls: seq<seq<int>>, c: seq<int>) {
    |c| == |ls| && forall i :: 0 <= i < |c| ==> c[i] in ls[i]
  }

  lemma {:induction false} ProductSound(ls: seq<seq<int>>, c: seq<int>)
    requires c in Product(ls)
    ensures Picks(ls, c)
    decreases |ls|
  {
    if |ls| > 0 {
      var n := |ls| - 1;
      var pre := Product(ls[..n]);
      var l := ls[n];
      assert |l| > 0 && Product(ls) == Extend(pre, l);
      var q, d := ExtendPick(pre, l, c);
      var h := pre[q];
      assert pre[q] in pre;
      ProductSound(ls[..n], h);
      forall i | 0 <= i < |c|
        ensures c[i] in ls[i]
      {
        if i < n {
          assert c[i] == h[i] && ls[..n][i] == ls[i];
        }
      }
    }
  }

  lemma {:induction false} ProductComplete(ls: seq<seq<int>>, c: seq<int>)
    requires Picks(ls, c)
    ensures c in Product(ls)
    decreases |ls|
  {
    if |ls| > 0 {
      var n := |ls| - 1;
      var h := c[..n];
      assert Picks(ls[..n], h) by {
        assert forall i :: 0 <= i < |h| ==> h[i] == c[i] && ls[..n][i] == ls[i];
      }
      ProductComplete(ls[..n], h);
      ProductLast(ls, h, c[n]);
      assert h + [c[n]] == c;
    }
  }

  /** A combination of the leading dimensions followed by a label of the last
      is in the product. */
  lemma ProductLast(ls: seq<seq<int>>, h: seq<int>, x: int)
    requires |ls| > 0 && h in Product(ls[..|ls| - 1]) && x in ls[|ls| - 1]
    ensures h + [x] in Product(ls)
  {
    var n := |ls| - 1;
    var pre := Product(ls[..n]);
    assert Product(ls) == Extend(pre, ls[n]);
    ExtendHas(pre, ls[n], h, x);
  }

  /** A list is in the product exactly when it takes one label from each
      dimension. */
  lemma ProductMembers(ls: seq<seq<int>>, c: seq<int>)
    ensures c in Product(ls) <==> Picks(ls, c)
  {
    if c in Product(ls) {
      ProductSound(ls, c);
    }
    if Picks(ls, c) {
      ProductComplete(ls, c);
    }
  }

  /** What the loop has produced after `k` readings. */
  function Expected(ls: seq<seq<int>>, k: nat): seq<seq<int>>
  {
    if AllNonEmpty(ls) && k <= |Product(ls)| then Product(ls)[..k] else []
  }

  /** Pairs each dimension with its label: the `coord` dict of one combination. */
  function Zip(dims: seq<string>, c: seq<int>): (z: seq<(string, int)>)
    requires |dims| == |c|
    ensures |z| == |dims| && forall i :: 0 <= i < |z| ==> z[i] == (dims[i], c[i])
  {
    seq(|dims|, i requires 0 <= i < |dims| => (dims[i], c[i]))
  }

  /** The index lists of the entries, with scalars wrapped. */
  function Lists(coords: seq<(string, Item)>): (ls: seq<seq<int>>)
    ensures |ls| == |coords| && forall i :: 0 <= i < |ls| ==> ls[i] == Listify(coords[i].1)
  {
    seq(|coords|, i requires 0 <= i < |coords| => Listify(coords[i].1))
  }

  /** The odometer loop. A reading pointing past the end of an empty list
      fails and is skipped, as the source's `try` does. With no dimensions the
      combination list is the single empty combination (see `StepStallsOnEmpty`
      for what the source does instead). */
  method Permute(coords: seq<(string, Item)>) returns (r: seq<seq<(string, int)>>)
    ensures var ls := Lists(coords);
            var ps := if AllNonEmpty(ls) then Product(ls) else [];
            |r| == |ps| &&
            forall j :: 0 <= j < |r| ==> |ps[j]| == |coords| && r[j] == Zip(DimNames(coords), ps[j])
  {
    var ls := Lists(coords);
    var dims := DimNames(coords);
    if |coords| == 0 {
      assert Product(ls) == [[]];
      return [Zip(dims, [])];
    }
    var out := Odometer(ls);
    ExpectedAll(ls);
    r := seq(|out|, j requires 0 <= j < |out| => if |out[j]| == |dims| then Zip(dims, out[j]) else []);
  }

  /** The readings the odometer visits, each combination kept when it points
      inside every list. */
  method Odometer(ls: seq<seq<int>>) returns (out: seq<seq<int>>)
    requires |ls| > 0
    ensures out == Expected(ls, Total(ls))
  {
    out := [];
    RankZeros(ls);
    var idx: Option<seq<nat>> := Some(Zeros(|ls|));
    RankBelowTotal(idx.value, ls);
    while idx.Some?
      invariant idx.Some? ==> InRange(idx.value, ls) && Rank(idx.value, ls) < Total(ls)
      invariant idx.Some? ==> out == Expected(ls, Rank(idx.value, ls))
      invariant idx.None? ==> out == Expected(ls, Total(ls))
      decreases if idx.Some? then Total(ls) - Rank(idx.value, ls) else 0
    {
      var cur := idx.value;
      ExpectedNext(ls, cur);
      if forall i :: 0 <= i < |cur| ==> cur[i] < |ls[i]| {
        out := out + [Combo(cur, ls)];
      }
      StepRank(cur, ls);
      idx := Step(cur, ls);
      if idx.Some? {
        RankBelowTotal(idx.value, ls);
      }
    }
  }

  /** One reading adds its combination when it points inside every list, and
      nothing otherwise. */
  lemma ExpectedNext(ls: seq<seq<int>>, cur: seq<nat>)
    requires InRange(cur, ls) && Rank(cur, ls) < Total(ls)
    ensures (forall i :: 0 <= i < |cur| ==> cur[i] < |ls[i]|) ==>
              Expected(ls, Rank(cur, ls) + 1) == Expected(ls, Rank(cur, ls)) + [Combo(cur, ls)]
    ensures !(forall i :: 0 <= i < |cur| ==> cur[i] < |ls[i]|) ==>
              Expected(ls, Rank(cur, ls) + 1) == Expected(ls, Rank(cur, ls))
  {
    if forall i :: 0 <= i < |cur| ==> cur[i] < |ls[i]| {
      ExpectedGrows(ls, cur);
    } else {
      assert !AllNonEmpty(ls);
    }
  }

  lemma ExpectedGrows(ls: seq<seq<int>>, cur: seq<nat>)
    requires InRange(cur, ls) && forall i :: 0 <= i < |cur| ==> cur[i] < |ls[i]|
    ensures Expected(ls, Rank(cur, ls) + 1) == Expected(ls, Rank(cur, ls)) + [Combo(cur, ls)]
  {
    var k := Rank(cur, ls);
    assert AllNonEmpty(ls);
    ProductAt(cur, ls);
    TakeStep(Product(ls), k);
  }

  /** After the last reading the loop holds the whole product, every
      combination as wide as there are dimensions. */
  lemma ExpectedAll(ls: seq<seq<int>>)
    ensures Expected(ls, Total(ls)) == if AllNonEmpty(ls) then Product(ls) else []
    ensures forall c :: c in Expected(ls, Total(ls)) ==> |c| == |ls|
  {
    if AllNonEmpty(ls) {
      ProductSize(ls);
      assert Product(ls)[..Total(ls)] == Product(ls);
      forall c | c in Product(ls)
        ensures |c| == |ls|
      {
        ProductSound(ls, c);
      }
    }
  }

  /** The dimension names, in order. */
  function DimNames(coords: seq<(string, Item)>): (ks: seq<string>)
    ensures |ks| == |coords| && forall i :: 0 <= i < |ks| ==> ks[i] == coords[i].0
  {
    seq(|coords|, i requires 0 <= i < |coords| => coords[i].0)
  }
}

=== FILE: rename_vars.dfy ===
/** `XarrayTreeNode.rename_vars`: rename variables and coordinates in the
    datasets of a walk over the tree, all or nothing. */
module VarRenames {
  import opened Wrappers
  import opened Datasets
  import opened Tree
  import opened Traversal

  /** The check of the first walk for one node: some old name the dataset holds
      would land on a name it already holds. */
  predicate Clashes(d: Option<Dataset>, m: map<string, string>) {
    d.Some? && exists o :: o in m && Has(d.value, o) && Has(d.value, m[o])
  }

  /** What the second walk does to one node: rename the entries the dataset
      holds, in place, and leave everything else as it was. */
  function RenameData(d: Option<Dataset>, m: map<string, string>): (r: Option<Dataset>)
    ensures r.Some? <==> d.Some?
    ensures r.Some? ==> r.value.sizes == d.value.sizes
    ensures r.Some? ==> |r.value.vars| == |d.value.vars| && |r.value.coords| == |d.value.coords|
    ensures r.Some? ==> forall i :: 0 <= i < |d.value.vars| ==>
              r.value.vars[i] == (NewName(m, d.value.vars[i].0), d.value.vars[i].1)
    ensures r.Some? ==> forall i :: 0 <= i < |d.value.coords| ==>
              r.value.coords[i] == (NewName(m, d.value.coords[i].0), d.value.coords[i].1)
  {
    match d
    case None => None
    case Some(ds) =>
      var a := Applicable(ds, m);
      assert forall i :: 0 <= i < |ds.vars| ==> HasVar(ds, ds.vars[i].0) by {
        forall i | 0 <= i < |ds.vars| ensures HasVar(ds, ds.vars[i].0) {
          assert Keys(ds.vars)[i] == ds.vars[i].0;
        }
      }
      assert forall i :: 0 <= i < |ds.coords| ==> HasCoord(ds, ds.coords[i].0) by {
        forall i | 0 <= i < |ds.coords| ensures HasCoord(ds, ds.coords[i].0) {
          assert Keys(ds.coords)[i] == ds.coords[i].0;
        }
      }
      if a == map[] then d else Some(RenameEntries(ds, a))
  }

  /** The second walk's `ds.rename_vars(node_name_dict)` raises at this node:
      two of the dataset's entries would end up under one name. */
  predicate RenameRaises(d: Option<Dataset>, m: map<string, string>) {
    d.Some? && Applicable(d.value, m) != map[] && RenameConflicts(d.value, Applicable(d.value, m))
  }

  /** For a well-formed dataset that passed the check, the rename raises
      exactly when the dict sends two held names to one new name. */
  lemma RenameRaisesIff(d: Option<Dataset>, m: map<string, string>)
    requires d.Some? ==> WellFormed(d.value)
    requires !Clashes(d, m)
    ensures RenameRaises(d, m) <==> d.Some? && !InjectiveOn(d.value, m)
  {
    if d.Some? {
      var ds := d.value;
      var a := Applicable(ds, m);
      assert NoOverlap(ds, a);
      RenameConflictsIff(ds, a);
      assert InjectiveOn(ds, a) <==> InjectiveOn(ds, m);
    }
  }

  /** A node whose rename does not raise keeps its names unique. */
  lemma RenameDataWellFormed(d: Option<Dataset>, m: map<string, string>)
    requires d.Some? ==> WellFormed(d.value)
    requires !RenameRaises(d, m)
    ensures RenameData(d, m).Some? ==> WellFormed(RenameData(d, m).value)
  {
    if d.Some? {
      var ds := d.value;
      var a := Applicable(ds, m);
      if a != map[] {
        NoConflictWellFormed(ds, a);
      }
    }
  }

  /** The tree with the datasets of the nodes at `S` renamed; `at` is the
      position of `n` in the whole tree. */
  function RenameWhere(n: Node, S: set<Path>, m: map<string, string>, at: Path): (r: Node)
    ensures r.name == n.name && |r.children| == |n.children|
    decreases n
  {
    Node(n.name,
         if at in S then RenameData(n.data, m) else n.data,
         seq(|n.children|, i requires 0 <= i < |n.children| => RenameWhere(n.children[i], S, m, at + [i])))
  }

  lemma {:induction false} RenameWhereAt(n: Node, S: set<Path>, m: map<string, string>, at: Path, q: Path)
    ensures ValidPos(RenameWhere(n, S, m, at), q) <==> ValidPos(n, q)
    ensures ValidPos(n, q) ==>
              && At(RenameWhere(n, S, m, at), q).name == At(n, q).name
              && At(RenameWhere(n, S, m, at), q).data
                 == (if at + q in S then RenameData(At(n, q).data, m) else At(n, q).data)
    decreases |q|
  {
    if q == [] {
      assert at + q == at;
    } else if q[0] < |n.children| {
      var i := q[0];
      RenameWhereAt(n.children[i], S, m, at + [i], q[1..]);
      assert (at + [i]) + q[1..] == at + q;
    }
  }

  lemma {:induction false} RenameWhereValid(n: Node, S: set<Path>, m: map<string, string>, at: Path)
    requires ValidTree(n)
    ensures ValidTree(RenameWhere(n, S, m, at))
    decreases n
  {
    var r := RenameWhere(n, S, m, at);
    assert Names(r.children) == Names(n.children);
    forall i | 0 <= i < |r.children|
      ensures ValidTree(r.children[i])
    {
      RenameWhereValid(n.children[i], S, m, at + [i]);
    }
  }

  /** Both walks of `rename_vars` over the nodes `visit`, as written. The
      first walk checks every dataset for an overlap and raises before
      anything changes. The second renames node by node; a node whose
      `rename_vars` raises stops it, with the nodes before it already renamed.
      `after` is the tree as the call leaves it. */
  method RenameAlong(t: Node, visit: seq<Path>, m: map<string, string>) returns (r: Result<Node>, after: Node)
    requires forall j :: 0 <= j < |visit| ==> ValidPos(t, visit[j])
    ensures r.Err? <==> || (exists j :: 0 <= j < |visit| && Clashes(At(t, visit[j]).data, m))
                        || (exists j :: 0 <= j < |visit| && RenameRaises(At(t, visit[j]).data, m))
    ensures r.Err? ==> r.error == NameConflict
    ensures (exists j :: 0 <= j < |visit| && Clashes(At(t, visit[j]).data, m)) ==> after == t
    ensures r.Err? && (forall j :: 0 <= j < |visit| ==> !Clashes(At(t, visit[j]).data, m)) ==>
              exists j :: 0 <= j < |visit| && RenameRaises(At(t, visit[j]).data, m)
                          && (forall i :: 0 <= i < j ==> !RenameRaises(At(t, visit[i]).data, m))
                          && after == RenameWhere(t, (set q | q in visit[..j]), m, [])
    ensures r.Ok? ==> after == r.value == RenameWhere(t, (set q | q in visit), m, [])
  {
    var i := 0;
    while i < |visit|
      invariant 0 <= i <= |visit|
      invariant forall j :: 0 <= j < i ==> !Clashes(At(t, visit[j]).data, m)
    {
      if Clashes(At(t, visit[i]).data, m) {
        return Err(NameConflict), t;
      }
      i := i + 1;
    }
    i := 0;
    while i < |visit|
      invariant 0 <= i <= |visit|
      invariant forall j :: 0 <= j < i ==> !RenameRaises(At(t, visit[j]).data, m)
    {
      if RenameRaises(At(t, visit[i]).data, m) {
        return Err(NameConflict), RenameWhere(t, (set q | q in visit[..i]), m, []);
      }
      i := i + 1;
    }
    after := RenameWhere(t, (set q | q in visit), m, []);
    r := Ok(after);
  }

  /** The walks as the check's own comment intends: every node is checked for
      an overlap and for a conflicting rename before anything changes, so the
      call renames everywhere or nowhere. */
  method RenameChecked(t: Node, visit: seq<Path>, m: map<string, string>) returns (r: Result<Node>)
    requires forall j :: 0 <= j < |visit| ==> ValidPos(t, visit[j])
    ensures r.Err? <==> exists j :: 0 <= j < |visit| && (Clashes(At(t, visit[j]).data, m) || RenameRaises(At(t, visit[j]).data, m))
    ensures r.Err? ==> r.error == NameConflict
    ensures r.Ok? ==> r.value == RenameWhere(t, (set q | q in visit), m, [])
  {
    var i := 0;
    while i < |visit|
      invariant 0 <= i <= |visit|
      invariant forall j :: 0 <= j < i ==> !Clashes(At(t, visit[j]).data, m) && !RenameRaises(At(t, visit[j]).data, m)
    {
      if Clashes(At(t, visit[i]).data, m) || RenameRaises(At(t, visit[i]).data, m) {
        return Err(NameConflict);
      }
      i := i + 1;
    }
    r := Ok(RenameWhere(t, (set q | q in visit), m, []));
  }

  /** What a rename over the nodes `S` leaves: the same shape and names, and
      renamed datasets exactly at `S`. */
  ghost predicate RenamedAt(t: Node, r: Node, S: iset<Path>, m: map<string, string>) {
    && (forall q :: ValidPos(t, q) <==> ValidPos(r, q))
    && (forall q :: ValidPos(t, q) ==>
          && ValidPos(r, q)
          && At(r, q).name == At(t, q).name
          && At(r, q).data == (if q in S then RenameData(At(t, q).data, m) else At(t, q).data))
  }

  lemma RenameWhereRenames(t: Node, S: set<Path>, m: map<string, string>)
    ensures RenamedAt(t, RenameWhere(t, S, m, []), (iset q | q in S), m)
  {
    forall q
      ensures ValidPos(t, q) <==> ValidPos(RenameWhere(t, S, m, []), q)
      ensures ValidPos(t, q) ==>
                && At(RenameWhere(t, S, m, []), q).name == At(t, q).name
                && At(RenameWhere(t, S, m, []), q).data
                   == (if q in S then RenameData(At(t, q).data, m) else At(t, q).data)
    {
      RenameWhereAt(t, S, m, [], q);
      assert [] + q == q;
    }
  }

  /** The nodes `rename_vars` visits: the node and everything after it in preorder. */
  ghost function Walked(t: Node, p: Path): seq<Path>
    requires ValidPos(t, p)
  {
    [p] + After(t, p)
  }

  /** Every node whose dataset was well formed still has a well-formed
      dataset. */
  ghost predicate KeepsWellFormed(t: Node, r: Node) {
    forall q :: ValidPos(t, q) && At(t, q).data.Some? && WellFormed(At(t, q).data.value) ==>
      ValidPos(r, q) && At(r, q).data.Some? && WellFormed(At(r, q).data.value)
  }

  lemma RenamedKeepsWellFormed(t: Node, r: Node, S: iset<Path>, m: map<string, string>)
    requires RenamedAt(t, r, S, m)
    requires forall q :: q in S && ValidPos(t, q) ==> !RenameRaises(At(t, q).data, m)
    ensures KeepsWellFormed(t, r)
  {
    forall q | ValidPos(t, q) && At(t, q).data.Some? && WellFormed(At(t, q).data.value)
      ensures ValidPos(r, q) && At(r, q).data.Some? && WellFormed(At(r, q).data.value)
    {
      if q in S {
        RenameDataWellFormed(At(t, q).data, m);
      }
    }
  }

  /** Renaming at the nodes `visit` renames exactly there and keeps sibling
      names unique. */
  lemma RenameOver(t: Node, visit: seq<Path>, m: map<string, string>)
    ensures var r := RenameWhere(t, (set q | q in visit), m, []);
            RenamedAt(t, r, (iset q | q in visit), m) && (ValidTree(t) ==> ValidTree(r))
  {
    var S := set q | q in visit;
    RenameWhereRenames(t, S, m);
    assert (iset q | q in S) == (iset q | q in visit);
    if ValidTree(t) {
      RenameWhereValid(t, S, m, []);
    }
  }

  /** When no node of `visit` raises, well-formed datasets stay well formed. */
  lemma RenameOverWellFormed(t: Node, visit: seq<Path>, m: map<string, string>)
    requires forall j :: 0 <= j < |visit| && ValidPos(t, visit[j]) ==> !RenameRaises(At(t, visit[j]).data, m)
    ensures KeepsWellFormed(t, RenameWhere(t, (set q | q in visit), m, []))
  {
    RenameOver(t, visit, m);
    RenamedKeepsWellFormed(t, RenameWhere(t, (set q | q in visit), m, []), (iset q | q in visit), m);
  }

  /** `rename_vars` as written: both walks follow `next_node_depth_first` from
      the node to the end of the whole tree. `after` is the tree as the call
      leaves it, also when it raises. */
  method RenameVars(t: Node, p: Path, m: map<string, string>) returns (r: Result<Node>, after: Node)
    requires ValidPos(t, p)
    ensures forall j :: 0 <= j < |Walked(t, p)| ==> ValidPos(t, Walked(t, p)[j])
    ensures r.Err? <==> || (exists j :: 0 <= j < |Walked(t, p)| && Clashes(At(t, Walked(t, p)[j]).data, m))
                        || (exists j :: 0 <= j < |Walked(t, p)| && RenameRaises(At(t, Walked(t, p)[j]).data, m))
    ensures r.Err? ==> r.error == NameConflict
    ensures (exists j :: 0 <= j < |Walked(t, p)| && Clashes(At(t, Walked(t, p)[j]).data, m)) ==> after == t
    ensures r.Err? && (forall j :: 0 <= j < |Walked(t, p)| ==> !Clashes(At(t, Walked(t, p)[j]).data, m)) ==>
              exists j :: 0 <= j < |Walked(t, p)| && RenameRaises(At(t, Walked(t, p)[j]).data, m)
                          && (forall i :: 0 <= i < j ==> !RenameRaises(At(t, Walked(t, p)[i]).data, m))
                          && RenamedAt(t, after, (iset q | q in Walked(t, p)[..j]), m)
    ensures r.Ok? ==> after == r.value && RenamedAt(t, r.value, (iset q | q in Walked(t, p)), m)
    ensures r.Ok? ==> KeepsWellFormed(t, r.value)
    ensures ValidTree(t) ==> ValidTree(after)
  {
    var visited := Enumerate(t, p);
    assert visited == Walked(t, p);
    r, after := RenameAlong(t, visited, m);
    if r.Ok? {
      RenameOver(t, visited, m);
      RenameOverWellFormed(t, visited, m);
    } else if forall j :: 0 <= j < |visited| ==> !Clashes(At(t, visited[j]).data, m) {
      RaisedPartway(t, visited, m, after);
    }
  }

  /** What a raise in the second walk leaves, in terms of `RenamedAt`. */
  lemma RaisedPartway(t: Node, visit: seq<Path>, m: map<string, string>, after: Node)
    requires forall j :: 0 <= j < |visit| ==> ValidPos(t, visit[j])
    requires exists j :: 0 <= j < |visit| && RenameRaises(At(t, visit[j]).data, m)
                         && (forall i :: 0 <= i < j ==> !RenameRaises(At(t, visit[i]).data, m))
                         && after == RenameWhere(t, (set q | q in visit[..j]), m, [])
    ensures exists j :: 0 <= j < |visit| && RenameRaises(At(t, visit[j]).data, m)
                        && (forall i :: 0 <= i < j ==> !RenameRaises(At(t, visit[i]).data, m))
                        && RenamedAt(t, after, (iset q | q in visit[..j]), m)
    ensures ValidTree(t) ==> ValidTree(after)
  {
    var j :| 0 <= j < |visit| && RenameRaises(At(t, visit[j]).data, m)
             && (forall i :: 0 <= i < j ==> !RenameRaises(At(t, visit[i]).data, m))
             && after == RenameWhere(t, (set q | q in visit[..j]), m, []);
    RenameOver(t, visit[..j], m);
  }

  /** The positions of the subtree at `p`, in preorder. */
  function SubtreePositions(t: Node, p: Path): (ps: seq<Path>)
    requires ValidPos(t, p)
    ensures forall j :: 0 <= j < |ps| ==> ValidPos(t, ps[j]) && IsPrefix(p, ps[j])
    ensures forall q :: ValidPos(t, q) && IsPrefix(p, q) ==> q in ps
  {
    var n := At(t, p);
    var pre := Preorder(n);
    var ps := seq(|pre|, j requires 0 <= j < |pre| => p + pre[j]);
    forall j | 0 <= j < |ps|
      ensures ValidPos(t, ps[j]) && IsPrefix(p, ps[j])
    {
      PreorderValid(n, pre[j]);
      ValidPosConcat(t, p, pre[j]);
      assert (p + pre[j])[..|p|] == p;
    }
    forall q | ValidPos(t, q) && IsPrefix(p, q)
      ensures q in ps
    {
      var x := q[|p|..];
      assert q == p + x;
      ValidPosConcat(t, p, x);
      PreorderHasAll(n, x);
      var j :| 0 <= j < |pre| && pre[j] == x;
      assert ps[j] == q;
    }
    ps
  }

  /** `rename_vars` as its documentation and its check promise: every node of
      the subtree and no other, and nowhere at all when any of them would
      fail. */
  method RenameVarsInSubtree(t: Node, p: Path, m: map<string, string>) returns (r: Result<Node>)
    requires ValidPos(t, p)
    ensures r.Err? <==> exists q :: ValidPos(t, q) && IsPrefix(p, q) && (Clashes(At(t, q).data, m) || RenameRaises(At(t, q).data, m))
    ensures r.Err? ==> r.error == NameConflict
    ensures r.Ok? ==> RenamedAt(t, r.value, (iset q | ValidPos(t, q) && IsPrefix(p, q)), m)
    ensures r.Ok? ==> KeepsWellFormed(t, r.value)
    ensures r.Ok? && ValidTree(t) ==> ValidTree(r.value)
  {
    var visit := SubtreePositions(t, p);
    r := RenameChecked(t, visit, m);
    assert (iset q | q in visit) == iset q | ValidPos(t, q) && IsPrefix(p, q);
    if r.Ok? {
      RenameOver(t, visit, m);
      RenameOverWellFormed(t, visit, m);
    }
  }

  /** The walk of `rename_vars` leaves the subtree: from any node with a next
      sibling it visits that sibling, which the subtree does not hold, and a
      successful call renames the sibling's dataset as well. */
  lemma RenameVarsLeavesSubtree(t: Node, p: Path, m: map<string, string>)
    requires ValidPos(t, p) && NextSibling(t, p).Some?
    ensures var s := NextSibling(t, p).value;
            && s in Walked(t, p) && !IsPrefix(p, s) && s !in SubtreePositions(t, p)
            && forall r :: RenamedAt(t, r, (iset q | q in Walked(t, p)), m) ==>
                 ValidPos(r, s) && At(r, s).data == RenameData(At(t, s).data, m)
  {
    NextSiblingAfter(t, p);
  }

  /** The same in one tree: started at the first of two leaves that both hold
      `x`, the walk also visits the second and its dataset changes. */
  lemma RenameVarsLeavesExample()
    ensures var d := Some(Dataset([("t", 1)], [("x", map[[0] := 7])], []));
            var t := Node("", None, [Node("a", d, []), Node("b", d, [])]);
            && [1] in Walked(t, [0])
            && !IsPrefix([0], [1])
            && ValidPos(t, [1])
            && RenameData(At(t, [1]).data, map["x" := "y"]) != At(t, [1]).data
  {
    var d := Some(Dataset([("t", 1)], [("x", map[[0] := 7])], []));
    var a := Node("a", d, []);
    var b := Node("b", d, []);
    var t := Node("", None, [a, b]);
    assert Preorder(a) == [[]];
    assert Preorder(b) == [[]];
    assert [0] + [] == [0] && [1] + [] == [1];
    assert Lift(0, [[]]) == [[0]];
    assert Lift(1, [[]]) == [[1]];
    assert Kids(t.children, 2) == [];
    assert Kids(t.children, 1) == [[1]];
    assert Kids(t.children, 0) == [[0], [1]];
    var pre := Preorder(t);
    assert pre == [[], [0], [1]];
    PreorderDistinct(t);
    assert PreIndex(t, [0]) == 1 by {
      assert pre[1] == [0];
    }
    assert After(t, [0]) == [[1]];
    assert At(t, [1]) == b;
    var m := map["x" := "y"];
    assert Keys(d.value.vars) == ["x"];
    assert RenameData(d, m).value.vars[0].0 == "y";
  }

  /** The second walk is not all or nothing: the root renames `a` to `c`; its
      child holds both `a` and `b`, both sent to `c`, so the child's
      `rename_vars` raises once the root has been renamed. */
  lemma RenameVarsPartial()
    ensures var root := Some(Dataset([("t", 1)], [("a", map[[0] := 1])], []));
            var kid := Some(Dataset([("t", 1)], [("a", map[[0] := 1]), ("b", map[[0] := 2])], []));
            var t := Node("", root, [Node("k", kid, [])]);
            var m := map["a" := "c", "b" := "c"];
            && Walked(t, []) == [[], [0]]
            && ValidPos(t, [0]) && At(t, [0]).data == kid
            && !Clashes(root, m) && !Clashes(kid, m)
            && !RenameRaises(root, m) && RenameRaises(kid, m)
            && RenameData(root, m) != root
  {
    var root := Some(Dataset([("t", 1)], [("a", map[[0] := 1])], []));
    var kid := Some(Dataset([("t", 1)], [("a", map[[0] := 1]), ("b", map[[0] := 2])], []));
    var m := map["a" := "c", "b" := "c"];
    WalkedParentChild(Node("", root, [Node("k", kid, [])]));
    RootRenames(root.value, m);
    ChildRaises(kid.value, m);
  }

  /** From the root of a two-node tree the walk visits the root, then the child. */
  lemma WalkedParentChild(t: Node)
    requires |t.children| == 1 && t.children[0].children == []
    ensures Walked(t, []) == [[], [0]]
  {
    var k := t.children[0];
    assert Preorder(k) == [[]];
    assert [0] + [] == [0];
    assert Lift(0, [[]]) == [[0]];
    assert Kids(t.children, 1) == [];
    assert Kids(t.children, 0) == [[0]];
    assert Preorder(t) == [[], [0]];
    PreorderDistinct(t);
    assert PreIndex(t, []) == 0;
    assert After(t, []) == [[0]];
  }

  lemma RootRenames(ds: Dataset, m: map<string, string>)
    requires ds == Dataset([("t", 1)], [("a", map[[0] := 1])], [])
    requires m == map["a" := "c", "b" := "c"]
    ensures !Clashes(Some(ds), m) && !RenameRaises(Some(ds), m)
    ensures RenameData(Some(ds), m) != Some(ds)
  {
    assert Keys(ds.vars) == ["a"];
    assert !Has(ds, "c") && !Has(ds, "b");
    var a := Applicable(ds, m);
    assert a == map["a" := "c"];
    assert AllNames(RenameEntries(ds, a)) == ["c"];
    assert RenameData(Some(ds), m).value.vars[0].0 == "c";
  }

  lemma ChildRaises(ds: Dataset, m: map<string, string>)
    requires ds == Dataset([("t", 1)], [("a", map[[0] := 1]), ("b", map[[0] := 2])], [])
    requires m == map["a" := "c", "b" := "c"]
    ensures !Clashes(Some(ds), m) && RenameRaises(Some(ds), m)
  {
    assert Keys(ds.vars) == ["a", "b"];
    assert !Has(ds, "c");
    var a := Applicable(ds, m);
    assert a == m;
    var ns := AllNames(RenameEntries(ds, a));
    assert ns[0] == "c" && ns[1] == "c";
  }
}

=== FILE: seqs.dfy ===
/** Facts about sequence concatenation and slicing, stated once for any
    element type so that proofs about strings and rows can cite them
    instead of re-deriving them on concrete terms. */
module Seqs {

  lemma ConcatAssoc<T>(a: seq<T>, b: seq<T>, c: seq<T>)
    ensures a + (b + c) == a + b + c
  {
  }

  lemma Assoc5<T>(a: seq<T>, b: seq<T>, c: seq<T>, d: seq<T>, e: seq<T>)
    ensures a + b + c + d + e == a + (b + c + (d + e))
    ensures a + b + c == a + (b + c + [])
  {
  }

  lemma Whole<T>(s: seq<T>)
    ensures s[..|s|] == s
  {
  }

  lemma SplitAt<T>(s: seq<T>, k: nat)
    requires k <= |s|
    ensures s == s[..k] + s[k..]
  {
  }

  lemma Uncons<T>(s: seq<T>)
    requires |s| > 0
    ensures [s[0]] + s[1..] == s
  {
  }

  lemma TakeStep<T>(s: seq<T>, k: nat)
    requires k < |s|
    ensures s[..k + 1] == s[..k] + [s[k]]
  {
  }
}

=== FILE: traversal.dfy ===
/** Navigation in the node tree: siblings, the depth-first (preorder)
    successor and predecessor, depth and subtree depth. */
module Traversal {
  import opened Wrappers
  import opened Datasets
  import opened Tree

  // ---------------------------------------------------------------------------
  // Children and siblings

  function FirstChild(t: Node, p: Path): (r: Option<Path>)
    requires ValidPos(t, p)
    ensures r.Some? <==> |At(t, p).children| > 0
    ensures r.Some? ==> r.value == p + [0] && ValidPos(t, r.value)
  {
    if |At(t, p).children| > 0 then ValidPosChild(t, p, 0); Some(p + [0]) else None
  }

  function LastChild(t: Node, p: Path): (r: Option<Path>)
    requires ValidPos(t, p)
    ensures r.Some? <==> |At(t, p).children| > 0
    ensures r.Some? ==> r.value == p + [|At(t, p).children| - 1] && ValidPos(t, r.value)
  {
    var n := |At(t, p).children|;
    if n > 0 then ValidPosChild(t, p, n - 1); Some(p + [n - 1]) else None
  }

  /** `siblings()`: the parent's children, or the root alone. */
  function Siblings(t: Node, p: Path): (r: seq<Node>)
    requires ValidPos(t, p)
    ensures |r| > 0
    ensures SiblingIndex(t, p) < |r| && r[SiblingIndex(t, p)] == At(t, p)
  {
    if p == [] then [t] else ValidPosParent(t, p); At(t, Parent(p)).children
  }

  /** `sibling_index()`: the node's position among its siblings; 0 for a root. */
  function SiblingIndex(t: Node, p: Path): nat {
    if p == [] then 0 else Last(p)
  }

  /** `next_sibling()` */
  function NextSibling(t: Node, p: Path): (r: Option<Path>)
    requires ValidPos(t, p)
    ensures r.Some? <==> p != [] && SiblingIndex(t, p) + 1 < |Siblings(t, p)|
    ensures r.Some? ==> r.value != [] && ValidPos(t, r.value) && Parent(r.value) == Parent(p)
                        && Last(r.value) == Last(p) + 1
  {
    if p == [] then None
    else
      ValidPosParent(t, p);
      if Last(p) + 1 < |At(t, Parent(p)).children| then
        ValidPosChild(t, Parent(p), Last(p) + 1);
        Some(Parent(p) + [Last(p) + 1])
      else None
  }

  /** `prev_sibling()` */
  function PrevSibling(t: Node, p: Path): (r: Option<Path>)
    requires ValidPos(t, p)
    ensures r.Some? <==> p != [] && SiblingIndex(t, p) > 0
    ensures r.Some? ==> r.value != [] && ValidPos(t, r.value) && Parent(r.value) == Parent(p)
                        && Last(r.value) + 1 == Last(p)
  {
    if p == [] || Last(p) == 0 then None
    else
      ValidPosParent(t, p);
      ValidPosChild(t, Parent(p), Last(p) - 1);
      Some(Parent(p) + [Last(p) - 1])
  }

  /** `first_sibling()` and `last_sibling()`: the node itself for a root. */
  function FirstSibling(t: Node, p: Path): (r: Path)
    requires ValidPos(t, p)
    ensures ValidPos(t, r) && At(t, r) == Siblings(t, p)[0]
  {
    if p == [] then []
    else
      ValidPosParent(t, p);
      ValidPosChild(t, Parent(p), 0);
      Parent(p) + [0]
  }

  function LastSibling(t: Node, p: Path): (r: Path)
    requires ValidPos(t, p)
    ensures ValidPos(t, r) && At(t, r) == Siblings(t, p)[|Siblings(t, p)| - 1]
  {
    if p == [] then []
    else
      ValidPosParent(t, p);
      var n := |At(t, Parent(p)).children|;
      ValidPosChild(t, Parent(p), n - 1);
      Parent(p) + [n - 1]
  }

  // ---------------------------------------------------------------------------
  // Depth-first order

  /** The path from a node down to its last leaf, always taking the last child. */
  function LastIn(n: Node): (r: Path)
    ensures ValidPos(n, r) && |At(n, r).children| == 0
    decreases n
  {
    if |n.children| == 0 then []
    else
      var r := [|n.children| - 1] + LastIn(n.children[|n.children| - 1]);
      assert r[0] == |n.children| - 1 && r[1..] == LastIn(n.children[|n.children| - 1]);
      r
  }

  /** Each step of `LastIn` takes the last child of the node reached so far. */
  lemma {:induction false} LastInTakesLastChildren(n: Node, k: nat)
    requires k < |LastIn(n)|
    ensures ValidPos(n, LastIn(n)[..k])
    ensures LastIn(n)[k] == |At(n, LastIn(n)[..k]).children| - 1
    decreases n
  {
    var r := LastIn(n);
    var c := n.children[|n.children| - 1];
    assert r[1..] == LastIn(c);
    if k > 0 {
      LastInTakesLastChildren(c, k - 1);
      assert r[..k] == [r[0]] + LastIn(c)[..k - 1];
      assert r[..k][1..] == LastIn(c)[..k - 1];
    }
  }

  /** `last_node_depth_first()`: follow last children down to a leaf. */
  function LastNode(t: Node, p: Path): (r: Path)
    requires ValidPos(t, p)
    ensures IsPrefix(p, r) && r[|p|..] == LastIn(At(t, p))
    ensures ValidPos(t, r) && At(t, r) == At(At(t, p), LastIn(At(t, p)))
    ensures |At(t, r).children| == 0
  {
    var z := LastIn(At(t, p));
    ValidPosConcat(t, p, z);
    assert (p + z)[..|p|] == p && (p + z)[|p|..] == z;
    p + z
  }

  /** The walk up the ancestors of `next_node_depth_first`: the next sibling of
      the node, else of its parent, and so on; `None` past the last one. */
  function Up(t: Node, p: Path): Option<Path>
    requires ValidPos(t, p)
    decreases |p|
  {
    match NextSibling(t, p)
    case Some(s) => Some(s)
    case None => if p == [] then None else ValidPosParent(t, p); Up(t, Parent(p))
  }

  /** `next_node_depth_first()`: the first child if there is one, else the walk up. */
  function Next(t: Node, p: Path): Option<Path>
    requires ValidPos(t, p)
  {
    if |At(t, p).children| > 0 then Some(p + [0]) else Up(t, p)
  }

  /** `prev_node_depth_first()`: the last leaf under the previous sibling, else the parent. */
  function Prev(t: Node, p: Path): Option<Path>
    requires ValidPos(t, p)
  {
    match PrevSibling(t, p)
    case Some(s) => Some(LastNode(t, s))
    case None => if p == [] then None else Some(Parent(p))
  }

  /** A successor found inside child `i`, seen from `t`; when there is none,
      the child's next sibling. */
  function Graft(t: Node, i: nat, o: Option<Path>): Option<Path> {
    match o
    case Some(r) => Some([i] + r)
    case None => if i + 1 < |t.children| then Some([i + 1]) else None
  }

  /** The preorder successor, defined on the structure of the tree. */
  function NextIn(t: Node, p: Path): (r: Option<Path>)
    requires ValidPos(t, p)
    ensures r.Some? ==> r.value != [] && ValidPos(t, r.value)
    decreases |p|
  {
    if p == [] then (if |t.children| > 0 then Some([0]) else None)
    else
      var r := Graft(t, p[0], NextIn(t.children[p[0]], p[1..]));
      assert r.Some? ==> r.value[1..] == (if NextIn(t.children[p[0]], p[1..]).Some?
                                          then NextIn(t.children[p[0]], p[1..]).value else []);
      r
  }

  /** Preorder: the node, then each child's preorder in turn. */
  function Preorder(t: Node): (r: seq<Path>)
    ensures |r| > 0 && r[0] == []
    decreases t, 1
  {
    [[]] + Kids(t.children, 0)
  }

  function Kids(cs: seq<Node>, k: nat): (r: seq<Path>)
    ensures k < |cs| ==> |r| > 0 && r[0] == [k]
    decreases cs, |cs| - k
  {
    if k >= |cs| then []
    else Lift(k, Preorder(cs[k])) + Kids(cs, k + 1)
  }

  function Lift(k: nat, ps: seq<Path>): (r: seq<Path>)
    ensures |r| == |ps|
    ensures forall j :: 0 <= j < |ps| ==> r[j] == [k] + ps[j]
  {
    seq(|ps|, j requires 0 <= j < |ps| => [k] + ps[j])
  }

  // ---------------------------------------------------------------------------
  // The walk up agrees with the structural successor

  lemma NextSiblingLift(t: Node, i: nat, x: Path)
    requires i < |t.children| && ValidPos(t.children[i], x) && x != []
    ensures ValidPos(t, [i] + x)
    ensures NextSibling(t, [i] + x).Some? == NextSibling(t.children[i], x).Some?
    ensures NextSibling(t.children[i], x).Some? ==>
              NextSibling(t, [i] + x).value == [i] + NextSibling(t.children[i], x).value
  {
    var c := t.children[i];
    var p := [i] + x;
    assert p[0] == i && p[1..] == x;
    var px := Parent(x);
    assert Parent(p) == [i] + px && Last(p) == Last(x);
    ValidPosParent(c, x);
    ValidPosConcat(t, [i], px);
    assert At(t, [i]) == c;
    assert At(t, Parent(p)) == At(c, px);
    assert Parent(p) + [Last(x) + 1] == [i] + (px + [Last(x) + 1]);
  }

  lemma {:induction false} UpLift(t: Node, i: nat, x: Path)
    requires i < |t.children| && ValidPos(t.children[i], x)
    ensures ValidPos(t, [i] + x)
    ensures Up(t, [i] + x) == Graft(t, i, Up(t.children[i], x))
    decreases |x|
  {
    var c := t.children[i];
    var p := [i] + x;
    assert p[1..] == x;
    if x == [] {
      assert Parent(p) == [];
    } else {
      NextSiblingLift(t, i, x);
      if NextSibling(c, x).None? {
        assert Parent(p) == [i] + Parent(x);
        ValidPosParent(c, x);
        UpLift(t, i, Parent(x));
      }
    }
  }

  lemma {:induction false} NextIsNextIn(t: Node, p: Path)
    requires ValidPos(t, p)
    ensures Next(t, p) == NextIn(t, p)
    decreases |p|
  {
    if p == [] {
      assert p + [0] == [0];
    } else {
      var i := p[0];
      var x := p[1..];
      assert p == [i] + x;
      NextIsNextIn(t.children[i], x);
      assert At(t, p) == At(t.children[i], x);
      if |At(t, p).children| > 0 {
        assert p + [0] == [i] + (x + [0]);
      } else {
        UpLift(t, i, x);
      }
    }
  }

  // ---------------------------------------------------------------------------
  // Preorder is the chain of successors

  /** `ps` is a run of successive nodes: each one's successor is the next, and
      the last one's successor is `e`. */
  predicate Chain(t: Node, ps: seq<Path>, e: Option<Path>) {
    && |ps| > 0
    && (forall j :: 0 <= j < |ps| ==> ValidPos(t, ps[j]))
    && (forall j :: 0 <= j < |ps| - 1 ==> NextIn(t, ps[j]) == Some(ps[j + 1]))
    && NextIn(t, ps[|ps| - 1]) == e
  }

  lemma ChainLift(t: Node, k: nat, ps: seq<Path>, e: Option<Path>)
    requires k < |t.children| && Chain(t.children[k], ps, e)
    ensures Chain(t, Lift(k, ps), Graft(t, k, e))
  {
    var ls := Lift(k, ps);
    forall j | 0 <= j < |ls|
      ensures ValidPos(t, ls[j])
      ensures NextIn(t, ls[j]) == (if j + 1 < |ls| then Some(ls[j + 1]) else Graft(t, k, e))
    {
      assert ls[j] == [k] + ps[j] && ls[j][0] == k && ls[j][1..] == ps[j];
      assert NextIn(t, ls[j]) == Graft(t, k, NextIn(t.children[k], ps[j]));
      if j + 1 < |ls| {
        assert ls[j + 1] == [k] + ps[j + 1];
      }
    }
  }

  /** Successive preorder entries are linked by the successor, and the last has none. */
  lemma PreorderStep(t: Node, i: nat)
    requires i < |Preorder(t)|
    ensures ValidPos(t, Preorder(t)[i])
    ensures Next(t, Preorder(t)[i]) == if i + 1 < |Preorder(t)| then Some(Preorder(t)[i + 1]) else None
  {
    var pre := Preorder(t);
    PreorderChain(t);
    assert ValidPos(t, pre[i]);
    NextIsNextIn(t, pre[i]);
  }

  lemma ChainConcat(t: Node, a: seq<Path>, b: seq<Path>, e: Option<Path>)
    requires |b| > 0 && Chain(t, a, Some(b[0])) && Chain(t, b, e)
    ensures Chain(t, a + b, e)
  {
    var s := a + b;
    forall j | 0 <= j < |s|
      ensures ValidPos(t, s[j]) && NextIn(t, s[j]) == (if j + 1 < |s| then Some(s[j + 1]) else e)
    {
      if j + 1 < |a| {
        assert s[j] == a[j] && s[j + 1] == a[j + 1];
        assert ValidPos(t, a[j]);
        assert NextIn(t, a[j]) == Some(a[j + 1]);
        assert NextIn(t, s[j]) == Some(s[j + 1]);
      } else if j + 1 == |a| {
        assert s[j] == a[j] && s[j + 1] == b[0];
        assert NextIn(t, a[j]) == Some(b[0]);
        assert NextIn(t, s[j]) == Some(s[j + 1]);
      } else {
        var jb := j - |a|;
        assert s[j] == b[jb];
        assert ValidPos(t, b[jb]);
        if j + 1 < |s| {
          assert s[j + 1] == b[jb + 1];
          assert NextIn(t, b[jb]) == Some(b[jb + 1]);
        } else {
          assert NextIn(t, b[jb]) == e;
        }
      }
    }
  }

  lemma {:induction false} PreorderChain(t: Node)
    ensures Chain(t, Preorder(t), None)
    decreases t, 1
  {
    var n := |t.children|;
    var root: seq<Path> := [[]];
    if n == 0 {
      assert Preorder(t) == root;
      assert NextIn(t, root[0]) == None;
    } else {
      KidsChain(t, 0);
      assert NextIn(t, root[0]) == Some(Kids(t.children, 0)[0]);
      ChainConcat(t, root, Kids(t.children, 0), None);
    }
  }

  lemma {:induction false} KidsChain(t: Node, k: nat)
    requires k < |t.children|
    ensures Chain(t, Kids(t.children, k), None)
    decreases t.children, |t.children| - k
  {
    PreorderChain(t.children[k]);
    ChainLift(t, k, Preorder(t.children[k]), None);
    var a := Lift(k, Preorder(t.children[k]));
    if k + 1 < |t.children| {
      KidsChain(t, k + 1);
      ChainConcat(t, a, Kids(t.children, k + 1), None);
    } else {
      assert Kids(t.children, k) == a + [];
    }
  }

  // ---------------------------------------------------------------------------
  // The predecessor undoes the successor

  lemma LastInHasNoNext(n: Node)
    ensures NextIn(n, LastIn(n)) == None
    decreases n
  {
    if |n.children| > 0 {
      var k := |n.children| - 1;
      var x := LastIn(n);
      assert x[0] == k && x[1..] == LastIn(n.children[k]);
      LastInHasNoNext(n.children[k]);
    }
  }

  lemma {:induction false} NoNextIsLast(n: Node, x: Path)
    requires ValidPos(n, x) && NextIn(n, x) == None
    ensures x == LastIn(n)
    decreases |x|
  {
    if x != [] {
      var i := x[0];
      NoNextIsLast(n.children[i], x[1..]);
      assert x == [i] + x[1..];
    }
  }

  lemma PrevSiblingLift(t: Node, i: nat, x: Path)
    requires i < |t.children| && ValidPos(t.children[i], x) && x != []
    ensures ValidPos(t, [i] + x)
    ensures PrevSibling(t, [i] + x).Some? == PrevSibling(t.children[i], x).Some?
    ensures PrevSibling(t.children[i], x).Some? ==>
              PrevSibling(t, [i] + x).value == [i] + PrevSibling(t.children[i], x).value
  {
    var c := t.children[i];
    var p := [i] + x;
    assert p[0] == i && p[1..] == x;
    var px := Parent(x);
    assert Parent(p) == [i] + px && Last(p) == Last(x);
    ValidPosParent(c, x);
    ValidPosConcat(t, [i], px);
    assert At(t, [i]) == c;
    assert At(t, Parent(p)) == At(c, px);
    if Last(x) > 0 {
      assert Parent(p) + [Last(x) - 1] == [i] + (px + [Last(x) - 1]);
    }
  }

  lemma LastNodeLift(t: Node, i: nat, s: Path)
    requires i < |t.children| && ValidPos(t.children[i], s)
    ensures ValidPos(t, [i] + s)
    ensures LastNode(t, [i] + s) == [i] + LastNode(t.children[i], s)
  {
    var q := [i] + s;
    ChildPos(t, i, s);
    var z := LastIn(At(t.children[i], s));
    assert LastNode(t, q) == q + z;
    assert q + z == [i] + (s + z);
  }

  lemma PrevLift(t: Node, i: nat, x: Path)
    requires i < |t.children| && ValidPos(t.children[i], x) && x != []
    ensures ValidPos(t, [i] + x)
    ensures Prev(t.children[i], x).Some?
    ensures Prev(t, [i] + x) == Some([i] + Prev(t.children[i], x).value)
  {
    var c := t.children[i];
    PrevSiblingLift(t, i, x);
    match PrevSibling(c, x)
    case Some(s) =>
      LastNodeLift(t, i, s);
    case None =>
      assert Parent([i] + x) == [i] + Parent(x);
  }

  lemma PrevAtTop(t: Node, i: nat)
    requires i < |t.children|
    ensures ValidPos(t, [i])
    ensures i == 0 ==> Prev(t, [i]) == Some([])
    ensures i > 0 ==> Prev(t, [i]) == Some([i - 1] + LastIn(t.children[i - 1]))
  {
    assert Parent([i]) == [];
    if i > 0 {
      assert [] + [i - 1] == [i - 1];
      assert At(t, [i - 1]) == t.children[i - 1];
    }
  }

  lemma {:induction false} PrevUndoesNextIn(t: Node, p: Path)
    requires ValidPos(t, p) && NextIn(t, p).Some?
    ensures Prev(t, NextIn(t, p).value) == Some(p)
    decreases |p|
  {
    if p == [] {
      PrevAtTop(t, 0);
    } else {
      var i := p[0];
      var x := p[1..];
      var c := t.children[i];
      assert p == [i] + x;
      match NextIn(c, x)
      case Some(r) =>
        PrevUndoesNextIn(c, x);
        PrevLift(t, i, r);
      case None =>
        NoNextIsLast(c, x);
        PrevAtTop(t, i + 1);
    }
  }

  lemma {:induction false} NextInUndoesPrev(t: Node, q: Path)
    requires ValidPos(t, q) && Prev(t, q).Some?
    ensures ValidPos(t, Prev(t, q).value) && NextIn(t, Prev(t, q).value) == Some(q)
    decreases |q|
  {
    var i := q[0];
    var x := q[1..];
    var c := t.children[i];
    assert q == [i] + x;
    if x == [] {
      assert q == [i];
      PrevAtTop(t, i);
      if i > 0 {
        var y := LastIn(t.children[i - 1]);
        LastInHasNoNext(t.children[i - 1]);
        var p := [i - 1] + y;
        assert p[0] == i - 1 && p[1..] == y;
        assert ValidPos(t, p);
      }
    } else {
      PrevLift(t, i, x);
      NextInUndoesPrev(c, x);
      var y := Prev(c, x).value;
      assert ([i] + y)[0] == i && ([i] + y)[1..] == y;
    }
  }

  /** `prev_node_depth_first` undoes `next_node_depth_first`. */
  lemma PrevUndoesNext(t: Node, p: Path)
    requires ValidPos(t, p) && Next(t, p).Some?
    ensures ValidPos(t, Next(t, p).value) && Prev(t, Next(t, p).value) == Some(p)
  {
    NextIsNextIn(t, p);
    PrevUndoesNextIn(t, p);
  }

  /** `next_node_depth_first` undoes `prev_node_depth_first`; only the root has
      no predecessor. */
  lemma NextUndoesPrev(t: Node, q: Path)
    requires ValidPos(t, q)
    ensures Prev(t, q).None? <==> q == []
    ensures Prev(t, q).Some? ==> ValidPos(t, Prev(t, q).value) && Next(t, Prev(t, q).value) == Some(q)
  {
    if q != [] {
      NextInUndoesPrev(t, q);
      NextIsNextIn(t, Prev(t, q).value);
    }
  }

  // ---------------------------------------------------------------------------
  // Preorder holds every node exactly once

  lemma {:induction false} KidsHas(cs: seq<Node>, k: nat, i: nat, x: Path)
    requires k <= i < |cs| && x in Preorder(cs[i])
    ensures [i] + x in Kids(cs, k)
    decreases |cs| - k
  {
    var j :| 0 <= j < |Preorder(cs[i])| && Preorder(cs[i])[j] == x;
    if i == k {
      assert Kids(cs, k)[j] == Lift(k, Preorder(cs[k]))[j];
    } else {
      KidsHas(cs, k + 1, i, x);
    }
  }

  lemma {:induction false} PreorderHasAll(t: Node, q: Path)
    requires ValidPos(t, q)
    ensures q in Preorder(t)
    decreases |q|
  {
    if q != [] {
      PreorderHasAll(t.children[q[0]], q[1..]);
      KidsHas(t.children, 0, q[0], q[1..]);
      assert q == [q[0]] + q[1..];
    }
  }

  lemma PreorderValid(t: Node, q: Path)
    requires q in Preorder(t)
    ensures ValidPos(t, q)
  {
    PreorderChain(t);
  }

  lemma DistinctConcat<T>(a: seq<T>, b: seq<T>)
    requires Distinct(a) && Distinct(b)
    requires forall i, j :: 0 <= i < |a| && 0 <= j < |b| ==> a[i] != b[j]
    ensures Distinct(a + b)
  {
    var s := a + b;
    forall i, j | 0 <= i < j < |s|
      ensures s[i] != s[j]
    {
      if j < |a| {
        assert s[i] == a[i] && s[j] == a[j];
      } else if i < |a| {
        assert s[i] == a[i] && s[j] == b[j - |a|];
      } else {
        assert s[i] == b[i - |a|] && s[j] == b[j - |a|];
      }
    }
  }

  lemma {:induction false} PreorderDistinct(t: Node)
    ensures Distinct(Preorder(t))
    decreases t, 1
  {
    KidsDistinct(t.children, 0);
    DistinctConcat([[]], Kids(t.children, 0));
  }

  lemma {:induction false} KidsDistinct(cs: seq<Node>, k: nat)
    ensures Distinct(Kids(cs, k))
    ensures forall j :: 0 <= j < |Kids(cs, k)| ==> Kids(cs, k)[j] != [] && Kids(cs, k)[j][0] >= k
    decreases cs, |cs| - k
  {
    if k < |cs| {
      var a := Lift(k, Preorder(cs[k]));
      PreorderDistinct(cs[k]);
      KidsDistinct(cs, k + 1);
      var b := Kids(cs, k + 1);
      forall i, j | 0 <= i < j < |a|
        ensures a[i] != a[j]
      {
        assert a[i][1..] == Preorder(cs[k])[i] && a[j][1..] == Preorder(cs[k])[j];
      }
      forall i, j | 0 <= i < |a| && 0 <= j < |b|
        ensures a[i] != b[j]
      {
        assert a[i][0] == k;
      }
      DistinctConcat(a, b);
      forall j | 0 <= j < |a + b|
        ensures (a + b)[j] != [] && (a + b)[j][0] >= k
      {
        if j < |a| {
          assert (a + b)[j] == [k] + Preorder(cs[k])[j];
        } else {
          assert (a + b)[j] == b[j - |a|];
        }
      }
    }
  }

  /** Where a node sits in the preorder of the tree. */
  ghost function PreIndex(t: Node, p: Path): (i: nat)
    requires ValidPos(t, p)
    ensures i < |Preorder(t)| && Preorder(t)[i] == p
  {
    PreorderHasAll(t, p);
    var i :| 0 <= i < |Preorder(t)| && Preorder(t)[i] == p;
    i
  }

  /** Following `next_node_depth_first` from a node until it returns `None`
      visits the preorder from that node to the end; from the root, every
      node of the tree exactly once. */
  method Enumerate(t: Node, p: Path) returns (visited: seq<Path>)
    requires ValidPos(t, p)
    ensures visited == [p] + After(t, p)
    ensures Distinct(visited)
    ensures forall j :: 0 <= j < |visited| ==> ValidPos(t, visited[j])
    ensures p == [] ==> forall q :: ValidPos(t, q) ==> q in visited
  {
    ghost var pre := Preorder(t);
    ghost var start := PreIndex(t, p);
    ghost var i := start;
    visited := [];
    var node: Option<Path> := Some(p);
    while node.Some?
      invariant start <= i <= |pre|
      invariant node.Some? <==> i < |pre|
      invariant node.Some? ==> node.value == pre[i]
      invariant visited == pre[start..i]
      decreases |pre| - i
    {
      visited := visited + [node.value];
      PreorderStep(t, i);
      node := Next(t, node.value);
      i := i + 1;
    }
    assert visited == pre[start..];
    SuffixFacts(t, start);
    if p == [] {
      RootFirst(t);
    }
  }

  /** The root comes first in preorder. */
  lemma RootFirst(t: Node)
    ensures PreIndex(t, []) == 0
  {
    PreorderDistinct(t);
    assert Preorder(t)[0] == [];
  }

  lemma SuffixFacts(t: Node, start: nat)
    requires start < |Preorder(t)|
    ensures Preorder(t)[start..] == [Preorder(t)[start]] + Preorder(t)[start + 1..]
    ensures Distinct(Preorder(t)[start..])
    ensures forall j :: start <= j < |Preorder(t)| ==> ValidPos(t, Preorder(t)[j])
    ensures start == 0 ==> forall q :: ValidPos(t, q) ==> q in Preorder(t)[start..]
  {
    var pre := Preorder(t);
    PreorderDistinct(t);
    var v := pre[start..];
    forall a, b | 0 <= a < b < |v|
      ensures v[a] != v[b]
    {
      assert v[a] == pre[start + a] && v[b] == pre[start + b];
    }
    forall j | start <= j < |pre|
      ensures ValidPos(t, pre[j])
    {
      PreorderValid(t, pre[j]);
    }
    if start == 0 {
      assert v == pre;
      forall q | ValidPos(t, q)
        ensures q in v
      {
        PreorderHasAll(t, q);
      }
    }
  }

  // ---------------------------------------------------------------------------
  // Depth

  /** `depth()`: the number of parent steps up to the root. */
  method Depth(t: Node, p: Path) returns (d: nat)
    requires ValidPos(t, p)
    ensures d == |p|
  {
    d := 0;
    var node := p;
    while node != []
      invariant d + |node| == |p|
      decreases |node|
    {
      d := d + 1;
      node := Parent(node);
    }
  }

  /** One step of the running maximum of `subtree_max_depth`. */
  function Bump(m: nat, q: Path, base: nat): nat {
    if |q| - base > m then |q| - base else m
  }

  /** The running maximum started at `m` and carried over `qs` in order. */
  function MaxFrom(m: nat, qs: seq<Path>, base: nat): nat
    decreases |qs|
  {
    if qs == [] then m else MaxFrom(Bump(m, qs[0], base), qs[1..], base)
  }

  lemma MaxFromStep(m: nat, q: Path, qs: seq<Path>, base: nat)
    ensures MaxFrom(m, [q] + qs, base) == MaxFrom(Bump(m, q, base), qs, base)
  {
    assert ([q] + qs)[1..] == qs;
  }

  /** The largest `|q| - base` over `qs`, and 0 when none is positive. */
  function MaxRel(qs: seq<Path>, base: nat): nat {
    MaxFrom(0, qs, base)
  }

  lemma {:induction false} MaxFromIsMax(m: nat, qs: seq<Path>, base: nat)
    ensures m <= MaxFrom(m, qs, base)
    ensures forall j :: 0 <= j < |qs| ==> |qs[j]| - base <= MaxFrom(m, qs, base)
    ensures MaxFrom(m, qs, base) == m || exists j :: 0 <= j < |qs| && |qs[j]| - base == MaxFrom(m, qs, base)
    decreases |qs|
  {
    if qs != [] {
      var r := MaxFrom(m, qs, base);
      var m' := Bump(m, qs[0], base);
      MaxFromIsMax(m', qs[1..], base);
      assert forall j :: 1 <= j < |qs| ==> qs[j] == qs[1..][j - 1];
      if r != m && r != m' {
        var j :| 0 <= j < |qs[1..]| && |qs[1..][j]| - base == r;
        assert qs[j + 1] == qs[1..][j];
      }
    }
  }

  /** `MaxRel` bounds every relative depth and is one of them unless it is 0. */
  lemma MaxRelIsMax(qs: seq<Path>, base: nat)
    ensures forall j :: 0 <= j < |qs| ==> |qs[j]| - base <= MaxRel(qs, base)
    ensures MaxRel(qs, base) == 0 || exists j :: 0 <= j < |qs| && |qs[j]| - base == MaxRel(qs, base)
  {
    MaxFromIsMax(0, qs, base);
  }

  /** `subtree_max_depth()` as written: the relative depth of every node after
      this one in preorder, including nodes past the end of its subtree. */
  method SubtreeMaxDepth(t: Node, p: Path) returns (m: nat)
    requires ValidPos(t, p)
    ensures m == MaxRel(After(t, p), |p|)
  {
    var rootDepth := Depth(t, p);
    m := 0;
    WalkStart(t, p);
    var node := Next(t, p);
    ghost var goal := MaxRel(After(t, p), |p|);
    while node.Some?
      invariant node.None? ==> m == goal
      invariant node.Some? ==> ValidPos(t, node.value) && Pending(t, m, node.value, |p|) == goal
      decreases Remaining(t, node)
    {
      var q := node.value;
      var d := Depth(t, q);
      WalkStep(t, m, q, |p|);
      ghost var seen := m;
      if d - rootDepth > m {
        m := d - rootDepth;
      }
      assert m == Bump(seen, q, |p|);
      node := Next(t, q);
    }
  }

  /** The running maximum still to come when the walk stands at `q` having seen `m`. */
  ghost function Pending(t: Node, m: nat, q: Path, base: nat): nat
    requires ValidPos(t, q)
  {
    MaxFrom(m, [q] + After(t, q), base)
  }

  /** How many nodes the walk has still to visit. */
  ghost function Remaining(t: Node, node: Option<Path>): nat {
    match node
    case None => 0
    case Some(q) => if ValidPos(t, q) then 1 + |After(t, q)| else 0
  }

  lemma WalkStart(t: Node, p: Path)
    requires ValidPos(t, p)
    ensures Next(t, p).None? ==> MaxRel(After(t, p), |p|) == 0
    ensures Next(t, p).Some? ==>
              ValidPos(t, Next(t, p).value) && Pending(t, 0, Next(t, p).value, |p|) == MaxRel(After(t, p), |p|)
  {
    AfterStep(t, p);
  }

  lemma WalkStep(t: Node, m: nat, q: Path, base: nat)
    requires ValidPos(t, q)
    ensures Next(t, q).None? ==> Pending(t, m, q, base) == Bump(m, q, base)
    ensures Next(t, q).Some? ==>
              && ValidPos(t, Next(t, q).value)
              && Pending(t, m, q, base) == Pending(t, Bump(m, q, base), Next(t, q).value, base)
              && Remaining(t, Next(t, q)) < Remaining(t, Some(q))
  {
    AfterStep(t, q);
    MaxFromStep(m, q, After(t, q), base);
  }

  /** The nodes after `p` in preorder, to the end of the tree. */
  ghost function After(t: Node, p: Path): seq<Path>
    requires ValidPos(t, p)
  {
    Preorder(t)[PreIndex(t, p) + 1..]
  }

  /** What follows a node in preorder is its successor and what follows that. */
  lemma AfterStep(t: Node, q: Path)
    requires ValidPos(t, q)
    ensures Next(t, q).None? ==> After(t, q) == []
    ensures Next(t, q).Some? ==>
              ValidPos(t, Next(t, q).value) && After(t, q) == [Next(t, q).value] + After(t, Next(t, q).value)
  {
    var pre := Preorder(t);
    var i := PreIndex(t, q);
    PreorderStep(t, i);
    if i + 1 < |pre| {
      var r := pre[i + 1];
      PreorderDistinct(t);
      PreorderValid(t, r);
      var k := PreIndex(t, r);
      assert k == i + 1;
      assert pre[i + 1..] == [r] + pre[i + 2..];
    }
  }

  /** The height of a subtree: 0 for a leaf, else one more than its tallest child. */
  function Height(n: Node): nat
    decreases n, 1
  {
    if |n.children| == 0 then 0 else 1 + Tallest(n.children, 0)
  }

  function Tallest(cs: seq<Node>, k: nat): nat
    decreases cs, |cs| - k
  {
    if k >= |cs| then 0
    else
      var rest := Tallest(cs, k + 1);
      if Height(cs[k]) > rest then Height(cs[k]) else rest
  }

  lemma {:induction false} TallestBound(cs: seq<Node>, k: nat, i: nat)
    requires k <= i < |cs|
    ensures Height(cs[i]) <= Tallest(cs, k)
    decreases |cs| - k
  {
    if k < i {
      TallestBound(cs, k + 1, i);
    }
  }

  lemma {:induction false} TallestArg(cs: seq<Node>, k: nat) returns (i: nat)
    requires k < |cs|
    ensures k <= i < |cs| && Height(cs[i]) == Tallest(cs, k)
    decreases |cs| - k
  {
    if k + 1 < |cs| && Tallest(cs, k + 1) >= Height(cs[k]) {
      i := TallestArg(cs, k + 1);
    } else {
      i := k;
    }
  }

  /** Every position in a subtree is at most its height deep. */
  lemma {:induction false} HeightBounds(n: Node, x: Path)
    requires ValidPos(n, x)
    ensures |x| <= Height(n)
    decreases |x|
  {
    if x != [] {
      HeightBounds(n.children[x[0]], x[1..]);
      TallestBound(n.children, 0, x[0]);
    }
  }

  /** Some position in a subtree is exactly its height deep. */
  lemma {:induction false} HeightReached(n: Node) returns (x: Path)
    ensures ValidPos(n, x) && |x| == Height(n)
    decreases n
  {
    if |n.children| == 0 {
      x := [];
    } else {
      var i := TallestArg(n.children, 0);
      var y := HeightReached(n.children[i]);
      x := [i] + y;
      assert x[0] == i && x[1..] == y;
    }
  }

  /** The corrected `subtree_max_depth`: the height of the node's own subtree,
      which bounds and is attained by the relative depth of its descendants. */
  function SubtreeDepth(t: Node, p: Path): (d: nat)
    requires ValidPos(t, p)
    ensures forall x :: ValidPos(t, p + x) ==> |p + x| - |p| <= d
    ensures exists x :: ValidPos(t, p + x) && |p + x| - |p| == d
  {
    var n := At(t, p);
    forall x | ValidPos(t, p + x)
      ensures |p + x| - |p| <= Height(n)
    {
      ValidPosConcat(t, p, x);
      HeightBounds(n, x);
    }
    HeightAttained(t, p);
    Height(n)
  }

  lemma HeightAttained(t: Node, p: Path)
    requires ValidPos(t, p)
    ensures exists x :: ValidPos(t, p + x) && |p + x| - |p| == Height(At(t, p))
  {
    var w := HeightReached(At(t, p));
    ValidPosConcat(t, p, w);
  }

  // ---------------------------------------------------------------------------
  // Where siblings sit in preorder

  /** The preorder of the children from `i` on ends the preorder of the
      children from `k` on. */
  lemma {:induction false} KidsSuffix(cs: seq<Node>, k: nat, i: nat)
    requires k <= i
    ensures |Kids(cs, i)| <= |Kids(cs, k)|
    ensures Kids(cs, k)[|Kids(cs, k)| - |Kids(cs, i)|..] == Kids(cs, i)
    decreases i - k
  {
    if k < i && k < |cs| {
      KidsSuffix(cs, k + 1, i);
      var a := Lift(k, Preorder(cs[k]));
      var b := Kids(cs, k + 1);
      var c := Kids(cs, i);
      assert Kids(cs, k) == a + b;
      assert (a + b)[|a| + |b| - |c|..] == b[|b| - |c|..];
    }
  }

  /** Where child `i`'s preorder starts among the preorders of all children. */
  function KidsOffset(cs: seq<Node>, i: nat): nat {
    if |Kids(cs, i)| <= |Kids(cs, 0)| then |Kids(cs, 0)| - |Kids(cs, i)| else 0
  }

  lemma KidsAt(cs: seq<Node>, i: nat, x: Path)
    requires i < |cs| && ValidPos(cs[i], x)
    ensures KidsOffset(cs, i) + PreIndex(cs[i], x) < |Kids(cs, 0)|
    ensures Kids(cs, 0)[KidsOffset(cs, i) + PreIndex(cs[i], x)] == [i] + x
  {
    KidsSuffix(cs, 0, i);
    var j := PreIndex(cs[i], x);
    assert Kids(cs, i)[j] == Lift(i, Preorder(cs[i]))[j];
  }

  /** The one place a node has in the preorder. */
  lemma PreIndexIs(t: Node, q: Path, j: nat)
    requires j < |Preorder(t)| && Preorder(t)[j] == q
    ensures ValidPos(t, q) && PreIndex(t, q) == j
  {
    PreorderValid(t, q);
    PreorderDistinct(t);
  }

  /** Child `i`'s own preorder sits in the tree's preorder after the root and
      the preorders of the children before it. */
  lemma PreIndexLift(t: Node, i: nat, x: Path)
    requires i < |t.children| && ValidPos(t.children[i], x)
    ensures ValidPos(t, [i] + x)
    ensures PreIndex(t, [i] + x) == 1 + KidsOffset(t.children, i) + PreIndex(t.children[i], x)
  {
    KidsAt(t.children, i, x);
    var j := 1 + KidsOffset(t.children, i) + PreIndex(t.children[i], x);
    assert Preorder(t)[j] == Kids(t.children, 0)[j - 1];
    PreIndexIs(t, [i] + x, j);
  }

  /** The preorders of two neighbouring children follow each other. */
  lemma KidsOffsetGrows(cs: seq<Node>, i: nat)
    requires i + 1 < |cs|
    ensures KidsOffset(cs, i) < KidsOffset(cs, i + 1)
  {
    KidsSuffix(cs, 0, i + 1);
    assert Kids(cs, i) == Lift(i, Preorder(cs[i])) + Kids(cs, i + 1);
  }

  /** A node comes before its next sibling in preorder. */
  lemma {:induction false} SiblingLater(t: Node, u: Path, i: nat)
    requires ValidPos(t, u + [i + 1])
    ensures ValidPos(t, u + [i]) && PreIndex(t, u + [i]) < PreIndex(t, u + [i + 1])
    decreases |u|
  {
    if u == [] {
      assert [] + [i] == [i] && [] + [i + 1] == [i + 1];
      ChildrenLater(t, i);
    } else {
      var j := u[0];
      var w := u[1..];
      assert u + [i] == [j] + (w + [i]) && u + [i + 1] == [j] + (w + [i + 1]);
      assert ([j] + (w + [i + 1]))[1..] == w + [i + 1];
      SiblingLater(t.children[j], w, i);
      LiftKeepsOrder(t, j, w + [i], w + [i + 1]);
    }
  }

  /** Child `i` comes before child `i + 1` in preorder. */
  lemma ChildrenLater(t: Node, i: nat)
    requires i + 1 < |t.children|
    ensures ValidPos(t, [i]) && ValidPos(t, [i + 1]) && PreIndex(t, [i]) < PreIndex(t, [i + 1])
  {
    assert [i] == [i] + [] && [i + 1] == [i + 1] + [];
    RootFirst(t.children[i]);
    RootFirst(t.children[i + 1]);
    PreIndexLift(t, i, []);
    PreIndexLift(t, i + 1, []);
    KidsOffsetGrows(t.children, i);
  }

  /** Inside one child the order of the child's own preorder is kept. */
  lemma LiftKeepsOrder(t: Node, j: nat, x: Path, y: Path)
    requires j < |t.children| && ValidPos(t.children[j], x) && ValidPos(t.children[j], y)
    requires PreIndex(t.children[j], x) < PreIndex(t.children[j], y)
    ensures ValidPos(t, [j] + x) && ValidPos(t, [j] + y) && PreIndex(t, [j] + x) < PreIndex(t, [j] + y)
  {
    PreIndexLift(t, j, x);
    PreIndexLift(t, j, y);
  }

  /** A node later in preorder is among the nodes after `p`. */
  lemma LaterIsAfter(t: Node, p: Path, q: Path)
    requires ValidPos(t, p) && ValidPos(t, q) && PreIndex(t, p) < PreIndex(t, q)
    ensures q in After(t, p)
  {
    assert After(t, p)[PreIndex(t, q) - PreIndex(t, p) - 1] == q;
  }

  /** A node's first child comes right after it in preorder. */
  lemma FirstChildNext(t: Node, s: Path)
    requires ValidPos(t, s) && |At(t, s).children| > 0
    ensures ValidPos(t, s + [0]) && PreIndex(t, s + [0]) == PreIndex(t, s) + 1
  {
    AfterStep(t, s);
    PreorderDistinct(t);
    assert Preorder(t)[PreIndex(t, s) + 1] == After(t, s)[0];
  }

  /** The walk from a node reaches its next sibling, which lies outside the
      node's subtree, and then that sibling's first child. */
  lemma NextSiblingAfter(t: Node, p: Path)
    requires ValidPos(t, p) && NextSibling(t, p).Some?
    ensures var s := NextSibling(t, p).value;
            && s in After(t, p) && !IsPrefix(p, s)
            && (|At(t, s).children| > 0 ==> ValidPos(t, s + [0]) && s + [0] in After(t, p))
  {
    var s := NextSibling(t, p).value;
    var u := Parent(p);
    assert p == u + [Last(p)] && s == u + [Last(p) + 1];
    SiblingLater(t, u, Last(p));
    LaterIsAfter(t, p, s);
    assert s[|s| - 1] != p[|p| - 1];
    if |At(t, s).children| > 0 {
      FirstChildNext(t, s);
      LaterIsAfter(t, p, s + [0]);
    }
  }

  /** `subtree_max_depth` as written counts past the subtree: when the next
      sibling has a child, the walk reports at least 1, so a leaf followed by
      such a sibling reports more than its height of 0. */
  lemma SubtreeMaxDepthOvercounts(t: Node, p: Path)
    requires ValidPos(t, p) && NextSibling(t, p).Some?
    requires |At(t, NextSibling(t, p).value).children| > 0
    ensures MaxRel(After(t, p), |p|) >= 1
    ensures |At(t, p).children| == 0 ==> SubtreeDepth(t, p) == 0 < MaxRel(After(t, p), |p|)
  {
    var s := NextSibling(t, p).value;
    NextSiblingAfter(t, p);
    MaxRelIsMax(After(t, p), |p|);
    var k :| 0 <= k < |After(t, p)| && After(t, p)[k] == s + [0];
    assert |After(t, p)[k]| - |p| == 1;
  }

  /** The walk of `subtree_max_depth` leaves the subtree: in a root with a
      leaf `a` and a child `b` that has a child, the leaf reports depth 1. */
  lemma SubtreeMaxDepthExample()
    ensures var leaf := Node("a", None, []);
            var t := Node("", None, [leaf, Node("b", None, [Node("c", None, [])])]);
            && Preorder(t) == [[], [0], [1], [1, 0]]
            && After(t, [0]) == [[1], [1, 0]]
            && MaxRel(After(t, [0]), 1) == 1
            && SubtreeDepth(t, [0]) == 0
  {
    var leaf := Node("a", None, []);
    var c := Node("c", None, []);
    var b := Node("b", None, [c]);
    var t := Node("", None, [leaf, b]);
    assert Preorder(leaf) == [[]];
    assert Preorder(c) == [[]];
    assert Kids(b.children, 1) == [];
    assert Kids(b.children, 0) == [[0]];
    assert Lift(0, [[]]) == [[0]];
    assert Preorder(b) == [[], [0]];
    assert [1] + [] == [1] && [1] + [0] == [1, 0];
    assert Lift(1, [[], [0]]) == [[1], [1, 0]];
    assert Lift(0, [[]]) == [[0]];
    assert Kids(t.children, 2) == [];
    assert Kids(t.children, 1) == [[1], [1, 0]];
    assert Kids(t.children, 0) == [[0], [1], [1, 0]];
    var pre := Preorder(t);
    assert pre == [[], [0], [1], [1, 0]];
    assert PreIndex(t, [0]) == 1 by {
      PreorderDistinct(t);
    }
    var rest := pre[2..];
    assert rest == [[1], [1, 0]];
    assert rest[1..] == [[1, 0]];
    assert At(t, [0]) == leaf;
    HeightBounds(leaf, []);
  }
}

=== FILE: tree.dfy ===
/** The node tree of `XarrayTreeNode`: a name, an optional dataset and an
    insertion-ordered dict of children keyed by their names. A node is addressed
    by the child indices leading to it from the root; its parent is the node
    one index shorter. */
module Tree {
  import opened Wrappers
  import opened Datasets

  datatype Node = Node(name: string, data: Option<Dataset>, children: seq<Node>)

  /** Child indices from the root: `[]` is the root, `p + [i]` the `i`-th child of `p`. */
  type Path = seq<nat>

  /** The keys of a `children` dict, in order. */
  function Names(cs: seq<Node>): (ns: seq<string>)
    ensures |ns| == |cs|
    ensures forall i :: 0 <= i < |cs| ==> ns[i] == cs[i].name
  {
    seq(|cs|, i requires 0 <= i < |cs| => cs[i].name)
  }

  /** No two siblings share a name, anywhere in the tree. */
  predicate ValidTree(t: Node)
    decreases t
  {
    && Distinct(Names(t.children))
    && forall i :: 0 <= i < |t.children| ==> ValidTree(t.children[i])
  }

  predicate ValidPos(t: Node, p: Path)
    decreases |p|
  {
    p == [] || (p[0] < |t.children| && ValidPos(t.children[p[0]], p[1..]))
  }

  function At(t: Node, p: Path): Node
    requires ValidPos(t, p)
    decreases |p|
  {
    if p == [] then t else At(t.children[p[0]], p[1..])
  }

  /** The tree with the subtree at `p` replaced by `n`. */
  function Put(t: Node, p: Path, n: Node): Node
    requires ValidPos(t, p)
    decreases |p|
  {
    if p == [] then n
    else t.(children := t.children[p[0] := Put(t.children[p[0]], p[1..], n)])
  }

  function Parent(p: Path): Path
    requires p != []
  {
    p[..|p| - 1]
  }

  function Last(p: Path): nat
    requires p != []
  {
    p[|p| - 1]
  }

  /** `p` is `q` or one of its ancestors. */
  predicate IsPrefix(p: Path, q: Path) {
    |p| <= |q| && q[..|p|] == p
  }

  /** A name `name` may sit at `p` without clashing with a sibling. */
  predicate FreeAmongSiblings(t: Node, p: Path, name: string)
    requires ValidPos(t, p)
  {
    if p == [] then true
    else
      ValidPosParent(t, p);
      var sibs := At(t, Parent(p)).children;
      forall j :: 0 <= j < |sibs| && j != Last(p) ==> sibs[j].name != name
  }

  // ---------------------------------------------------------------------------
  // Lemmas about positions

  lemma ValidPosConcat(t: Node, p: Path, q: Path)
    requires ValidPos(t, p)
    ensures ValidPos(t, p + q) <==> ValidPos(At(t, p), q)
    ensures ValidPos(t, p + q) ==> At(t, p + q) == At(At(t, p), q)
    decreases |p|
  {
    if p == [] {
      assert p + q == q;
    } else {
      assert (p + q)[0] == p[0] && (p + q)[1..] == p[1..] + q;
      ValidPosConcat(t.children[p[0]], p[1..], q);
    }
  }

  /** A position below child `i` is that child's position with `i` in front. */
  lemma ChildPos(t: Node, i: nat, s: Path)
    requires i < |t.children|
    ensures ValidPos(t, [i] + s) <==> ValidPos(t.children[i], s)
    ensures ValidPos(t, [i] + s) ==> At(t, [i] + s) == At(t.children[i], s)
  {
    assert ([i] + s)[0] == i && ([i] + s)[1..] == s;
  }

  lemma ValidPosPrefix(t: Node, p: Path, k: nat)
    requires ValidPos(t, p) && k <= |p|
    ensures ValidPos(t, p[..k])
    ensures ValidPos(At(t, p[..k]), p[k..]) && At(At(t, p[..k]), p[k..]) == At(t, p)
    decreases |p|
  {
    if k > 0 {
      assert p[..k][0] == p[0] && p[..k][1..] == p[1..][..k - 1];
      assert p[k..] == p[1..][k - 1..];
      ValidPosPrefix(t.children[p[0]], p[1..], k - 1);
    }
  }

  lemma ValidPosParent(t: Node, p: Path)
    requires ValidPos(t, p) && p != []
    ensures ValidPos(t, Parent(p))
    ensures Last(p) < |At(t, Parent(p)).children|
    ensures At(At(t, Parent(p)), [Last(p)]) == At(t, p)
    ensures At(t, Parent(p)).children[Last(p)] == At(t, p)
  {
    ValidPosPrefix(t, p, |p| - 1);
    assert p[|p| - 1..] == [Last(p)];
  }

  lemma ValidPosChild(t: Node, p: Path, i: nat)
    requires ValidPos(t, p) && i < |At(t, p).children|
    ensures ValidPos(t, p + [i])
    ensures At(t, p + [i]) == At(t, p).children[i]
  {
    ValidPosConcat(t, p, [i]);
  }

  lemma PutAt(t: Node, p: Path, n: Node)
    requires ValidPos(t, p)
    ensures ValidPos(Put(t, p, n), p) && At(Put(t, p, n), p) == n
    decreases |p|
  {
    if p != [] {
      PutAt(t.children[p[0]], p[1..], n);
    }
  }

  /** Replacing a subtree leaves every position outside it, and not above it, as it was. */
  lemma PutElsewhere(t: Node, p: Path, n: Node, q: Path)
    requires ValidPos(t, p) && ValidPos(t, q)
    requires !IsPrefix(p, q) && !IsPrefix(q, p)
    ensures ValidPos(Put(t, p, n), q) && At(Put(t, p, n), q) == At(t, q)
    decreases |p|
  {
    if p[0] != q[0] {
    } else {
      PutElsewhere(t.children[p[0]], p[1..], n, q[1..]);
    }
  }

  /** Above the replaced position, the tree is the old one with the change inside. */
  lemma PutAbove(t: Node, p: Path, n: Node, k: nat)
    requires ValidPos(t, p) && k <= |p|
    ensures ValidPos(t, p[..k]) && ValidPos(Put(t, p, n), p[..k])
    ensures ValidPos(At(t, p[..k]), p[k..])
    ensures At(Put(t, p, n), p[..k]) == Put(At(t, p[..k]), p[k..], n)
    decreases |p|
  {
    ValidPosPrefix(t, p, k);
    if k > 0 {
      assert p[..k][1..] == p[1..][..k - 1];
      assert p[k..] == p[1..][k - 1..];
      PutAbove(t.children[p[0]], p[1..], n, k - 1);
    }
  }

  /** The tree stays valid when the replacing subtree is valid and its name
      clashes with no sibling. */
  lemma PutValid(t: Node, p: Path, n: Node)
    requires ValidTree(t) && ValidPos(t, p) && ValidTree(n)
    requires FreeAmongSiblings(t, p, n.name)
    ensures ValidTree(Put(t, p, n))
    decreases |p|
  {
    if p != [] {
      var c := t.children[p[0]];
      if |p| > 1 {
        assert FreeAmongSiblings(c, p[1..], n.name) by {
          ValidPosParent(t, p);
          ValidPosParent(c, p[1..]);
          assert Parent(p) == [p[0]] + Parent(p[1..]);
          ValidPosConcat(t, [p[0]], Parent(p[1..]));
        }
      }
      PutValid(c, p[1..], n);
      var r := Put(t, p, n);
      var c' := Put(c, p[1..], n);
      assert r.children == t.children[p[0] := c'];
      PutAt(c, p[1..], n);
      assert c'.name == (if |p| == 1 then n.name else c.name);
      forall i, j | 0 <= i < j < |r.children|
        ensures Names(r.children)[i] != Names(r.children)[j]
      {
        assert Names(t.children)[i] != Names(t.children)[j];
        if |p| == 1 {
          assert Parent(p) == [];
        }
      }
    }
  }
}

module TreeEdit {
  import opened Wrappers
  import opened Seqs
  import opened Datasets
  import opened Tree

  /** A node satisfies the sibling rule at its own position in a valid tree. */
  lemma OwnNameFree(t: Node, p: Path)
    requires ValidTree(t) && ValidPos(t, p)
    ensures FreeAmongSiblings(t, p, At(t, p).name)
  {
    if p != [] {
      ValidPosParent(t, p);
      ValidAt(t, Parent(p));
      var sibs := At(t, Parent(p)).children;
      forall j | 0 <= j < |sibs| && j != Last(p)
        ensures sibs[j].name != At(t, p).name
      {
        assert Names(sibs)[j] != Names(sibs)[Last(p)];
      }
    }
  }

  /** Every subtree of a valid tree is valid. */
  lemma ValidAt(t: Node, p: Path)
    requires ValidTree(t) && ValidPos(t, p)
    ensures ValidTree(At(t, p))
    decreases |p|
  {
    if p != [] {
      ValidAt(t.children[p[0]], p[1..]);
    }
  }

  function RemoveIndex<T>(s: seq<T>, i: nat): (r: seq<T>)
    requires i < |s|
    ensures |r| == |s| - 1
    ensures forall j :: 0 <= j < i ==> r[j] == s[j]
    ensures forall j :: i <= j < |r| ==> r[j] == s[j + 1]
  {
    s[..i] + s[i + 1..]
  }

  /** Removing entry `i` keeps every value other than the removed one, and
      adds none. */
  lemma RemoveIndexKeeps<T>(s: seq<T>, i: nat, x: T)
    requires i < |s|
    ensures x in s && x != s[i] ==> x in RemoveIndex(s, i)
    ensures x in RemoveIndex(s, i) ==> x in s
  {
    var r := RemoveIndex(s, i);
    if x in s && x != s[i] {
      var j :| 0 <= j < |s| && s[j] == x;
      if j < i {
        assert r[j] == x;
      } else {
        assert r[j - 1] == x;
      }
    }
    if x in r {
      var j :| 0 <= j < |r| && r[j] == x;
      if j < i {
        assert s[j] == x;
      } else {
        assert s[j + 1] == x;
      }
    }
  }

  lemma NamesRemove(cs: seq<Node>, i: nat)
    requires i < |cs|
    ensures Names(RemoveIndex(cs, i)) == RemoveIndex(Names(cs), i)
  {
  }

  lemma DistinctRemove<T>(s: seq<T>, i: nat)
    requires i < |s| && Distinct(s)
    ensures Distinct(RemoveIndex(s, i))
  {
    var r := RemoveIndex(s, i);
    forall a, b | 0 <= a < b < |r|
      ensures r[a] != r[b]
    {
      var a' := if a < i then a else a + 1;
      var b' := if b < i then b else b + 1;
      assert r[a] == s[a'] && r[b] == s[b'];
    }
  }

  /** The tree with `n` appended as the last child of `q` (`parent.children[n.name] = n`). */
  function AppendChild(t: Node, q: Path, n: Node): Node
    requires ValidPos(t, q)
  {
    Put(t, q, At(t, q).(children := At(t, q).children + [n]))
  }

  /** The tree with the node at `p` popped from its parent's children. */
  function RemoveChild(t: Node, p: Path): Node
    requires ValidPos(t, p) && p != []
  {
    ValidPosParent(t, p);
    var parent := At(t, Parent(p));
    Put(t, Parent(p), parent.(children := RemoveIndex(parent.children, Last(p))))
  }

  /** Where a position ends up once the node at `p` has been popped: later
      siblings of `p`, and everything below them, move one index down. */
  function Shift(y: Path, p: Path): Path
    requires p != []
  {
    var k := |p| - 1;
    if |y| > k && y[..k] == Parent(p) && y[k] > Last(p) then y[k := y[k] - 1] else y
  }

  /** Appending a child changes nothing outside the ancestors of the new child. */
  lemma AppendKeeps(t: Node, q: Path, n: Node, y: Path)
    requires ValidPos(t, q) && ValidPos(t, y) && !(IsPrefix(y, q))
    ensures ValidPos(AppendChild(t, q, n), y) && At(AppendChild(t, q, n), y) == At(t, y)
  {
    var m := At(t, q).(children := At(t, q).children + [n]);
    if IsPrefix(q, y) {
      var z := y[|q|..];
      assert y == q + z;
      ValidPosConcat(t, q, z);
      assert z != [];
      PutAt(t, q, m);
      ValidPosConcat(AppendChild(t, q, n), q, z);
      assert At(m, z) == At(At(t, q), z);
    } else {
      PutElsewhere(t, q, m, y);
    }
  }

  /** Above the new child, and at its parent, the children keep their names. */
  lemma AppendAbove(t: Node, q: Path, n: Node, y: Path)
    requires ValidPos(t, q) && IsPrefix(y, q)
    ensures ValidPos(t, y) && ValidPos(AppendChild(t, q, n), y)
    ensures y != q ==> Names(At(AppendChild(t, q, n), y).children) == Names(At(t, y).children)
    ensures y == q ==> At(AppendChild(t, q, n), y).children == At(t, q).children + [n]
  {
    var m := At(t, q).(children := At(t, q).children + [n]);
    PutAbove(t, q, m, |y|);
    PutAt(t, q, m);
    if y != q {
      ValidPosPrefix(t, q, |y|);
      NamesBelow(At(t, y), q[|y|..], m);
    }
  }

  /** Replacing a subtree strictly below `a` keeps the names of `a`'s children
      whenever the replacement keeps the replaced node's name. */
  lemma NamesBelow(a: Node, z: Path, m: Node)
    requires ValidPos(a, z) && z != [] && m.name == At(a, z).name
    ensures Names(Put(a, z, m).children) == Names(a.children)
  {
    var c := a.children[z[0]];
    var c' := Put(c, z[1..], m);
    assert Put(a, z, m).children == a.children[z[0] := c'];
    assert c'.name == c.name;
  }

  /** Popping a child moves the positions outside the popped subtree as `Shift` says. */
  lemma RemoveKeeps(t: Node, p: Path, y: Path)
    requires ValidPos(t, p) && p != [] && ValidPos(t, y)
    requires !IsPrefix(p, y) && !IsPrefix(y, Parent(p))
    ensures ValidPos(RemoveChild(t, p), Shift(y, p)) && At(RemoveChild(t, p), Shift(y, p)) == At(t, y)
  {
    ValidPosParent(t, p);
    var pp := Parent(p);
    if IsPrefix(pp, y) {
      RemoveKeepsCousin(t, p, y);
    } else {
      var parent := At(t, pp);
      var m := parent.(children := RemoveIndex(parent.children, Last(p)));
      PutElsewhere(t, pp, m, y);
      assert Shift(y, p) == y;
    }
  }

  /** The case of `RemoveKeeps` where `y` lies below a sibling of `p`. */
  lemma RemoveKeepsCousin(t: Node, p: Path, y: Path)
    requires ValidPos(t, p) && p != [] && ValidPos(t, y)
    requires !IsPrefix(p, y) && !IsPrefix(y, Parent(p)) && IsPrefix(Parent(p), y)
    ensures ValidPos(RemoveChild(t, p), Shift(y, p)) && At(RemoveChild(t, p), Shift(y, p)) == At(t, y)
  {
    CousinBelowParent(t, p, y);
    var z' := ShiftCousin(p, y);
    CousinAfterRemoval(t, p, y[|p| - 1..], z');
  }

  /** Below the parent of `p`, `y` continues along another child. */
  lemma CousinBelowParent(t: Node, p: Path, y: Path)
    requires ValidPos(t, p) && p != [] && ValidPos(t, y)
    requires !IsPrefix(p, y) && !IsPrefix(y, Parent(p)) && IsPrefix(Parent(p), y)
    ensures ValidPos(t, Parent(p)) && Last(p) < |At(t, Parent(p)).children|
    ensures |y| > |p| - 1 && y[|p| - 1] != Last(p)
    ensures var z := y[|p| - 1..];
            ValidPos(At(t, Parent(p)), z) && At(At(t, Parent(p)), z) == At(t, y)
  {
    ValidPosParent(t, p);
    var pp := Parent(p);
    assert y[..|pp|] == pp;
    SplitAt(y, |pp|);
    ValidPosConcat(t, pp, y[|pp|..]);
  }

  /** Once child `Last(p)` is gone, the node reached from the parent by `z`
      is reached by the shifted `z'`. */
  lemma CousinAfterRemoval(t: Node, p: Path, z: Path, z': Path)
    requires ValidPos(t, p) && p != [] && ValidPos(t, Parent(p))
    requires ValidPos(At(t, Parent(p)), z) && z != [] && z[0] != Last(p)
    requires z' == [if z[0] < Last(p) then z[0] else z[0] - 1] + z[1..]
    ensures ValidPos(RemoveChild(t, p), Parent(p) + z')
    ensures At(RemoveChild(t, p), Parent(p) + z') == At(At(t, Parent(p)), z)
  {
    ValidPosParent(t, p);
    var pp := Parent(p);
    var parent := At(t, pp);
    var m := parent.(children := RemoveIndex(parent.children, Last(p)));
    var r := RemoveChild(t, p);
    assert r == Put(t, pp, m);
    PutAt(t, pp, m);
    RemoveBelowSibling(parent, Last(p), z);
    ValidPosConcat(r, pp, z');
  }

  /** Below a sibling of `p`, `Shift` moves the sibling's index down past the
      removed one and keeps the rest of the path. */
  lemma ShiftCousin(p: Path, y: Path) returns (z': Path)
    requires p != [] && IsPrefix(Parent(p), y) && |y| > |p| - 1 && y[|p| - 1] != Last(p)
    ensures var z := y[|p| - 1..];
            && z' == [if z[0] < Last(p) then z[0] else z[0] - 1] + z[1..]
            && Shift(y, p) == Parent(p) + z'
  {
    var k := |p| - 1;
    var z := y[k..];
    z' := [if z[0] < Last(p) then z[0] else z[0] - 1] + z[1..];
    assert y[..k] == Parent(p);
    if z[0] > Last(p) {
      assert y[k := y[k] - 1] == Parent(p) + z';
    } else {
      assert y == Parent(p) + z';
    }
  }

  /** Removing child `i` of `n` keeps every node below another child, under
      that child's new index. */
  lemma RemoveBelowSibling(n: Node, i: nat, z: Path)
    requires i < |n.children| && ValidPos(n, z) && z != [] && z[0] != i
    ensures var m := n.(children := RemoveIndex(n.children, i));
            var z' := [if z[0] < i then z[0] else z[0] - 1] + z[1..];
            ValidPos(m, z') && At(m, z') == At(n, z)
  {
    var m := n.(children := RemoveIndex(n.children, i));
    var j := if z[0] < i then z[0] else z[0] - 1;
    assert m.children[j] == n.children[z[0]];
  }

  /** Above the popped node the children keep their names; at its parent the
      popped name is gone. */
  lemma RemoveAbove(t: Node, p: Path, y: Path)
    requires ValidPos(t, p) && p != [] && IsPrefix(y, Parent(p))
    ensures ValidPos(t, y) && ValidPos(RemoveChild(t, p), y)
    ensures ValidPos(t, Parent(p)) && Last(p) < |At(t, Parent(p)).children|
    ensures y != Parent(p) ==> Names(At(RemoveChild(t, p), y).children) == Names(At(t, y).children)
    ensures y == Parent(p) ==> At(RemoveChild(t, p), y).children == RemoveIndex(At(t, y).children, Last(p))
  {
    ValidPosParent(t, p);
    var pp := Parent(p);
    var parent := At(t, pp);
    var m := parent.(children := RemoveIndex(parent.children, Last(p)));
    PutAbove(t, pp, m, |y|);
    PutAt(t, pp, m);
    if y != pp {
      ValidPosPrefix(t, pp, |y|);
      NamesBelow(At(t, y), pp[|y|..], m);
    }
  }
}

=== FILE: unique_name.dfy ===
/** `XarrayTreeNode.unique_name`: a name not yet taken, made by suffixing
    `_1`, `_2`, … to the wanted name until one is free. */
module UniqueNames {
  import opened Decimal
  import opened Datasets

  /** The `i`-th candidate: `name + f'_{i}'`. */
  function Candidate(name: string, i: nat): (c: string)
    ensures |c| > |name| + 1 && c[..|name|] == name && c[|name|] == '_'
  {
    name + "_" + Format(i)
  }

  /** Different suffix numbers give different candidates. */
  lemma CandidateInjective(name: string, i: nat, j: nat)
    requires Candidate(name, i) == Candidate(name, j)
    ensures i == j
  {
    assert Candidate(name, i)[|name| + 1..] == Format(i);
    assert Candidate(name, j)[|name| + 1..] == Format(j);
    FormatInjective(i, j);
  }

  /** The candidates `_1` … `_k`. */
  function Candidates(name: string, k: nat): (cs: seq<string>)
    ensures |cs| == k && forall j :: 0 <= j < k ==> cs[j] == Candidate(name, j + 1)
  {
    seq(k, j requires 0 <= j < k => Candidate(name, j + 1))
  }

  lemma CandidatesDistinct(name: string, k: nat)
    ensures Distinct(Candidates(name, k))
  {
    var cs := Candidates(name, k);
    forall a, b | 0 <= a < b < k
      ensures cs[a] != cs[b]
    {
      if cs[a] == cs[b] {
        CandidateInjective(name, a + 1, b + 1);
      }
    }
  }

  /** Pigeonhole: distinct strings that all occur in `names` are no more than
      `names` has entries. */
  lemma {:induction false} FitIn(xs: seq<string>, names: seq<string>)
    requires Distinct(xs) && forall x :: x in xs ==> x in names
    ensures |xs| <= |names|
    decreases |xs|
  {
    if |xs| > 0 {
      var n := |xs| - 1;
      assert xs[n] in xs;
      var k :| 0 <= k < |names| && names[k] == xs[n];
      var rest := names[..k] + names[k + 1..];
      forall x | x in xs[..n]
        ensures x in rest
      {
        var a :| 0 <= a < n && xs[a] == x;
        assert x != xs[n];
        assert x in xs;
        var b :| 0 <= b < |names| && names[b] == x;
        if b < k {
          assert rest[b] == x;
        } else {
          assert rest[b - 1] == x;
        }
      }
      FitIn(xs[..n], rest);
    }
  }

  /** The first free name: `name` itself if free, else the first free
      candidate. */
  method UniqueName(name: string, names: seq<string>) returns (u: string)
    ensures u !in names
    ensures name !in names ==> u == name
    ensures name in names ==>
              exists i :: 1 <= i && u == Candidate(name, i) &&
                          forall j :: 1 <= j < i ==> Candidate(name, j) in names
  {
    if name !in names {
      return name;
    }
    var i := 1;
    u := Candidate(name, i);
    while u in names
      invariant 1 <= i <= |names| + 1
      invariant u == Candidate(name, i)
      invariant forall j :: 1 <= j < i ==> Candidate(name, j) in names
      decreases |names| + 1 - i
    {
      CandidatesDistinct(name, i);
      FitIn(Candidates(name, i), names);
      i := i + 1;
      u := Candidate(name, i);
    }
  }
}

=== FILE: wrappers.dfy ===
/** Failure-compatible wrappers: `Option` for Python's `None` returns and
    `Result` for calls that either return a value or raise. */
module Wrappers {

  datatype Option<+T> = None | Some(value: T) {
    function GetOr(default: T): T {
      match this
      case Some(v) => v
      case None => default
    }
  }

  /** Why a call raised instead of returning. */
  datatype Error =
    | NameConflict     // a `raise` on a sibling or variable name clash, or a rename onto one name
    | MissingDataset   // an attribute lookup on a node whose dataset is `None`
    | MissingDim       // a `KeyError` looking up a dimension size, or `sel` on a missing dimension
    | UnboundLocal     // a local variable read before anything was assigned to it
    | ShapeMismatch    // a `ValueError` assigning values whose shape differs from the selection's

  datatype Result<+R> = Ok(value: R) | Err(error: Error) {
    predicate IsFailure() {
      Err?
    }

    function PropagateFailure<U>(): Result<U>
      requires Err?
    {
      Err(error)
    }

    function Extract(): R
      requires Ok?
    {
      value
    }
  }
}
